=== FILE: README.md ===
# Hack-Hunt core, modelled in Dafny

Hack-Hunt collects hackathon listings from three sources: the MLH events page, the Kaggle
competitions API and the Devpost listing. A fourth adapter, for Devfolio, exists but no job
calls it. The listings go into one MongoDB collection, are served through a small read API,
and are ranked for a user by a language model. This project models the core of that system
and proves properties about it:

- **Records** (`Types`, `HackathonModel`): the record type every adapter produces, and the
  stored document. The stored document has a schema, enumerations, defaults and the unique
  compound key `(title, startDate, source)`.
- **Adapters** (`Mlh`, `Devpost`, `Devfolio`, `Kaggle`): each turns what the browser page
  or the HTTP API yields into records:
  - per-card defaults and mode inference from the location text;
  - image-URL fix-ups and the background-image `url(...)` stripping of Devpost;
  - the Devfolio link filter, container walk, `href` de-duplication and line heuristics;
  - the free-text date rewriting of MLH and Devfolio;
  - the Kaggle credential chain.

  The browser's output is an input. `Date` parsing is a parameter `string -> Option<int>`.
  The current instant and year are parameters too.
- **Persistence** (`Persistence`): the sequential upsert loop of both ingestion jobs. It runs
  over a `HackathonStore` class whose map is keyed by the compound key. It counts inserts and
  updates and skips a write that throws.
- **Orchestration** (`Orchestration`): the command-line job, which selects sources and
  isolates each one. Also the twelve-hourly job, which runs the sources without isolation,
  and its cron schedule.
- **Recommendation** (`Recommendation`, with `Sorting`):
  - location matching;
  - the "local matches plus ten online" pre-filter;
  - the 30-item cap, which sorts in place by start instant;
  - the prompt projection;
  - stripping code fences and reading the reply's shapes;
  - the retry countdown, which retries only on rate limits. A rate limit is HTTP 429
    "Too Many Requests", section 4 of RFC 6585; a daily-quota limit is not retried.
- **Read API** (`Routes`): building the query filter, matching it, sorting, and the 404 and
  500 replies.
- **Frontend kernels**:
  - `Browse`: the browse page filter, badge and pill label mapping;
  - `Card`: the hackathon card's fallback chains, date badge, chips and labels;
  - `AiRecommendations`: the skill parser and the request state of the skill-based panel;
  - `HackathonRecommendations`: the request body and loading state of the filtered panel.

Shared kernels:

- `Text` models the JavaScript string operations used on ASCII text: `toLowerCase`,
  `includes`, `trim`, `split`, `join`, `substring`, and decimal rendering.
- `Filtering` models `filter`, `find`, `map`, and a `forEach` that pushes.
- `Wrappers` holds `Option` and string truthiness.

Behaviours of the source that the model states as lemmas:

- The Devfolio adapter labels its records 'devfolio'. That label is outside the `source`
  union of the record type and outside the schema's enumeration.
- Devpost dates every record with the scrape instant. That instant is part of the upsert
  key, so a re-scrape stores duplicates.
- MLH dates can end before they start.
- Without a location match, the recommendation cap sorts the caller's own array.
- The twelve-hourly job stops at the first adapter that throws.

## Model

| member | source | states |
|---|---|---|
| Types.ModeNameRoundTrip | server/types.ts:7 | The mode union is exactly the three labels: parsing a label inverts naming a mode, and only those three strings parse |
| Types.DatesUnrelated | server/types.ts:1-15 | The record type imposes no order on the two dates: a well-typed record may end before it starts |
| HackathonModel.Inserted | server/models/Hackathon.ts:19-41 | A freshly inserted document sits under the record's own compound key, carries the new identifier and is stamped with the write time |
| HackathonModel.MergedKeepsIdentity | server/models/Hackathon.ts:44 | Updating a document under its key keeps key and identifier, takes every field the record carries (optional ones only when defined) and stamps the write time |
| HackathonModel.MergedIdempotent | server/models/Hackathon.ts:19-41 | Writing the same record twice equals writing it once at the later time; apart from the stamp nothing changes |
| HackathonModel.SourceEnumOnStore | server/models/Hackathon.ts:33-37 | A stored form passes the source enumeration only if the record's label is one of mlh/kaggle/devpost; a 'devfolio' record fails it |
| Persistence.Batch | server/runScrapers.ts:33-47 | The batch yields one outcome per record, in record order |
| Persistence.WriteConsistent | server/runScrapers.ts:35-39 | One upsert keeps the store consistent: each document under its own key, identifiers distinct |
| Persistence.BatchConsistent | server/models/Hackathon.ts:44 | A whole batch keeps at most one document per compound key, each under its own key, with distinct identifiers |
| Persistence.BatchCountsBound | server/runScrapers.ts:41-42 | savedCount + updatedCount never exceeds the number of records |
| Persistence.BatchKeySet | server/runScrapers.ts:33-47 | After the loop the stored keys are the old keys plus exactly the keys whose write did not throw; later records are still written after a failure |
| Persistence.BatchFrame | server/runScrapers.ts:33-39 | A key that no record of the batch carries keeps its document, or its absence, unchanged |
| Persistence.BatchInsertIff | server/runScrapers.ts:41 | Record i counts as an insert iff its write succeeds and its key was neither stored before nor written by an earlier record of the batch |
| Persistence.DuplicateNeverInserts | server/runScrapers.ts:33-42 | With two equal keys in one batch, the later record never counts as an insert once the earlier one was written |
| Persistence.NoInsertWhenAllStored | server/runScrapers.ts:41 | When every key of the batch is already stored, savedCount is 0 |
| Persistence.RerunInsertsNothing | server/runScrapers.ts:33-42 | Re-running a batch whose writes all succeeded inserts nothing new |
| Persistence.LastWriteWins | server/runScrapers.ts:37 | The last successful write of a key decides its document: lastUpdated is that write's time, whatever the record carried; the key and the required fields are that record's, and location and prize are that record's when it carries them (an absent one leaves the stored value) |
| Persistence.UpdateAtNewTimeModifies | server/runScrapers.ts:42 | Updating an existing key at a new time always counts as modified, so a later re-run counts updates |
| Persistence.FoldTwice | server/cron/scheduler.ts:11-15 | Applying the same run of `$set` updates to a document twice equals applying it once |
| Persistence.BatchPerKey | server/cron/scheduler.ts:9-19 | With no failing write, each key's document is the old one (or an empty one under the new identifier) with that key's records applied in batch order |
| Persistence.RerunIdempotent | server/cron/scheduler.ts:9-19 | Running a batch again leaves the same keys with identical documents except lastUpdated, duplicates inside the batch included |
| Persistence.HackathonStore.constructor | server/models/Hackathon.ts:44 | An empty collection is consistent |
| Persistence.HackathonStore.Upsert | server/runScrapers.ts:35-46 | One `updateOne` with upsert, or one caught exception: the new store and the outcome are those of the write specification, and consistency is kept |
| Persistence.HackathonStore.SaveHackathons | server/runScrapers.ts:27-50 | The loop leaves the store as the batch specification says, and returns the insert and modify counts of that batch, whose sum is at most the batch size |
| Persistence.HackathonStore.SaveAll | server/cron/scheduler.ts:8-20 | The scheduler's loop leaves the store as the same batch specification says |
| Orchestration.SelectionExact | server/runScrapers.ts:58-65 | A source runs iff no arguments were given or its exact name is an argument, and the sources run in the fixed order MLH, Kaggle, Devpost |
| Orchestration.SelectionProperties | server/runScrapers.ts:58-65 | No arguments run all three; an unknown argument changes nothing; names are case-sensitive ('MLH' selects nothing); argument order does not change the calling order |
| Orchestration.Returned | server/runScrapers.ts:70-106 | The sources whose adapter returned are exactly the called sources that did not throw |
| Orchestration.ThrowingSourceSkipped | server/runScrapers.ts:70-106 | A source whose adapter throws leaves the store as if it had not been selected, and the later sources still run |
| Orchestration.AfterSourcesGrows | server/runScrapers.ts:70-106 | No later source block removes a stored document |
| Orchestration.ReturnedRecordsStored | server/runScrapers.ts:70-106 | Every record of a source that returned, whose write succeeded, is stored after the run, whatever the other sources did |
| Orchestration.RunSource | server/runScrapers.ts:72-77 | One guarded block: a throwing adapter leaves the store unchanged; otherwise the records are saved as a batch |
| Orchestration.Run | server/runScrapers.ts:52-114 | A failed connection exits with status 1 before any source runs; otherwise the store is the result of the selected sources in order, each isolated, and the status is 0 |
| Orchestration.JobAgreesWithRun | server/cron/scheduler.ts:25-40 | When no adapter throws, the scheduled job completes and leaves the store as `run` with no arguments would |
| Orchestration.FirstThrowStopsJob | server/cron/scheduler.ts:27-37 | Without per-source isolation, an exception from MLH rejects the job with the store untouched, where `run` would still save Kaggle and Devpost |
| Orchestration.ScheduledJob | server/cron/scheduler.ts:24-40 | The job body's store and completion agree with the job specification: sequential fetch and save, stopping at the first adapter that throws |
| Orchestration.FiresTwiceADay | server/cron/scheduler.ts:24 | `0 */12 * * *` fires exactly at 00:00 and 12:00 |
| Mlh.CardLocation | server/services/mlhService.ts:44 | A card's location is never empty: missing or blank text reads as 'Online' |
| Mlh.InferMode | server/services/mlhService.ts:58-61 | The mode is online iff the location mentions "virtual" or "online" in any case, offline otherwise, never hybrid |
| Mlh.FixImageUrlProperties | server/services/mlhService.ts:46-56 | A protocol-relative URL gets `https:` and then starts with "http"; any other URL is unchanged; the fix is idempotent |
| Mlh.ExtractShape | server/services/mlhService.ts:42-77 | An extracted entry always has a non-empty location and is never hybrid |
| Mlh.ExtractedSpec | server/services/mlhService.ts:34-41 | An entry is extracted iff it comes from a card with both a title and a link element; at most one entry per card, and none is dropped when every card is usable |
| Mlh.ExtractEvents | server/services/mlhService.ts:30-81 | The in-page loop pushes exactly the entries of the extraction specification, in card order |
| Mlh.DigitRun | server/services/mlhService.ts:90 | The digit run at the front of a string is all digits and is followed by a non-digit or the end |
| Mlh.RemoveOrdinals | server/services/mlhService.ts:90 | Ordinal removal never lengthens the text |
| Mlh.RemoveOrdinalsKeepsDigits | server/services/mlhService.ts:90 | Removing ordinal suffixes removes letters only: the digits stay, in order |
| Mlh.RemoveOrdinalsWithoutDigits | server/services/mlhService.ts:90 | Text without digits is left unchanged |
| Mlh.OrdinalRemoved | server/services/mlhService.ts:90 | A digit run directly followed by st/nd/rd/th keeps its digits and loses the suffix |
| Mlh.DateStrings | server/services/mlhService.ts:94-111 | Both strings handed to the date parser end with a space and the current year |
| Mlh.DateStringsShape | server/services/mlhService.ts:94-110 | Without '-' start and end strings are both the cleaned text followed by a space and the year; with '-' the split always has the second piece the end is read from |
| Mlh.DateRangeStrings | server/services/mlhService.ts:94-107 | For a cleaned text holding '-': the start string is the first piece trimmed with the year; the end string is the second piece trimmed, preceded by the first word of the start when it is all digits, with the year |
| Mlh.SameMonthRange | server/services/mlhService.ts:96-107 | A range "month d1 - d2" gives start "month d1 year" and end "month d2 year": the end borrows the month |
| Mlh.CrossMonthRange | server/services/mlhService.ts:96-107 | A range "m1 d1 - m2 d2" gives start "m1 d1 year" and end "m2 d2 year": each end keeps its own month |
| Mlh.FebTenToTwelve | server/services/mlhService.ts:96-104 | "Feb 10 - 12" is read as Feb 10 to Feb 12 |
| Mlh.FebToMarch | server/services/mlhService.ts:96-104 | "Feb 28 - Mar 2" is read as Feb 28 to Mar 2 |
| Mlh.ParseDate | server/services/mlhService.ts:113-117 | Each instant is its string's parse when valid, else the current instant, independently of the other |
| Mlh.StartAfterEndPossible | server/services/mlhService.ts:106-117 | Nothing orders the two instants: when the two strings differ, some parser puts the start after the end |
| Mlh.SingleDateSameInstants | server/services/mlhService.ts:108-111 | A date without a range gives equal start and end instants |
| Mlh.ToRecord | server/services/mlhService.ts:124-141 | The record keeps the entry's title, URL and mode and the two parsed instants |
| Mlh.Normalize | server/services/mlhService.ts:124-141 | One record per entry, in order, each with its own parsed dates |
| Mlh.NormalizedFields | server/services/mlhService.ts:64-77 | Every MLH record has organizer 'MLH', isPaid false, no skills, prize '', the fixed description, a well-typed source, a non-empty location and a non-hybrid mode |
| Mlh.FetchMlhHackathons | server/services/mlhService.ts:19-145 | An error inside the `try` gives no records; otherwise one record per usable card, in card order |
| Devpost.StripUrlRoundTrip | server/services/devpostService.ts:54 | Stripping inverts CSS `url(...)` notation, with single, double or no quotes (for an address that neither starts nor ends with a quote) |
| Devpost.StripOpenOf | server/services/devpostService.ts:54 | The leading `url(` and an optional quote after it are removed |
| Devpost.StripCloseOf | server/services/devpostService.ts:54 | The trailing `)` and an optional quote before it are removed |
| Devpost.TileImageUrlSources | server/services/devpostService.ts:47-61 | An image `src` wins over the background; no image and no background (or 'none') give ''; the result is never protocol-relative |
| Devpost.InferMode | server/services/devpostService.ts:68-71 | Mode is online iff the location mentions "online" in any case, else offline; never hybrid |
| Devpost.ExtractShape | server/services/devpostService.ts:42-71 | An entry always has a non-empty location and is never hybrid |
| Devpost.ExtractedSpec | server/services/devpostService.ts:31-39 | An entry is extracted iff it comes from a tile with both a title and an anchor |
| Devpost.ExtractTiles | server/services/devpostService.ts:27-91 | The in-page loop pushes exactly the entries of the extraction specification, in tile order |
| Devpost.ToRecord | server/services/devpostService.ts:73-87 | The record keeps the entry's title, URL, mode, location and prize |
| Devpost.Normalize | server/services/devpostService.ts:95-99 | One record per entry, in order |
| Devpost.NormalizedFields | server/services/devpostService.ts:65-87 | Every Devpost record has the fixed fields, starts and ends at the scrape instant, a non-empty location and a non-hybrid mode |
| Devpost.RescrapeChangesKey | server/services/devpostService.ts:65-66 | The same tile scraped at two instants gets two different upsert keys |
| Devpost.ScrapeDevpost | server/services/devpostService.ts:14-103 | An error inside the `try` gives no records; otherwise one record per usable tile, in tile order |
| Devfolio.Candidates | server/services/devfolioService.ts:31-35 | A link is kept iff its href contains ".devfolio.co" and neither "devfolio.co/hackathons" nor "devfolio.co/blog" |
| Devfolio.ContainerFromSpec | server/services/devfolioService.ts:45-54 | The walk finds the nearest card-like ancestor among the first five, else the sixth ancestor; it finds nothing iff there is no card-like one among at most five ancestors |
| Devfolio.FindContainer | server/services/devfolioService.ts:45-54 | The bounded `while` walk returns the container of the walk specification |
| Devfolio.NonBlank | server/services/devfolioService.ts:59 | A line is kept iff it is a piece with a non-blank character |
| Devfolio.LinesProperties | server/services/devfolioService.ts:59 | Every line is a whole untrimmed piece between line breaks and is not blank |
| Devfolio.FirstLinesAreFirst | server/services/devfolioService.ts:66-72 | The date and location lines are the first matching lines, and are missing only when no line matches |
| Devfolio.MakeEntry | server/services/devfolioService.ts:58-80 | The entry keeps the href and the whole text; its title is the first non-blank line or 'Untitled Hackathon', its date line the first date-like line or '', its location the first line naming a mode or 'Online' |
| Devfolio.EntryHeuristics | server/services/devfolioService.ts:63-72 | The first line naming a month and holding a digit is the date line, which is '' exactly when no line is date-like; the first line naming a mode is the location, 'Online' when none does |
| Devfolio.Entries | server/services/devfolioService.ts:74-80 | One entry per visit, built from that visit's href and container text |
| Devfolio.ScanDistinct | server/services/devfolioService.ts:38-57 | The recorded set is exactly the visited hrefs, and no two visits share an href |
| Devfolio.EntriesDistinct | server/services/devfolioService.ts:38-57 | No two entries share a URL |
| Devfolio.ScanComplete | server/services/devfolioService.ts:56-57 | Every link with a container has its href recorded |
| Devfolio.ScanFirstWins | server/services/devfolioService.ts:40-57 | Each visit comes from the first link with that href that has a container |
| Devfolio.VisitLink | server/services/devfolioService.ts:40-81 | One `forEach` turn does what the scan step specifies, and pushes the entry for its visit |
| Devfolio.CollectEntries | server/services/devfolioService.ts:25-85 | The in-page script returns the entries of the de-duplicated scan over the filtered links |
| Devfolio.MarkerLength | server/services/devfolioService.ts:98 | The marker at the front is 'Apply by', 'Starts' or 'Ends', tried in that order in any case, with its length |
| Devfolio.RemoveMarkers | server/services/devfolioService.ts:98 | Marker removal never lengthens the text |
| Devfolio.MarkerRemoved | server/services/devfolioService.ts:98 | A marker at the front ('Apply by', 'Starts' or 'Ends' in any case) is dropped and removal goes on after it |
| Devfolio.WithoutMarkersKept | server/services/devfolioService.ts:98 | Text in which no marker starts anywhere is unchanged |
| Devfolio.PlainTextKept | server/services/devfolioService.ts:98 | Text before the next marker is kept and removal goes on after it, so with `MarkerRemoved` a marker anywhere in the line is removed (the global replace) |
| Devfolio.CapitalMarkerRemoved | server/services/devfolioService.ts:98 | The match ignores case: a leading "STARTS" is removed |
| Devfolio.RemoveMarkersKeepsDigits | server/services/devfolioService.ts:98 | Removing the markers removes letters only: the date's digits stay, in order |
| Devfolio.EntryDates | server/services/devfolioService.ts:90-107 | An empty date line gives the current instant twice; otherwise the start is the parse of the first '-' piece of the cleaned line with the year, and the end that of the second piece, or the start when there is none |
| Devfolio.EntryRangeDates | server/services/devfolioService.ts:97-102 | A cleaned line "first - second ..." gives the parses of the two trimmed pieces with the year as start and end |
| Devfolio.NowUnusedForDateLine | server/services/devfolioService.ts:91-102 | A non-empty date line gives the same dates whatever the current instant: the clock values are always overwritten |
| Devfolio.SingleDateSameValue | server/services/devfolioService.ts:99-102 | A date line without '-' gives the end the start's value |
| Devfolio.InvalidDateKept | server/services/devfolioService.ts:95-107 | An unparseable date line leaves Invalid Dates, with no fallback to the current instant |
| Devfolio.InferMode | server/services/devfolioService.ts:109-111 | Online iff the location mentions "online"; hybrid iff it mentions "hybrid" but not "online"; offline iff it mentions neither (any case) |
| Devfolio.DefaultLocationOnline | server/services/devfolioService.ts:72 | The default location 'Online' infers mode online |
| Devfolio.ToListing | server/services/devfolioService.ts:113-127 | The listing keeps the entry's title, URL and location, and takes the entry's dates |
| Devfolio.Listings | server/services/devfolioService.ts:89-128 | One listing per entry, in order |
| Devfolio.ListingFields | server/services/devfolioService.ts:113-127 | Fixed fields: organizer 'Devfolio', isPaid false, no skills, prize 'See details', empty image URL; the source label lies outside the declared union |
| Devfolio.ScrapeDevfolio | server/services/devfolioService.ts:14-132 | An error inside the `try` gives no listings; otherwise one listing per de-duplicated entry, in page order |
| Kaggle.CredentialPrecedence | server/services/kaggleService.ts:9-38 | The environment pair wins when both are set; an unparseable file is skipped; a parsed file ends the search even without fields; nothing usable gives null |
| Kaggle.Authorization | server/services/kaggleService.ts:54 | The header is "Bearer " followed by exactly the key |
| Kaggle.ToRecord | server/services/kaggleService.ts:65-80 | The record keeps the competition's title and description, and starts and ends at its enabled date and deadline |
| Kaggle.RecordFields | server/services/kaggleService.ts:65-80 | Fixed Kaggle fields; the URL is the competition page for its ref; organizer and prize fall back exactly when the value is falsy |
| Kaggle.FetchCompetitions | server/services/kaggleService.ts:40-85 | No usable credentials or a request error gives no records; otherwise one record per competition, in order |
| Kaggle.NoRequestWithoutCredentials | server/services/kaggleService.ts:43-46 | Without usable credentials the result does not depend on any response |
| Kaggle.IncompleteLocalFileSkipsKaggle | server/services/kaggleService.ts:17-24 | A local file holding null or lacking the key stops the chain and skips Kaggle, even when the home file would work |
| Recommendation.LocationMatchProperties | server/services/recommendationService.ts:12-17 | The match is symmetric, ignores case, holds between a non-empty location and itself, and is false for an empty or absent side |
| Recommendation.LocalMatches | server/services/recommendationService.ts:37-39 | The local hackathons are exactly the inputs whose location matches |
| Recommendation.OnlineOnes | server/services/recommendationService.ts:43 | The online hackathons are exactly the inputs whose location mentions "online" or whose mode is online |
| Recommendation.PrefilterShape | server/services/recommendationService.ts:33-47 | The filter fires iff a location is given and some hackathon matches it. Then every candidate is local or online, every local match is kept, and at most ten are added as online. Otherwise the list is unchanged |
| Recommendation.LocalAndOnlineListedTwice | server/services/recommendationService.ts:45 | A local hackathon that is also online is listed twice: duplicates are not removed |
| Recommendation.CapSpec | server/services/recommendationService.ts:51-55 | At most 30 remain; 30 or fewer are untouched; a longer list keeps 30 of its own elements, sorted by start, none later than any dropped one |
| Recommendation.Project | server/services/recommendationService.ts:59-65 | A prompt item keeps title, mode and location; its description is the first min(length, 300) characters |
| Recommendation.Projected | server/services/recommendationService.ts:59 | One prompt item per candidate, in order |
| Recommendation.PromptLocation | server/services/recommendationService.ts:71 | The user location line is the location when truthy, else "Not specified" |
| Recommendation.StripFencesPlain | server/services/recommendationService.ts:115 | Text without a backtick passes the fence removal unchanged |
| Recommendation.StripFencesClosing | server/services/recommendationService.ts:115 | A closing fence loses its preceding newline with it |
| Recommendation.FenceRoundTrip | server/services/recommendationService.ts:115 | Fencing a reply as a json code block and stripping it gives the reply back |
| Recommendation.RecommendationsShapes | server/services/recommendationService.ts:129-135 | A `recommendations` array or a bare array is taken as is; an object with a truthy `hackathonTitle` becomes a singleton; null, `{}` or a non-array `recommendations` give none |
| Recommendation.ItemsTakenAsIs | server/services/recommendationService.ts:127-137 | Items are neither checked against the listed titles, nor cut to three, nor given a score between 0 and 100 |
| Recommendation.CleanFalsyContent | server/services/recommendationService.ts:113-115 | An empty or missing content is parsed as "{}" |
| Recommendation.EmptyContentGivesNothing | server/services/recommendationService.ts:113-137 | An empty or missing content yields no items |
| Recommendation.FencedContentUnwrapped | server/services/recommendationService.ts:115 | A fenced reply reads as the trimmed text inside the fence |
| Recommendation.MakeRequestDelays | server/services/recommendationService.ts:139-146 | At most `retries` waits, doubling from the first delay, each after a retryable rate-limit error |
| Recommendation.MakeRequestResult | server/services/recommendationService.ts:94-150 | The first attempt that is not retried decides the result: its answer when the model responded, no items when it threw |
| Recommendation.RetrySchedule | server/services/recommendationService.ts:94-153 | At most four attempts, waiting 1000, 2000 and 4000 ms, only after 429 errors; a final error gives no items |
| Recommendation.DailyQuotaNotRetried | server/services/recommendationService.ts:140-142 | An error whose message contains "tokens per day (TPD)" ends the request at once with no items |
| Recommendation.RequestWithRetries | server/services/recommendationService.ts:94-153 | The countdown loop returns exactly the items and waits of the retry specification |
| Recommendation.GetRecommendedHackathons | server/services/recommendationService.ts:19-154 | No API key means no prompt and no items. Otherwise the prompt lists the capped, pre-filtered candidates and the result is the retry specification's. The caller's array is sorted in place exactly when the cap applies to it unfiltered |
| Sorting.SortBySpec | server/services/recommendationService.ts:53 | The sort orders by start and is a permutation of its input |
| Sorting.SortedPrefix | server/services/recommendationService.ts:54 | The first n of a sorted list are sorted, are some of its elements, and none is later than any left behind |
| Sorting.SortSorted | server/services/recommendationService.ts:53 | Sorting an already sorted list leaves it as it is |
| Sorting.InsertAt | server/services/recommendationService.ts:53 | One insertion step moves `a[i]` into the sorted prefix and leaves the rest of the array untouched |
| Sorting.SortInPlace | server/services/recommendationService.ts:53 | The array ends up as `SortBy` of its old contents: sorted by start instant and a permutation of them |
| Routes.SkillTerms | server/routes/hackathons.ts:14 | One term per comma plus one, each the trimmed piece |
| Routes.BuildQuery | server/routes/hackathons.ts:9-28 | The query object filled key by key is the filter the parameters denote |
| Routes.FilterSemantics | server/routes/hackathons.ts:9-30 | No parameters match everything; empty parameters add no constraint; isPaid is true only for exactly 'true', so 'TRUE' selects unpaid documents; mode and source match exactly |
| Routes.NoSkillsNoMatch | server/routes/hackathons.ts:15 | A document without skills never matches a skills query |
| Routes.TrailingCommaMatchesAll | server/routes/hackathons.ts:14-15 | A trailing comma leaves an empty term, which matches any document with a skill |
| Routes.TermIgnoresCase | server/routes/hackathons.ts:15 | A term matches a skill in another letter case |
| Routes.Matching | server/routes/hackathons.ts:30 | A document is listed iff it is stored and matches the filter |
| Routes.FindSpec | server/routes/hackathons.ts:30 | The listing is sorted by start and holds each matching document as often as stored; when all match, it is the whole collection |
| Routes.GetAll | server/routes/hackathons.ts:7-35 | A failing query gives 500 with its message; otherwise 200 with the documents the filter built from the query parameters selects, soonest first |
| Routes.ListingWithoutParameters | server/routes/hackathons.ts:9-31 | With no parameters the reply is 200 with the whole collection, soonest first |
| Routes.FindById | server/routes/hackathons.ts:40 | A found document is stored under that identifier; nothing is found only when no document has it |
| Routes.GetById | server/routes/hackathons.ts:38-49 | A thrown error gives 500 with its message (a malformed identifier gives the cast error); otherwise 404 'Hackathon not found' iff no document has the identifier, and 200 with the first document that has it |
| Browse.FilterEvents | src/pages/Hackathons.tsx:39-61 | Filtering never adds events |
| Browse.FilterEventsSpec | src/pages/Hackathons.tsx:39-60 | An event is shown iff it is on the page and passes all four tests; filtering keeps page order |
| Browse.FilterCases | src/pages/Hackathons.tsx:41-57 | An empty search passes all; search ignores case; a selected skill must equal a skill, not be a substring of one; mode and type are membership tests |
| Browse.ClearFilters | src/pages/Hackathons.tsx:63-68 | After clearing, no filter is active |
| Browse.InactiveShowsAll | src/pages/Hackathons.tsx:39-74 | Without active filters every event is shown |
| Browse.BadgeCount | src/pages/Hackathons.tsx:118 | The badge is 0 iff no selection is made |
| Browse.BadgeIgnoresSearch | src/pages/Hackathons.tsx:116-118 | A search alone makes filters active while the badge shows 0 |
| Browse.Displayed | src/pages/Hackathons.tsx:157 | Each stored label shows capitalised |
| Browse.Stored | src/pages/Hackathons.tsx:159 | Each pill label is stored lower-cased |
| Browse.SelectionRoundTrip | src/pages/Hackathons.tsx:156-173 | A lower-case selection survives the trip to the pills and back; every mode and type option does |
| Card.OrElse | src/components/HackathonCard.tsx:16-21 | `s \|\| fallback`: the value when truthy, else the fallback |
| Card.DayLabel | src/components/HackathonCard.tsx:58 | "?" iff the day is missing or not positive; otherwise the decimal digits of the day |
| Card.ParticipantsLabel | src/components/HackathonCard.tsx:98 | "Open" iff participants is not positive; otherwise the number's digits followed by "+" |
| Card.ChipsSpec | src/components/HackathonCard.tsx:119-131 | At most three chips, the first skills in order; a "+k" chip iff skills are hidden, with shown plus k equal to the skill count |
| Card.Render | src/components/HackathonCard.tsx:13 | A missing hackathon renders nothing, and a present one always renders |
| Card.FallbackChains | src/components/HackathonCard.tsx:16-24 | Each shown value is its field when truthy, else its default: name, then title, then "Untitled Event"; "Unknown Organizer"; "Online"; "TBD"; mode "online"; type from isPaid; `_id`, else `id`. A missing participant count shows as for 0 ("Open") and missing skills as no chips |
| Card.DatePrecedence | src/components/HackathonCard.tsx:27-37 | On the rendered card a truthy startDate gives the month and day label of its calendar date; otherwise the legacy month (or "TBD") and a positive legacy day are shown; with neither the month is "TBD" and the day shows "?", as for a legacy day of 0 or an invalid startDate; the mode and type labels are the capitalised mode and type |
| AiRecommendations.ParseSkillsSpec | src/components/AIRecommendations.tsx:37 | At most commas-plus-one skills, each non-empty, trimmed and comma-free |
| AiRecommendations.ParseSkillsRoundTrip | src/components/AIRecommendations.tsx:37 | Trimmed, non-empty, comma-free skills joined with commas parse back to themselves, in order |
| AiRecommendations.CommaOnlyParsesToNothing | src/components/AIRecommendations.tsx:23-37 | A lone comma is not blank, so a request is sent, with no skills |
| AiRecommendations.Panel.constructor | src/components/AIRecommendations.tsx:16-20 | The initial state: no skills, no recommendations, not loading, no error, not searched |
| AiRecommendations.Panel.SetSkills | src/components/AIRecommendations.tsx:74 | Typing replaces the input and nothing else |
| AiRecommendations.Panel.Begin | src/components/AIRecommendations.tsx:23-37 | Blank input sends nothing and changes nothing; otherwise loading, no error, searched, and the parsed skills are sent |
| AiRecommendations.Panel.Finish | src/components/AIRecommendations.tsx:41-52 | An OK reply replaces the recommendations; a failure keeps them and sets the fixed message; loading ends either way |
| AiRecommendations.Panel.HandleGetRecommendations | src/components/AIRecommendations.tsx:22-53 | The whole handler: blank input changes nothing; otherwise the parsed skills are sent, loading ends, and success or failure sets the recommendations or the error |
| HackathonRecommendations.FiltersForSpec | src/components/HackathonRecommendations.tsx:46-49 | The mode is sent iff chosen (not empty, not 'all'); isPaid only as true; location iff not empty; nothing else; the initial choices send `{}` |
| HackathonRecommendations.LocationAlwaysSent | src/components/HackathonRecommendations.tsx:55-59 | userLocation is always sent, even empty, while `filters` carries the location only when non-empty |
| HackathonRecommendations.DetectedCity | src/components/HackathonRecommendations.tsx:32-33 | `city \|\| locality`: a non-empty one of the two, and none only when both are empty or missing |
| HackathonRecommendations.Panel.constructor | src/components/HackathonRecommendations.tsx:16-23 | Skills default to React, TypeScript, Node.js; no location, mode 'all', not paid-only, not loading |
| HackathonRecommendations.Panel.SetFilters | src/components/HackathonRecommendations.tsx:93-120 | The three controls replace location, mode and the paid flag and nothing else |
| HackathonRecommendations.Panel.ApplyDetectedCity | src/components/HackathonRecommendations.tsx:32-33 | A detected city replaces the location; none leaves it |
| HackathonRecommendations.Panel.BuildFilters | src/components/HackathonRecommendations.tsx:46-49 | The object filled key by key is the filter specification's |
| HackathonRecommendations.Panel.BeginFetch | src/components/HackathonRecommendations.tsx:44-60 | Loading starts and the body carries the skills, the location and the filters |
| HackathonRecommendations.Panel.FinishFetch | src/components/HackathonRecommendations.tsx:61-66 | A parsed reply replaces the recommendations, even an error body; a thrown error keeps them; loading ends |
| HackathonRecommendations.Panel.FetchRecommendations | src/components/HackathonRecommendations.tsx:43-68 | The whole request: the body as specified, loading ended, the recommendations as the reply decides |
| Text.Lower | src/pages/Hackathons.tsx:43-50 | `toLowerCase` keeps the length and lower-cases each letter |
| Text.LowerCapitalize | src/pages/Hackathons.tsx:156-159 | Lower-casing a capitalised lower-case word gives the word back |
| Text.Capitalize | src/components/HackathonCard.tsx:73 | Capitalising changes only the first character, to upper case |
| Text.ContainsIff | server/services/recommendationService.ts:16 | `includes` holds iff the text occurs at some position |
| Text.TrimSlice | server/services/mlhService.ts:42 | `trim` keeps a contiguous slice and drops only white space around it |
| Text.TrimAround | server/services/mlhService.ts:95 | White space around a core that neither starts nor ends with white space is trimmed away, leaving the core |
| Text.TrimOfEmpty | server/routes/hackathons.ts:14 | The empty string trims to the empty string |
| Text.TrimEmptyIff | server/services/devfolioService.ts:59 | A string trims to "" iff it is all white space |
| Text.TrimIdempotent | src/components/AIRecommendations.tsx:37 | Trimming twice is trimming once |
| Text.TextOr | server/services/mlhService.ts:42-44 | `el?.textContent?.trim() \|\| fallback`: the trimmed text, or the fallback when the element is missing or blank |
| Text.SplitShape | server/routes/hackathons.ts:14 | `split` gives one piece more than separators, none holding a separator |
| Text.JoinSplit | server/routes/hackathons.ts:14 | Joining the pieces with the separator gives the string back |
| Text.SplitJoin | src/components/AIRecommendations.tsx:37 | Splitting separator-free pieces joined with the separator gives them back |
| Text.SplitWithout | server/services/devfolioService.ts:99 | Without the separator, `split` gives the whole string as the only piece |
| Text.SplitPrefixPieces | server/services/mlhService.ts:95 | Splitting "first c second rest" (pieces without c, rest empty or starting with c) gives first and second as the first two pieces |
| Text.SplitFirstTwo | server/services/mlhService.ts:94-95 | Every string holding c is such a "first c second rest" |
| Text.Take | server/services/recommendationService.ts:61 | `substring(0, n)` is a prefix of length min(length, n) |
| Text.DecimalRoundTrip | src/components/HackathonCard.tsx:98 | The decimal rendering of a number reads back as the number |
| Filtering.FilterMembers | src/pages/Hackathons.tsx:40 | `filter` keeps an element iff it is in the input and passes |
| Filtering.FilterAppend | src/pages/Hackathons.tsx:40 | `filter` distributes over concatenation, so order is kept |
| Filtering.CollectMembers | server/services/mlhService.ts:34-79 | A `forEach` that pushes collects a value iff some passing element computes it |
| Filtering.FindFirst | server/services/devfolioService.ts:66-72 | `find` returns a passing element of the input, and nothing only when none passes |
| Filtering.FindFirstIsFirst | server/services/devfolioService.ts:66-72 | `find` returns the first passing element |

## Left out

- The browser runs of the three scraping adapters are not modelled: launch, navigation, selector waits, `page.evaluate` and closing. Their product, the cards with the text of their elements, is an input. A launch failure is outside each adapter's `try`, so it is an exception (`FetchOutcome.Threw`) in the two jobs.
- The Devfolio container walk reads each ancestor's `innerText` and rendered height as given inputs, with no layout computation.
- JavaScript `Date` is a parameter: the string parser (`None` for an Invalid Date), the current instant, the current year, and the locale month name and `getDate` of the card. Kaggle's `enabledDate` and `deadline` are taken as instants already. The Devpost `toISOString` round trip is taken to keep the instant.
- Mlh.SingleDateSameInstants: both fallbacks to the current instant (server/services/mlhService.ts:114-115) read one `now`. In the source they are two clock reads, so for an unparseable date the two instants are equal only when both reads fall in the same millisecond.
- Devfolio.EntryDates: the two defaults `new Date()` (server/services/devfolioService.ts:91-92) are one `now`. For an empty date line the source's start and end may differ by the time between the two reads.
- Devpost.NormalizedFields: the two `new Date().toISOString()` calls of a tile (server/services/devpostService.ts:65-66) are one `now` for the whole scrape. In the source start and end may differ by a clock tick, and so may the instants of different tiles. Two tiles with the same title therefore always share an upsert key in the model, while in the source they share one only when their clock reads agree.
- The Groq SDK call, the real waits and `JSON.parse` are left out. The model's reply is the sequence of attempt outcomes, a wait is recorded in a list, and parsing is a parameter. The prompt's fixed prose and its `JSON.stringify` layout are not modelled, only what the prompt carries.
- JSON numbers are integers in `Recommendation.Json`; no value in the model needs a fraction.
- Mongo and Mongoose I/O are not modelled. That covers connecting, `updateOne`, `findOneAndUpdate`, `find` and `findById`. The store is a map by compound key, and the time and success of each write are inputs.
- Mongoose validators are not run on writes; `HackathonModel.SchemaValid` states what they would accept.
- Persistence.HackathonStore.SaveAll: the scheduler's loop returns the stored documents, which are unused and not modelled.
- Routes.FindSpec: the model fixes one order among equal start dates, the one `SortBy` gives; MongoDB does not promise any order among them.
- A skills term is a regular expression built from user input. It is modelled as a case-insensitive substring, so terms with regex metacharacters behave differently in the source.
- A query parameter given several times (an array) is not modelled; each parameter is absent or one string.
- Kaggle's HTTP request and its `fs` and environment reads are inputs. The home-directory path and the parsing of each file are not modelled.
- Process plumbing is left out: cron registration (only the expression is modelled), Express, `process.argv` (the argument list is an input) and `process.exit` (an exit code).
- Logging is not modelled. The `source` label of `saveHackathons` appears only in log lines.
- `Text` folds letter case on ASCII only; `toLowerCase` on other letters is not modelled. White space is the ECMAScript set `trim` removes: tab, vertical tab, form feed, space, U+00A0, U+FEFF, the line terminators and the Unicode space separators.
- React rendering, hooks, effects and the pages with no core logic are left out. The browse page's memo dependency list omits `hackathons`, so a stale list can be shown. That scheduling effect is not modelled; only the filter predicate is.
- Browse.Shown reads `name` and `type` as the page does, which assumes the frontend mock shape. Stored documents have `title` and no `type`, and this mismatch is not modelled.
- The geolocation request and the reverse-geocoding fetch are left out. What they yield is the `city` and `locality` input of `HackathonRecommendations.Panel.ApplyDetectedCity`.
- Every frontend `fetch` is an input. The `POST /api/hackathons/recommend` route the panels call is not part of this model.
- HackathonRecommendations.Panel.FinishFetch: the reply's status is not checked by the source, so an error body is stored as the recommendations. That is modelled as written.
- The stored schema has no `imageUrl` path, so adapters' image URLs are not kept in `HackathonModel.Document`.

=== FILE: ai_recommendations.dfy ===
/**
 * The skill-based recommendation panel (src/components/AIRecommendations.tsx): the
 * comma-separated skill parser, and the `loading` / `error` / `searched` /
 * `recommendations` state stepped by one request. The HTTP reply is an input.
 */
module AiRecommendations {
  import opened Wrappers
  import opened Text
  import opened Filtering

  /** One recommendation as the server sends it. */
  datatype Recommendation = Recommendation(hackathonTitle: string, matchScore: int, reason: string)

  /** Each piece trimmed. */
  function TrimAll(parts: seq<string>): (r: seq<string>)
    ensures |r| == |parts| && forall i :: 0 <= i < |r| ==> r[i] == Trim(parts[i])
  {
    seq(|parts|, i requires 0 <= i < |parts| => Trim(parts[i]))
  }

  predicate NonEmpty(s: string)
  {
    |s| > 0
  }

  /** `skills.split(',').map(s => s.trim()).filter(s => s.length > 0)`. */
  function ParseSkills(input: string): seq<string>
  {
    Filter(TrimAll(Split(input, ',')), NonEmpty)
  }

  /** Every parsed skill is non-empty, trimmed and free of commas, and there are at most
      as many as the commas plus one. */
  lemma ParseSkillsSpec(input: string, skill: string)
    ensures |ParseSkills(input)| <= Count(input, ',') + 1
    ensures skill in ParseSkills(input) ==> skill != "" && Trim(skill) == skill && ',' !in skill
  {
    var parts := Split(input, ',');
    SplitShape(input, ',');
    FilterMembers(TrimAll(parts), NonEmpty, skill);
    if skill in ParseSkills(input) {
      var i :| 0 <= i < |parts| && TrimAll(parts)[i] == skill;
      TrimIdempotent(parts[i]);
      var a := TrimSlice(parts[i]);
      assert ',' !in parts[i];
    }
  }

  /** Trimmed, non-empty, comma-free skills joined with commas parse back to themselves,
      in order. */
  lemma ParseSkillsRoundTrip(skills: seq<string>)
    requires forall i :: 0 <= i < |skills| ==> skills[i] != "" && Trim(skills[i]) == skills[i] && ',' !in skills[i]
    ensures ParseSkills(Join(skills, ",")) == skills
  {
    if skills == [] {
      EmptyInputParsesToNothing();
    } else {
      SplitJoin(skills, ',');
      ParseSplitPieces(Join(skills, ","), skills);
    }
  }

  /** Input whose pieces are already trimmed and non-empty parses to those pieces. */
  lemma ParseSplitPieces(input: string, pieces: seq<string>)
    requires Split(input, ',') == pieces
    requires forall i :: 0 <= i < |pieces| ==> pieces[i] != "" && Trim(pieces[i]) == pieces[i]
    ensures ParseSkills(input) == pieces
  {
    TrimAllTrimmed(pieces);
    FilterAll(pieces, NonEmpty);
  }

  lemma EmptyInputParsesToNothing()
    ensures ParseSkills("") == []
  {
    assert Split("", ',') == [""];
    assert TrimAll([""]) == [Trim("")];
    assert Trim("") == "";
  }

  /** Trimming pieces that are already trimmed changes nothing. */
  lemma TrimAllTrimmed(parts: seq<string>)
    requires forall i :: 0 <= i < |parts| ==> Trim(parts[i]) == parts[i]
    ensures TrimAll(parts) == parts
  {
  }

  /** Input with a non-blank character may still yield no skill: a lone comma is not
      blank, so a request is made with an empty skill list. */
  lemma CommaOnlyParsesToNothing()
    ensures Trim(",") == "," && ParseSkills(",") == []
  {
    assert TrimStart(",") == ",";
    assert TrimEnd(",") == ",";
    assert Split(",", ',') == ["", ""] by {
      assert Split(",", ',') == [""] + Split("", ',');
    }
    assert TrimAll(["", ""]) == ["", ""] by { assert Trim("") == ""; }
  }

  /** The outcome of the request: an OK reply with its body, a reply that is not OK, or a
      thrown error (network, or a body that is not JSON). */
  datatype Reply = Ok(data: seq<Recommendation>) | NotOk | Threw

  const FailureMessage: string := "Failed to generate recommendations. Please try again."

  /** The panel's state. */
  class Panel {
    var skills: string
    var recommendations: seq<Recommendation>
    var loading: bool
    var error: Option<string>
    var searched: bool

    constructor()
      ensures skills == "" && recommendations == [] && !loading && error == None && !searched
    {
      skills := "";
      recommendations := [];
      loading := false;
      error := None;
      searched := false;
    }

    /** Typing in the input. */
    method SetSkills(input: string)
      modifies this
      ensures skills == input
      ensures recommendations == old(recommendations) && loading == old(loading)
      ensures error == old(error) && searched == old(searched)
    {
      skills := input;
    }

    /** The start of `handleGetRecommendations`: blank input changes nothing and sends
      nothing; otherwise the panel is loading, has no error, has searched, and the parsed
      skills are sent. */
    method Begin() returns (sent: Option<seq<string>>)
      modifies this
      ensures Trim(old(skills)) == "" ==> sent == None && loading == old(loading) && error == old(error) && searched == old(searched)
      ensures Trim(old(skills)) != "" ==> sent == Some(ParseSkills(skills)) && loading && error == None && searched
      ensures skills == old(skills) && recommendations == old(recommendations)
    {
      var input := skills;
      if Trim(input) == "" {
        sent := None;
      } else {
        loading := true;
        error := None;
        searched := true;
        sent := Some(ParseSkills(input));
      }
    }

    /** The end of the request: an OK reply replaces the recommendations; a failure keeps
      them and sets the fixed message; loading ends either way. */
    method Finish(reply: Reply)
      modifies this
      ensures !loading
      ensures reply.Ok? ==> recommendations == reply.data && error == old(error)
      ensures !reply.Ok? ==> recommendations == old(recommendations) && error == Some(FailureMessage)
      ensures skills == old(skills) && searched == old(searched)
    {
      if reply.Ok? {
        recommendations := reply.data;
      } else {
        error := Some(FailureMessage);
      }
      loading := false;
    }

    /** `handleGetRecommendations` with the reply the request gets. */
    method HandleGetRecommendations(reply: Reply) returns (sent: Option<seq<string>>)
      modifies this
      ensures Trim(old(skills)) == "" ==>
        && sent == None && loading == old(loading) && error == old(error) && searched == old(searched)
        && recommendations == old(recommendations)
      ensures Trim(old(skills)) != "" ==>
        && sent == Some(ParseSkills(old(skills))) && !loading && searched
        && (reply.Ok? ==> recommendations == reply.data && error == None)
        && (!reply.Ok? ==> recommendations == old(recommendations) && error == Some(FailureMessage))
      ensures skills == old(skills)
    {
      sent := Begin();
      if sent.Some? {
        Finish(reply);
      }
    }
  }
}

=== FILE: browse.dfy ===
/**
 * The browse page's filtering (src/pages/Hackathons.tsx): a free-text search and three
 * multi-select filters over the events the page shows, the "active filters" badge, and the
 * mapping between the lower-case stored labels and the capitalised labels of the pills.
 * Events have the page's own shape: a name, an organizer, skills, a mode and an entry type.
 */
module Browse {
  import opened Text
  import opened Filtering

  /** An event as the page reads it; `entryType` is its 'free' or 'paid' type. */
  datatype Event = Event(name: string, organizer: string, skills: seq<string>, mode: string, entryType: string)

  /** The page's filter state. */
  datatype Filters = Filters(search: string, selectedSkills: seq<string>, selectedMode: seq<string>, selectedType: seq<string>)

  /** The search is empty, or a case-insensitive substring of the name, the organizer or
      one of the skills. */
  predicate MatchesSearch(h: Event, search: string)
  {
    || search == ""
    || ContainsCI(h.name, search)
    || ContainsCI(h.organizer, search)
    || exists i :: 0 <= i < |h.skills| && ContainsCI(h.skills[i], search)
  }

  /** No skill selected, or some selected skill equals some skill of the event once both
      are lower-cased (whole-word equality, not a substring). */
  predicate MatchesSkills(h: Event, selected: seq<string>)
  {
    || |selected| == 0
    || exists i, j :: 0 <= i < |selected| && 0 <= j < |h.skills| && Lower(h.skills[j]) == Lower(selected[i])
  }

  predicate Shown(h: Event, f: Filters)
  {
    && MatchesSearch(h, f.search)
    && MatchesSkills(h, f.selectedSkills)
    && (|f.selectedMode| == 0 || h.mode in f.selectedMode)
    && (|f.selectedType| == 0 || h.entryType in f.selectedType)
  }

  /** `filteredHackathons`: the events that pass all four tests, in page order. */
  function FilterEvents(hs: seq<Event>, f: Filters): (r: seq<Event>)
    ensures |r| <= |hs|
  {
    Filter(hs, h => Shown(h, f))
  }

  /** The result is the ordered subsequence of passing events: an event is kept iff it is
      on the page and passes the four tests, and filtering distributes over
      concatenation, so page order is kept. */
  lemma FilterEventsSpec(a: seq<Event>, b: seq<Event>, f: Filters, h: Event)
    ensures h in FilterEvents(a, f) <==> h in a && Shown(h, f)
    ensures FilterEvents(a + b, f) == FilterEvents(a, f) + FilterEvents(b, f)
  {
    FilterMembers(a, h => Shown(h, f), h);
    FilterAppend(a, b, h => Shown(h, f));
  }

  /** How each filter reads: an empty search passes everything; a search matches in any
      letter case; a selected skill must equal a skill, so a substring of one does not
      match; a mode or type selection is a membership test. */
  lemma FilterCases(h: Event)
    ensures MatchesSearch(h, "")
    ensures MatchesSearch(Event("HackMIT", "MIT", [], "offline", "free"), "hackmit")
    ensures MatchesSkills(Event("x", "y", ["TypeScript"], "online", "free"), ["typescript"])
    ensures !MatchesSkills(Event("x", "y", ["TypeScript"], "online", "free"), ["Type"])
    ensures Shown(h, Filters("", [], [h.mode], [h.entryType]))
    ensures h.mode != "online" ==> !Shown(h, Filters("", [], ["online"], []))
  {
    assert Lower("HackMIT") == "hackmit";
    assert Lower("hackmit") == "hackmit";
    ContainsSelf("hackmit");
    var e := Event("x", "y", ["TypeScript"], "online", "free");
    assert Lower("TypeScript") == "typescript" && Lower("typescript") == "typescript";
    assert Lower(e.skills[0]) == Lower(["typescript"][0]);
    assert Lower("Type") == "type";
  }

  /** `hasActiveFilters`. */
  predicate HasActiveFilters(f: Filters)
  {
    |f.selectedSkills| > 0 || |f.selectedMode| > 0 || |f.selectedType| > 0 || f.search != ""
  }

  /** `clearFilters`: every selection emptied and the search cleared. */
  function ClearFilters(f: Filters): (r: Filters)
    ensures !HasActiveFilters(r)
  {
    f.(search := "", selectedSkills := [], selectedMode := [], selectedType := [])
  }

  /** Without active filters every event is shown; so clearing shows them all. */
  lemma InactiveShowsAll(hs: seq<Event>, f: Filters)
    requires !HasActiveFilters(f)
    ensures FilterEvents(hs, f) == hs
  {
    FilterAll(hs, h => Shown(h, f));
  }

  /** The number on the filter button: the selections, not the search. */
  function BadgeCount(f: Filters): (n: nat)
    ensures n == 0 <==> |f.selectedSkills| == 0 && |f.selectedMode| == 0 && |f.selectedType| == 0
  {
    |f.selectedSkills| + |f.selectedMode| + |f.selectedType|
  }

  /** The badge shows 0 when only a search is active. */
  lemma BadgeIgnoresSearch(f: Filters)
    ensures HasActiveFilters(f) && BadgeCount(f) == 0 <==> f.search != "" && BadgeCount(f) == 0
  {
  }

  const Modes: seq<string> := ["online", "offline", "hybrid"]
  const Types: seq<string> := ["free", "paid"]

  /** The pill labels of a selection. */
  function Displayed(selection: seq<string>): (r: seq<string>)
    ensures |r| == |selection| && forall i :: 0 <= i < |r| ==> r[i] == Capitalize(selection[i])
  {
    seq(|selection|, i requires 0 <= i < |selection| => Capitalize(selection[i]))
  }

  /** What a pill change stores: each label lower-cased. */
  function Stored(labels: seq<string>): (r: seq<string>)
    ensures |r| == |labels| && forall i :: 0 <= i < |r| ==> r[i] == Lower(labels[i])
  {
    seq(|labels|, i requires 0 <= i < |labels| => Lower(labels[i]))
  }

  /** A selection of lower-case labels survives the trip to the pills and back; in
      particular every mode and type option does. */
  lemma SelectionRoundTrip(selection: seq<string>)
    requires forall i :: 0 <= i < |selection| ==> IsLowerCase(selection[i])
    ensures Stored(Displayed(selection)) == selection
    ensures Stored(Displayed(Modes)) == Modes && Stored(Displayed(Types)) == Types
  {
    forall i | 0 <= i < |selection| ensures Stored(Displayed(selection))[i] == selection[i] {
      LowerCapitalize(selection[i]);
    }
    forall i | 0 <= i < |Modes| ensures Stored(Displayed(Modes))[i] == Modes[i] {
      LowerCapitalize(Modes[i]);
    }
    forall i | 0 <= i < |Types| ensures Stored(Displayed(Types))[i] == Types[i] {
      LowerCapitalize(Types[i]);
    }
  }
}

=== FILE: card.dfy ===
/**
 * What a hackathon card displays (src/components/HackathonCard.tsx). The card accepts both
 * the frontend's mock events and stored documents, so every field may be missing; each
 * displayed value falls back along a chain of JavaScript `||` defaults. Reading a calendar
 * date from `startDate` (`new Date`, the locale's short month name, `getDate`) is the
 * parameter `calendar`.
 */
module Card {
  import opened Wrappers
  import opened Text

  /** The legacy `date` object of mock events. */
  datatype LegacyDate = LegacyDate(month: Option<string>, day: Option<int>)

  /** The fields the card reads; `mongoId` is `_id`, `entryType` is `type`. A missing
      `isPaid` reads as false. */
  datatype CardInput = CardInput(
    name: Option<string>,
    title: Option<string>,
    organizer: Option<string>,
    location: Option<string>,
    mode: Option<string>,
    entryType: Option<string>,
    isPaid: bool,
    prize: Option<string>,
    participants: Option<int>,
    skills: Option<seq<string>>,
    mongoId: Option<string>,
    id: Option<string>,
    startDate: Option<string>,
    date: Option<LegacyDate>)

  /** The upper-cased short month name and the day of the month of a date string; the day
      is `None` where `getDate` gives NaN (an unparseable date). */
  datatype CalendarDay = CalendarDay(month: string, day: Option<int>)

  /** What the card shows. `id` is the route parameter of its link. */
  datatype CardView = CardView(
    name: string,
    organizer: string,
    location: string,
    mode: string,
    modeLabel: string,
    entryType: string,
    typeLabel: string,
    prize: string,
    participantsLabel: string,
    chips: seq<string>,
    moreChip: Option<string>,
    id: Option<string>,
    month: string,
    dayLabel: string)

  /** `s || fallback` for an optional string. */
  function OrElse(s: Option<string>, fallback: string): (r: string)
    ensures Truthy(s) ==> r == s.value
    ensures !Truthy(s) ==> r == fallback
  {
    if Truthy(s) then s.value else fallback
  }

  /** `name || title || "Untitled Event"`. */
  function NameOf(h: CardInput): string
  {
    OrElse(h.name, OrElse(h.title, "Untitled Event"))
  }

  /** `type || (isPaid ? "paid" : "free")`. */
  function TypeOf(h: CardInput): string
  {
    OrElse(h.entryType, if h.isPaid then "paid" else "free")
  }

  /** `_id || id`. */
  function IdOf(h: CardInput): Option<string>
  {
    if Truthy(h.mongoId) then h.mongoId else h.id
  }

  /** The month and day of the date badge: from `startDate` when it is truthy, else from
      the legacy `date` object, else "TBD" and 0. */
  function DateBadge(h: CardInput, calendar: string -> CalendarDay): CalendarDay
  {
    if Truthy(h.startDate) then calendar(h.startDate.value)
    else if h.date.Some? then
      CalendarDay(OrElse(h.date.value.month, "TBD"),
                  Some(if h.date.value.day.Some? && h.date.value.day.value != 0 then h.date.value.day.value else 0))
    else CalendarDay("TBD", Some(0))
  }

  /** The day as shown: the number when it is positive, "?" otherwise. */
  function DayLabel(day: Option<int>): (r: string)
    ensures r == "?" <==> day.None? || day.value <= 0
    ensures r != "?" ==> AllDigits(r) && DecimalValue(r) == day.value
  {
    DecimalRoundTrip(if day.Some? && day.value > 0 then day.value else 0);
    if day.Some? && day.value > 0 then Decimal(day.value) else "?"
  }

  /** `participants > 0 ? `${participants}+` : "Open"`. */
  function ParticipantsLabel(participants: int): (r: string)
    ensures participants <= 0 <==> r == "Open"
    ensures participants > 0 ==>
      |r| >= 2 && r[|r| - 1] == '+' && AllDigits(r[..|r| - 1]) && DecimalValue(r[..|r| - 1]) == participants
  {
    if participants > 0 then
      DecimalRoundTrip(participants);
      assert (Decimal(participants) + "+")[..|Decimal(participants)|] == Decimal(participants);
      Decimal(participants) + "+"
    else "Open"
  }

  /** The skill chips: the first three skills, then "+k" for the k skills not shown. */
  datatype ChipRow = ChipRow(shown: seq<string>, more: Option<string>)

  function Chips(skills: seq<string>): ChipRow
  {
    if |skills| > 3 then ChipRow(skills[..3], Some("+" + Decimal(|skills| - 3))) else ChipRow(skills, None)
  }

  /** At most three chips, the first skills in order, and a "+k" chip exactly when some
      skills are hidden, whose number together with the shown chips counts every skill. */
  lemma ChipsSpec(skills: seq<string>)
    ensures var shown, more := Chips(skills).shown, Chips(skills).more;
      && |shown| <= 3 && shown == skills[..|shown|]
      && (more.Some? <==> |skills| > 3)
      && (more.Some? ==>
            && |more.value| >= 2 && more.value[0] == '+' && AllDigits(more.value[1..])
            && |shown| + DecimalValue(more.value[1..]) == |skills|)
  {
    if |skills| > 3 {
      DecimalRoundTrip(|skills| - 3);
      var more := "+" + Decimal(|skills| - 3);
      assert more[1..] == Decimal(|skills| - 3);
    }
  }

  /** The card, or nothing for a missing hackathon. */
  function Render(hackathon: Option<CardInput>, calendar: string -> CalendarDay): (r: Option<CardView>)
    ensures hackathon.None? <==> r.None?
  {
    match hackathon
    case None => None
    case Some(h) =>
      var mode := OrElse(h.mode, "online");
      var entryType := TypeOf(h);
      var chips := Chips(if h.skills.Some? then h.skills.value else []);
      var badge := DateBadge(h, calendar);
      Some(CardView(
        NameOf(h), OrElse(h.organizer, "Unknown Organizer"), OrElse(h.location, "Online"),
        mode, Capitalize(mode), entryType, Capitalize(entryType), OrElse(h.prize, "TBD"),
        ParticipantsLabel(if h.participants.Some? then h.participants.value else 0),
        chips.shown, chips.more, IdOf(h), badge.month, DayLabel(badge.day)))
  }

  /** The fallback chains: an empty string falls through like a missing value; the name is
      never empty; the type follows `isPaid` only when no type is given; the stored
      identifier wins over the mock one. */
  lemma FallbackChains(h: CardInput, calendar: string -> CalendarDay)
    ensures var v := Render(Some(h), calendar).value;
      && v.name != ""
      && v.name == (if Truthy(h.name) then h.name.value else if Truthy(h.title) then h.title.value else "Untitled Event")
      && v.organizer == (if Truthy(h.organizer) then h.organizer.value else "Unknown Organizer")
      && v.location == (if Truthy(h.location) then h.location.value else "Online")
      && v.prize == (if Truthy(h.prize) then h.prize.value else "TBD")
      && v.mode == (if Truthy(h.mode) then h.mode.value else "online")
      && v.entryType == (if Truthy(h.entryType) then h.entryType.value else if h.isPaid then "paid" else "free")
      && (!Truthy(h.entryType) ==> (v.entryType == "paid" <==> h.isPaid))
      && v.id == (if Truthy(h.mongoId) then h.mongoId else h.id)
      && (!Truthy(h.mode) ==> v.modeLabel == "Online")
    ensures var v := Render(Some(h), calendar).value;
      && v.participantsLabel == ParticipantsLabel(if h.participants.Some? then h.participants.value else 0)
      && (h.participants.None? ==> v.participantsLabel == "Open")
      && v.chips == Chips(if h.skills.Some? then h.skills.value else []).shown
      && v.moreChip == Chips(if h.skills.Some? then h.skills.value else []).more
      && (h.skills.None? ==> v.chips == [] && v.moreChip.None?)
  {
    assert Capitalize("online") == "Online";
  }

  /** The date badge: `startDate` wins over the legacy date; with neither the month is
      "TBD" and the day shows as "?", as it does for a legacy day of 0 or an invalid
      `startDate`. */
  lemma DatePrecedence(h: CardInput, calendar: string -> CalendarDay)
    ensures Truthy(h.startDate) ==> DateBadge(h, calendar).month == calendar(h.startDate.value).month
    ensures !Truthy(h.startDate) && h.date.None? ==>
      Render(Some(h), calendar).value.month == "TBD" && Render(Some(h), calendar).value.dayLabel == "?"
    ensures !Truthy(h.startDate) && h.date == Some(LegacyDate(None, Some(0))) ==>
      Render(Some(h), calendar).value.dayLabel == "?"
    ensures Truthy(h.startDate) && calendar(h.startDate.value).day.None? ==>
      Render(Some(h), calendar).value.dayLabel == "?"
    ensures var v := Render(Some(h), calendar).value;
      && (Truthy(h.startDate) ==>
            v.month == calendar(h.startDate.value).month && v.dayLabel == DayLabel(calendar(h.startDate.value).day))
      && (!Truthy(h.startDate) && h.date.Some? ==>
            && v.month == OrElse(h.date.value.month, "TBD")
            && (h.date.value.day.Some? && h.date.value.day.value > 0 ==> v.dayLabel == DayLabel(h.date.value.day)))
    ensures var v := Render(Some(h), calendar).value;
      v.modeLabel == Capitalize(v.mode) && v.typeLabel == Capitalize(v.entryType)
  {
  }
}

=== FILE: devfolio.dfy ===
/**
 * The Devfolio adapter (server/services/devfolioService.ts). Its input is what the page
 * offers the in-page script: every anchor's resolved `href` and, for each, the chain of its
 * ancestors from the parent upward, each with its `innerText` and rendered height. The
 * adapter filters the anchors, walks up to a card container, de-duplicates by `href`, reads
 * title, date line and location line from the container's text, and maps each entry to a
 * listing. `Date` parsing is the parameter `parse` (`None` for an Invalid Date, which this
 * adapter keeps instead of replacing); the current year and instant are parameters too.
 * Neither ingestion job calls this adapter.
 */
module Devfolio {
  import opened Wrappers
  import opened Text
  import opened Types
  import opened Filtering

  /** An ancestor element of an anchor: its `innerText` and its rendered height in pixels. */
  datatype Ancestor = Ancestor(innerText: string, height: int)

  /** An anchor: its `href` and its ancestors, nearest first; the last one's parent is null. */
  datatype Link = Link(href: string, ancestors: seq<Ancestor>)

  /** What the in-page script pushes for a link. */
  datatype Entry = Entry(title: string, url: string, dateStr: string, location: string, rawText: string)

  /** The record the adapter returns. Its dates may be Invalid Dates (`None`), and its
      source label is 'devfolio'. */
  datatype Listing = Listing(
    title: string,
    organizer: string,
    description: string,
    startDate: Option<int>,
    endDate: Option<int>,
    mode: Mode,
    isPaid: bool,
    skills: seq<string>,
    registrationUrl: string,
    source: string,
    location: Option<string>,
    prize: Option<string>,
    imageUrl: Option<string>)

  // ---------------------------------------------------------------- links

  /** A hackathon link: on a `.devfolio.co` sub-domain, and neither the listing page itself
      nor the blog. */
  predicate IsCandidate(href: string)
  {
    Contains(href, ".devfolio.co") && !Contains(href, "devfolio.co/hackathons") && !Contains(href, "devfolio.co/blog")
  }

  /** `links.filter(...)`. */
  function Candidates(links: seq<Link>): (r: seq<Link>)
    ensures |r| <= |links|
    ensures forall l :: l in r <==> l in links && IsCandidate(l.href)
  {
    if links == [] then []
    else (if IsCandidate(links[0].href) then [links[0]] else []) + Candidates(links[1..])
  }

  /** The card heuristic: more than 20 characters of text and taller than 100 pixels. */
  predicate LooksLikeCard(a: Ancestor)
  {
    |a.innerText| > 20 && a.height > 100
  }

  /** The container the upward walk stops at, starting at depth `depth`: the first
      ancestor of the first five that looks like a card, else the sixth one, else nothing
      when the chain ends first. */
  function ContainerFrom(ancestors: seq<Ancestor>, depth: nat): Option<Ancestor>
    requires depth <= 5
    decreases 5 - depth
  {
    if depth >= |ancestors| then None
    else if depth == 5 then Some(ancestors[depth])
    else if LooksLikeCard(ancestors[depth]) then Some(ancestors[depth])
    else ContainerFrom(ancestors, depth + 1)
  }

  function Container(ancestors: seq<Ancestor>): Option<Ancestor>
  {
    ContainerFrom(ancestors, 0)
  }

  /** What the walk finds: the nearest card-like ancestor among the first five; failing
      that the sixth ancestor; and nothing only when no card-like ancestor exists among
      the first five and there is no sixth one. */
  lemma ContainerFromSpec(ancestors: seq<Ancestor>, depth: nat)
    requires depth <= 5
    ensures var r := ContainerFrom(ancestors, depth);
      && (r.Some? ==> exists i :: depth <= i <= 5 && i < |ancestors| && r.value == ancestors[i])
      && (forall i :: depth <= i < 5 && i < |ancestors| && LooksLikeCard(ancestors[i]) ==>
            r.Some? && exists j :: depth <= j <= i && r.value == ancestors[j] && LooksLikeCard(ancestors[j]))
      && (r.None? <==> |ancestors| <= 5 && forall i :: depth <= i < |ancestors| ==> !LooksLikeCard(ancestors[i]))
  {
    ContainerFromFound(ancestors, depth);
    ContainerFromNone(ancestors, depth);
    forall i | depth <= i < 5 && i < |ancestors| && LooksLikeCard(ancestors[i])
      ensures var r := ContainerFrom(ancestors, depth);
        r.Some? && exists j :: depth <= j <= i && r.value == ancestors[j] && LooksLikeCard(ancestors[j])
    {
      ContainerFromNearest(ancestors, depth, i);
    }
  }

  lemma {:induction false} ContainerFromFound(ancestors: seq<Ancestor>, depth: nat)
    requires depth <= 5
    ensures var r := ContainerFrom(ancestors, depth);
      r.Some? ==> exists i :: depth <= i <= 5 && i < |ancestors| && r.value == ancestors[i]
    decreases 5 - depth
  {
    if depth < |ancestors| && depth < 5 && !LooksLikeCard(ancestors[depth]) {
      ContainerFromFound(ancestors, depth + 1);
    }
  }

  lemma {:induction false} ContainerFromNearest(ancestors: seq<Ancestor>, depth: nat, i: nat)
    requires depth <= i < 5 && i < |ancestors| && LooksLikeCard(ancestors[i])
    ensures var r := ContainerFrom(ancestors, depth);
      r.Some? && exists j :: depth <= j <= i && r.value == ancestors[j] && LooksLikeCard(ancestors[j])
    decreases i - depth
  {
    if !LooksLikeCard(ancestors[depth]) {
      ContainerFromNearest(ancestors, depth + 1, i);
    }
  }

  lemma {:induction false} ContainerFromNone(ancestors: seq<Ancestor>, depth: nat)
    requires depth <= 5
    ensures ContainerFrom(ancestors, depth).None? <==>
      |ancestors| <= 5 && forall i :: depth <= i < |ancestors| ==> !LooksLikeCard(ancestors[i])
    decreases 5 - depth
  {
    if depth < |ancestors| && depth < 5 && !LooksLikeCard(ancestors[depth]) {
      ContainerFromNone(ancestors, depth + 1);
    }
  }

  /** The `while (container && depth < 5)` walk up from the link's parent. */
  method FindContainer(ancestors: seq<Ancestor>) returns (container: Option<Ancestor>)
    ensures container == Container(ancestors)
  {
    var depth := 0;
    container := if |ancestors| > 0 then Some(ancestors[0]) else None;
    while container.Some? && depth < 5
      invariant 0 <= depth <= 5
      invariant container == (if depth < |ancestors| then Some(ancestors[depth]) else None)
      invariant Container(ancestors) == ContainerFrom(ancestors, depth)
      decreases 5 - depth
    {
      if |container.value.innerText| > 20 && container.value.height > 100 {
        break;
      }
      depth := depth + 1;
      container := if depth < |ancestors| then Some(ancestors[depth]) else None;
    }
  }

  // ---------------------------------------------------------------- line heuristics

  /** The non-blank pieces, kept as they are (not trimmed). */
  function NonBlank(pieces: seq<string>): (r: seq<string>)
    ensures |r| <= |pieces|
    ensures forall l :: l in r <==> l in pieces && Trim(l) != ""
  {
    if pieces == [] then []
    else (if Trim(pieces[0]) != "" then [pieces[0]] else []) + NonBlank(pieces[1..])
  }

  /** `text.split('\n').filter(l => l.trim().length > 0)`. */
  function Lines(text: string): seq<string>
  {
    NonBlank(Split(text, '\n'))
  }

  /** Every line is a whole, untrimmed piece between line breaks, with some non-blank
      character. */
  lemma LinesProperties(text: string)
    ensures forall l :: l in Lines(text) ==> l in Split(text, '\n') && '\n' !in l && Trim(l) != ""
  {
    SplitShape(text, '\n');
  }

  const Months: seq<string> := ["Jan", "Feb", "Mar", "Apr", "May", "Jun", "Jul", "Aug", "Sep", "Oct", "Nov", "Dec"]

  /** Some of `words` occurs in `s`, ignoring letter case. */
  predicate MentionsAny(s: string, words: seq<string>)
  {
    exists w :: w in words && ContainsCI(s, w)
  }

  /** The date line test: a month abbreviation in any letter case, and a digit. */
  predicate IsDateLine(l: string)
  {
    MentionsAny(l, Months) && HasDigit(l)
  }

  /** The location line test: "Online", "Hybrid" or "In-person" in any letter case. */
  predicate IsLocationLine(l: string)
  {
    MentionsAny(l, ["Online", "Hybrid", "In-person"])
  }

  function FirstDateLine(lines: seq<string>): Option<string>
  {
    FindFirst(lines, IsDateLine)
  }

  function FirstLocationLine(lines: seq<string>): Option<string>
  {
    FindFirst(lines, IsLocationLine)
  }

  /** The two searches return the first matching line: no earlier line matches, and
      nothing is found only when no line matches. */
  lemma FirstLinesAreFirst(lines: seq<string>, i: nat)
    requires i < |lines|
    ensures IsDateLine(lines[i]) && (forall j :: 0 <= j < i ==> !IsDateLine(lines[j])) ==> FirstDateLine(lines) == Some(lines[i])
    ensures IsLocationLine(lines[i]) && (forall j :: 0 <= j < i ==> !IsLocationLine(lines[j])) ==> FirstLocationLine(lines) == Some(lines[i])
    ensures FirstDateLine(lines).None? <==> forall l :: l in lines ==> !IsDateLine(l)
    ensures FirstLocationLine(lines).None? <==> forall l :: l in lines ==> !IsLocationLine(l)
  {
    if IsDateLine(lines[i]) && (forall j :: 0 <= j < i ==> !IsDateLine(lines[j])) {
      FindFirstIsFirst(lines, IsDateLine, i);
    }
    if IsLocationLine(lines[i]) && (forall j :: 0 <= j < i ==> !IsLocationLine(lines[j])) {
      FindFirstIsFirst(lines, IsLocationLine, i);
    }
  }

  /** The entry for a link whose container has text `text`: the first line as title (a
      line is never blank, so never falsy) or 'Untitled Hackathon', the first date line or
      '', the first location line or 'Online'. */
  function MakeEntry(href: string, text: string): (e: Entry)
    ensures e.url == href && e.rawText == text && e.title != "" && e.location != ""
    ensures e.title == (if |Lines(text)| > 0 then Lines(text)[0] else "Untitled Hackathon")
    ensures e.dateStr == FirstDateLine(Lines(text)).GetOr("")
    ensures e.location == FirstLocationLine(Lines(text)).GetOr("Online")
  {
    var lines := Lines(text);
    var title := if |lines| > 0 then lines[0] else "Untitled Hackathon";
    var location := FirstLocationLine(lines).GetOr("Online");
    assert |lines| > 0 ==> lines[0] in lines;
    Entry(title, href, FirstDateLine(lines).GetOr(""), location, text)
  }

  /** The entry's date line is the first line of the text that names a month and holds a
      digit, and is '' exactly when no line does; its location is the first line naming
      a mode, and 'Online' when none does. */
  lemma EntryHeuristics(href: string, text: string, i: nat)
    requires i < |Lines(text)|
    ensures var e, lines := MakeEntry(href, text), Lines(text);
      && (IsDateLine(lines[i]) && (forall j :: 0 <= j < i ==> !IsDateLine(lines[j])) ==> e.dateStr == lines[i])
      && (IsLocationLine(lines[i]) && (forall j :: 0 <= j < i ==> !IsLocationLine(lines[j])) ==> e.location == lines[i])
    ensures var e, lines := MakeEntry(href, text), Lines(text);
      && (e.dateStr == "" <==> forall l :: l in lines ==> !IsDateLine(l))
      && ((forall l :: l in lines ==> !IsLocationLine(l)) ==> e.location == "Online")
  {
    var lines := Lines(text);
    FirstLinesAreFirst(lines, i);
    match FirstDateLine(lines)
    case Some(l) => assert IsDateLine(l);
    case None =>
  }

  // ---------------------------------------------------------------- de-duplication

  /** What a turn of the `forEach` keeps for a link it does not skip: the `href` and the
      text of the container found for it. */
  datatype Visit = Visit(href: string, text: string)

  /** One turn of the `forEach`: an already recorded `href` is skipped; otherwise the
      walk runs, and only when it finds a container is the `href` recorded and the link
      visited. */
  function ScanStep(prior: (seq<Visit>, set<string>), link: Link): (seq<Visit>, set<string>)
  {
    if link.href in prior.1 then prior
    else match Container(link.ancestors)
      case None => prior
      case Some(c) => (prior.0 + [Visit(link.href, c.innerText)], prior.1 + {link.href})
  }

  /** The visits and the set of recorded `href`s after the `forEach` over `links`. */
  function Scan(links: seq<Link>): (seq<Visit>, set<string>)
  {
    if links == [] then ([], {}) else ScanStep(Scan(links[..|links| - 1]), links[|links| - 1])
  }

  /** The entry pushed for a visit. */
  function VisitEntry(v: Visit): Entry
  {
    MakeEntry(v.href, v.text)
  }

  /** The entries pushed for the visits, in order. */
  function Entries(visits: seq<Visit>): (r: seq<Entry>)
    ensures |r| == |visits|
    ensures forall k :: 0 <= k < |r| ==> r[k] == MakeEntry(visits[k].href, visits[k].text)
  {
    Mapped(visits, VisitEntry)
  }

  lemma EntriesSnoc(visits: seq<Visit>, v: Visit)
    ensures Entries(visits + [v]) == Entries(visits) + [VisitEntry(v)]
  {
    MappedSnoc(visits, v, VisitEntry);
  }

  /** A turn keeps the recorded set equal to the visited `href`s and those distinct. */
  lemma StepDistinct(prior: (seq<Visit>, set<string>), link: Link)
    requires prior.1 == (set v | v in prior.0 :: v.href)
    requires forall i, j :: 0 <= i < j < |prior.0| ==> prior.0[i].href != prior.0[j].href
    ensures var r := ScanStep(prior, link);
      && r.1 == (set v | v in r.0 :: v.href)
      && forall i, j :: 0 <= i < j < |r.0| ==> r.0[i].href != r.0[j].href
  {
    var r := ScanStep(prior, link);
    if r != prior {
      var v := r.0[|prior.0|];
      assert r.0 == prior.0 + [v] && v.href == link.href && r.1 == prior.1 + {link.href};
      assert link.href !in prior.1;
      forall i | 0 <= i < |prior.0|
        ensures prior.0[i].href != link.href
      {
        assert prior.0[i] in prior.0;
      }
    }
  }

  /** The recorded set is exactly the visited `href`s, and no two visits share one. */
  lemma {:induction false} ScanDistinct(links: seq<Link>)
    ensures var r := Scan(links);
      && r.1 == (set v | v in r.0 :: v.href)
      && forall i, j :: 0 <= i < j < |r.0| ==> r.0[i].href != r.0[j].href
  {
    if links != [] {
      var n := |links| - 1;
      ScanDistinct(links[..n]);
      StepDistinct(Scan(links[..n]), links[n]);
    }
  }

  /** So no two entries share a URL. */
  lemma EntriesDistinct(links: seq<Link>)
    ensures var es := Entries(Scan(links).0);
      forall i, j :: 0 <= i < j < |es| ==> es[i].url != es[j].url
  {
    ScanDistinct(links);
  }

  /** Every link that has a container has its `href` recorded. */
  lemma {:induction false} ScanComplete(links: seq<Link>, i: nat)
    requires i < |links| && Container(links[i].ancestors).Some?
    ensures links[i].href in Scan(links).1
  {
    var n := |links| - 1;
    var front := links[..n];
    StepRecords(Scan(front), links[n]);
    if i < n {
      assert front[i] == links[i];
      ScanComplete(front, i);
    }
  }

  /** A turn never forgets a recorded `href`, and records the link's own `href` when it
      has a container. */
  lemma StepRecords(prior: (seq<Visit>, set<string>), link: Link)
    ensures prior.1 <= ScanStep(prior, link).1
    ensures Container(link.ancestors).Some? ==> link.href in ScanStep(prior, link).1
  {
  }

  /** The visit a link with a container makes. */
  function VisitOf(link: Link): Visit
    requires Container(link.ancestors).Some?
  {
    Visit(link.href, Container(link.ancestors).value.innerText)
  }

  /** `links[i]` has a container, and no earlier link with the same `href` has one. */
  ghost predicate FirstWithContainer(links: seq<Link>, i: int)
  {
    && 0 <= i < |links| && Container(links[i].ancestors).Some?
    && forall j :: 0 <= j < i && links[j].href == links[i].href ==> Container(links[j].ancestors).None?
  }

  lemma FirstWithContainerPrefix(links: seq<Link>, n: nat, i: int)
    requires n <= |links| && FirstWithContainer(links[..n], i)
    ensures FirstWithContainer(links, i)
  {
    assert forall j :: 0 <= j <= i ==> links[..n][j] == links[j];
  }

  /** Each visit is of a link that has a container and that no earlier link with the same
      `href` and a container precedes: the first such occurrence wins. */
  lemma {:induction false} ScanFirstWins(links: seq<Link>, k: nat)
    requires k < |Scan(links).0|
    ensures exists i :: FirstWithContainer(links, i) && Scan(links).0[k] == VisitOf(links[i])
  {
    var n := |links| - 1;
    var prefix := links[..n];
    var prior := Scan(prefix);
    if k < |prior.0| {
      ScanFirstWins(prefix, k);
      var i :| FirstWithContainer(prefix, i) && prior.0[k] == VisitOf(prefix[i]);
      FirstWithContainerPrefix(links, n, i);
      assert prefix[i] == links[i];
    } else {
      forall j | 0 <= j < n && links[j].href == links[n].href
        ensures Container(links[j].ancestors).None?
      {
        assert prefix[j] == links[j];
        if Container(links[j].ancestors).Some? {
          ScanComplete(prefix, j);
        }
      }
      assert FirstWithContainer(links, n);
    }
  }

  /** The scan of one more link is one more turn. */
  lemma ScanPrefix(links: seq<Link>, i: nat)
    requires i < |links|
    ensures Scan(links[..i + 1]) == ScanStep(Scan(links[..i]), links[i])
  {
    assert links[..i + 1][..i] == links[..i];
  }

  /** The `forEach` callback: a link whose `href` is already recorded is skipped;
      otherwise its container is looked for, and when there is one the `href` is recorded
      and the entry pushed. */
  method VisitLink(link: Link, uniqueLinks: set<string>, ghost visits: seq<Visit>, data: seq<Entry>)
    returns (uniqueLinks': set<string>, ghost visits': seq<Visit>, data': seq<Entry>)
    requires data == Entries(visits)
    ensures (visits', uniqueLinks') == ScanStep((visits, uniqueLinks), link)
    ensures data' == Entries(visits')
  {
    uniqueLinks', visits', data' := uniqueLinks, visits, data;
    if link.href !in uniqueLinks {
      var container := FindContainer(link.ancestors);
      if container.Some? {
        var visit := Visit(link.href, container.value.innerText);
        EntriesSnoc(visits, visit);
        uniqueLinks' := uniqueLinks + {link.href};
        visits' := visits + [visit];
        data' := data + [VisitEntry(visit)];
      }
    }
  }

  /** The in-page script: filter the anchors, then one pass de-duplicating by `href`. */
  method CollectEntries(links: seq<Link>) returns (data: seq<Entry>)
    ensures data == Entries(Scan(Candidates(links)).0)
  {
    var hackathonLinks := Candidates(links);
    var uniqueLinks: set<string> := {};
    ghost var visits: seq<Visit> := [];
    data := [];
    for i := 0 to |hackathonLinks|
      invariant (visits, uniqueLinks) == Scan(hackathonLinks[..i])
      invariant data == Entries(visits)
    {
      ScanPrefix(hackathonLinks, i);
      uniqueLinks, visits, data := VisitLink(hackathonLinks[i], uniqueLinks, visits, data);
    }
    assert hackathonLinks[..|hackathonLinks|] == hackathonLinks;
  }

  // ---------------------------------------------------------------- dates and mapping

  /** The length of the marker `s` starts with, in any letter case, trying 'Apply by',
      'Starts' and 'Ends' in that order; 0 when it starts with none. */
  function MarkerLength(s: string): (n: nat)
    ensures n <= |s|
    ensures n == 8 <==> StartsWithCI(s, "Apply by")
    ensures n == 6 <==> !StartsWithCI(s, "Apply by") && StartsWithCI(s, "Starts")
    ensures n == 4 <==> !StartsWithCI(s, "Apply by") && !StartsWithCI(s, "Starts") && StartsWithCI(s, "Ends")
    ensures n == 0 || n == 4 || n == 6 || n == 8
  {
    if StartsWithCI(s, "Apply by") then 8
    else if StartsWithCI(s, "Starts") then 6
    else if StartsWithCI(s, "Ends") then 4
    else 0
  }

  /** `s.replace(/Apply by|Starts|Ends/gi, '')`, scanning left to right. */
  function RemoveMarkers(s: string): (r: string)
    ensures |r| <= |s|
    decreases |s|
  {
    if s == [] then []
    else if MarkerLength(s) > 0 then RemoveMarkers(s[MarkerLength(s)..])
    else [s[0]] + RemoveMarkers(s[1..])
  }

  lemma {:induction false} NoDigitsIn(s: string, marker: string)
    requires StartsWithCI(s, marker) && forall i :: 0 <= i < |marker| ==> !IsDigit(LowerChar(marker[i]))
    ensures Digits(s[..|marker|]) == []
  {
    var m := s[..|marker|];
    forall i | 0 <= i < |m| ensures !IsDigit(m[i]) {
      assert Lower(m)[i] == Lower(marker)[i];
    }
    NoDigitsNone(m);
  }

  lemma {:induction false} NoDigitsNone(s: string)
    requires forall i :: 0 <= i < |s| ==> !IsDigit(s[i])
    ensures Digits(s) == []
  {
    if s != [] {
      NoDigitsNone(s[1..]);
    }
  }

  /** A marker holds no digit. */
  lemma MarkerHasNoDigits(s: string)
    ensures Digits(s[..MarkerLength(s)]) == []
  {
    var n := MarkerLength(s);
    if n == 8 {
      NoDigitsIn(s, "Apply by");
    } else if n == 6 {
      NoDigitsIn(s, "Starts");
    } else if n == 4 {
      NoDigitsIn(s, "Ends");
    }
  }

  /** Removing the markers removes letters only: the digits of the date stay, in order. */
  lemma {:induction false} RemoveMarkersKeepsDigits(s: string)
    ensures Digits(RemoveMarkers(s)) == Digits(s)
    decreases |s|
  {
    if s != [] {
      var n := MarkerLength(s);
      if n > 0 {
        MarkerHasNoDigits(s);
        DigitsSplit(s, n);
        RemoveMarkersKeepsDigits(s[n..]);
      } else {
        DigitsSplit(s, 1);
        assert s[..1] == [s[0]];
        RemoveMarkersKeepsDigits(s[1..]);
        DigitsAppend([s[0]], RemoveMarkers(s[1..]));
      }
    }
  }

  /** A marker at the front, in any letter case, is dropped and the scan goes on after
      it. */
  lemma MarkerRemoved(s: string)
    requires MarkerLength(s) > 0
    ensures StartsWithCI(s, "Apply by") || StartsWithCI(s, "Starts") || StartsWithCI(s, "Ends")
    ensures RemoveMarkers(s) == RemoveMarkers(s[MarkerLength(s)..])
  {
  }

  /** Text in which no marker starts anywhere is left as it is. */
  lemma {:induction false} WithoutMarkersKept(s: string)
    requires forall i :: 0 <= i <= |s| ==> MarkerLength(s[i..]) == 0
    ensures RemoveMarkers(s) == s
    decreases |s|
  {
    if s != [] {
      forall i | 0 <= i <= |s[1..]|
        ensures MarkerLength(s[1..][i..]) == 0
      {
        assert s[1..][i..] == s[i + 1..];
      }
      WithoutMarkersKept(s[1..]);
      assert s[0..] == s;
    }
  }

  /** Text before the next marker is kept and removal goes on after it, so a marker after
      other text ("12 Jan - Ends 14 Jan") is removed like one at the front. */
  lemma PlainTextKept(p: string, s: string)
    requires forall i :: 0 <= i < |p| ==> MarkerLength((p + s)[i..]) == 0
    ensures RemoveMarkers(p + s) == p + RemoveMarkers(s)
  {
    var t := p + s;
    KeptUpTo(t, |p|);
    assert t[..|p|] == p && t[|p|..] == s;
  }

  /** The first `k` characters, none of which starts a marker, are kept as they are. */
  lemma {:induction false} KeptUpTo(t: string, k: nat)
    requires k <= |t|
    requires forall i :: 0 <= i < k ==> MarkerLength(t[i..]) == 0
    ensures RemoveMarkers(t) == t[..k] + RemoveMarkers(t[k..])
    decreases k
  {
    if k == 0 {
      NothingKept(t);
    } else {
      FirstCharKept(t);
      TailKept(t, k);
      KeptUpTo(t[1..], k - 1);
      Recombine(t, k, RemoveMarkers(t[k..]));
    }
  }

  /** With no character kept the text is its removal. */
  lemma NothingKept(t: string)
    ensures RemoveMarkers(t) == t[..0] + RemoveMarkers(t[0..])
  {
    assert t[0..] == t;
  }

  /** A first character that starts no marker is kept. */
  lemma FirstCharKept(t: string)
    requires t != [] && MarkerLength(t[0..]) == 0
    ensures RemoveMarkers(t) == [t[0]] + RemoveMarkers(t[1..])
  {
    assert t[0..] == t;
    KeptStep(t);
  }

  /** The first character and the next `k - 1` are the first `k`. */
  lemma Recombine(t: string, k: nat, x: string)
    requires 0 < k <= |t|
    ensures [t[0]] + (t[1..][..k - 1] + x) == t[..k] + x
    ensures t[1..][k - 1..] == t[k..]
  {
    assert [t[0]] + t[1..][..k - 1] == t[..k];
  }

  /** Positions free of markers stay free one character further in. */
  lemma TailKept(t: string, k: nat)
    requires 0 < k <= |t|
    requires forall i :: 0 <= i < k ==> MarkerLength(t[i..]) == 0
    ensures forall i :: 0 <= i < k - 1 ==> MarkerLength(t[1..][i..]) == 0
  {
    forall i | 0 <= i < k - 1
      ensures MarkerLength(t[1..][i..]) == 0
    {
      assert t[1..][i..] == t[i + 1..];
    }
  }

  /** A character where no marker starts is kept. */
  lemma KeptStep(t: string)
    requires t != [] && MarkerLength(t) == 0
    ensures RemoveMarkers(t) == [t[0]] + RemoveMarkers(t[1..])
  {
  }

  /** The markers match in any letter case: "STARTS" in capitals is removed. */
  lemma CapitalMarkerRemoved(m: string, rest: string)
    requires m == "STARTS"
    ensures RemoveMarkers(m + rest) == RemoveMarkers(rest)
  {
    var s := m + rest;
    assert s[..6] == m;
    assert Lower(m) == Lower("Starts");
    if |s| >= 8 {
      assert Lower(s[..8])[0] == 's' && Lower("Apply by")[0] == 'a';
    }
    assert MarkerLength(s) == 6;
    assert s[6..] == rest;
  }

  /** The two dates of an entry: the current instant twice for an empty date line;
      otherwise the markers are removed, the rest split on '-', and the first piece and (if
      there is one) the second, trimmed and followed by the year, are parsed with no
      fallback; a single piece gives the end the start's value. */
  function EntryDates(dateStr: string, year: nat, now: int, parse: string -> Option<int>): (r: (Option<int>, Option<int>))
    ensures dateStr == "" ==> r == (Some(now), Some(now))
    ensures dateStr != "" ==>
      var parts, suffix := Split(Trim(RemoveMarkers(dateStr)), '-'), " " + Decimal(year);
      && r.0 == parse(Trim(parts[0]) + suffix)
      && r.1 == (if |parts| > 1 then parse(Trim(parts[1]) + suffix) else r.0)
  {
    if dateStr == "" then (Some(now), Some(now))
    else
      var clean := Trim(RemoveMarkers(dateStr));
      var parts := Split(clean, '-');
      var suffix := " " + Decimal(year);
      var start := parse(Trim(parts[0]) + suffix);
      var end := if |parts| > 1 then parse(Trim(parts[1]) + suffix) else start;
      (start, end)
  }

  /** A range: the cleaned line is its first piece, '-', its second piece and a remainder
      empty or starting with '-' (every cleaned line holding '-' is cut so, by
      `SplitFirstTwo`). Start and end are the two pieces, trimmed, with the year. */
  lemma EntryRangeDates(dateStr: string, year: nat, now: int, parse: string -> Option<int>,
                        first: string, second: string, rest: string)
    requires dateStr != ""
    requires Trim(RemoveMarkers(dateStr)) == first + "-" + second + rest
    requires '-' !in first && '-' !in second && (rest == "" || rest[0] == '-')
    ensures var suffix := " " + Decimal(year);
      EntryDates(dateStr, year, now, parse) == (parse(Trim(first) + suffix), parse(Trim(second) + suffix))
  {
    SplitPrefixPieces(first, second, rest, '-');
  }

  /** A non-empty date line never falls back to the current instant: the clock read
      before parsing is overwritten on every path. */
  lemma NowUnusedForDateLine(dateStr: string, year: nat, now1: int, now2: int, parse: string -> Option<int>)
    requires dateStr != ""
    ensures EntryDates(dateStr, year, now1, parse) == EntryDates(dateStr, year, now2, parse)
  {
  }

  /** A date line without a '-' after cleaning gives the end the start's value. */
  lemma SingleDateSameValue(dateStr: string, year: nat, now: int, parse: string -> Option<int>)
    requires '-' !in Trim(RemoveMarkers(dateStr))
    ensures EntryDates(dateStr, year, now, parse).1 == EntryDates(dateStr, year, now, parse).0
  {
    SplitWithout(Trim(RemoveMarkers(dateStr)), '-');
  }

  /** An unparseable date line leaves an Invalid Date in the listing: there is no fallback
      to the current instant. */
  lemma InvalidDateKept(dateStr: string, year: nat, now: int)
    requires dateStr != ""
    ensures EntryDates(dateStr, year, now, x => None) == (None, None)
  {
  }

  /** Mode inference: 'online' when the location mentions "online", else 'hybrid' when it
      mentions "hybrid", else 'offline', ignoring letter case. */
  function InferMode(location: string): (m: Mode)
    ensures m == Online <==> ContainsCI(location, "online")
    ensures m == Hybrid <==> !ContainsCI(location, "online") && ContainsCI(location, "hybrid")
    ensures m == Offline <==> !ContainsCI(location, "online") && !ContainsCI(location, "hybrid")
  {
    if ContainsCI(location, "online") then Online
    else if ContainsCI(location, "hybrid") then Hybrid
    else Offline
  }

  /** The default location reads as online. */
  lemma DefaultLocationOnline()
    ensures InferMode("Online") == Online
  {
    assert Lower("Online") == "online";
    ContainsSelf("online");
  }

  /** `hackathons.map(...)`. */
  function ToListing(e: Entry, year: nat, now: int, parse: string -> Option<int>): (l: Listing)
    ensures l.title == e.title && l.registrationUrl == e.url && l.location == Some(e.location)
    ensures (l.startDate, l.endDate) == EntryDates(e.dateStr, year, now, parse)
  {
    var dates := EntryDates(e.dateStr, year, now, parse);
    Listing(e.title, "Devfolio", "Check out " + e.title + " on Devfolio!", dates.0, dates.1,
            InferMode(e.location), false, [], e.url, "devfolio", Some(e.location),
            Some("See details"), Some(""))
  }

  function Listings(entries: seq<Entry>, year: nat, now: int, parse: string -> Option<int>): (r: seq<Listing>)
    ensures |r| == |entries|
    ensures forall i :: 0 <= i < |r| ==> r[i] == ToListing(entries[i], year, now, parse)
  {
    seq(|entries|, i requires 0 <= i < |entries| => ToListing(entries[i], year, now, parse))
  }

  /** Every listing carries the fixed Devfolio fields, and its source label 'devfolio' is
      outside the labels the record type and the stored schema admit. */
  lemma ListingFields(l: Listing, e: Entry, year: nat, now: int, parse: string -> Option<int>)
    requires l == ToListing(e, year, now, parse)
    ensures l.organizer == "Devfolio" && !l.isPaid && l.skills == []
    ensures l.prize == Some("See details") && l.imageUrl == Some("")
    ensures l.description == "Check out " + e.title + " on Devfolio!"
    ensures !IsSourceLabel(l.source)
  {
  }

  datatype PageOutcome = Loaded(links: seq<Link>) | Failed

  /** `scrapeDevfolio` once the browser is up: an error inside the `try` gives no
      listings; otherwise one listing per de-duplicated entry, in page order. */
  method ScrapeDevfolio(page: PageOutcome, year: nat, now: int, parse: string -> Option<int>)
    returns (r: seq<Listing>)
    ensures page.Failed? ==> r == []
    ensures page.Loaded? ==> r == Listings(Entries(Scan(Candidates(page.links)).0), year, now, parse)
  {
    if page.Failed? {
      return [];
    }
    var entries := CollectEntries(page.links);
    r := Listings(entries, year, now, parse);
  }
}

=== FILE: devpost.dfy ===
/**
 * The Devpost adapter (server/services/devpostService.ts). Its input is the list of
 * `.hackathon-tile` elements with the text or attribute of each element the script reads.
 * The adapter keeps tiles with both a title and an anchor, defaults location and prize,
 * recovers an image URL from the tile background when there is no image, infers the mode,
 * and dates every record at the moment of the scrape (`now`, a parameter).
 */
module Devpost {
  import opened Wrappers
  import opened Text
  import opened Types
  import opened HackathonModel
  import opened Filtering

  /** One tile: the trimmed-or-absent `textContent` of each element the script reads, the
      anchor's `href`, the image's `src`, and the computed `background-image` of the
      background element (`None` when there is no such element). */
  datatype Tile = Tile(
    title: Option<string>,
    anchor: Option<string>,
    location: Option<string>,
    prize: Option<string>,
    imageSrc: Option<string>,
    background: Option<string>)

  /** What the in-page script pushes for a tile. */
  datatype RawTile = RawTile(title: string, url: string, location: string, prize: string, imageUrl: string, mode: Mode)

  predicate IsQuote(c: char)
  {
    c == '\'' || c == '"'
  }

  /** `.replace(/^url\(['"]?/, '')`. */
  function StripUrlOpen(s: string): string
  {
    if StartsWith(s, "url(") then
      var rest := s[4..];
      if rest != "" && IsQuote(rest[0]) then rest[1..] else rest
    else s
  }

  /** `.replace(/['"]?\)$/, '')`: the leftmost match is the quote before the final `)`
      when there is one. */
  function StripUrlClose(s: string): string
  {
    if EndsWith(s, ")") then
      var rest := s[..|s| - 1];
      if rest != "" && IsQuote(rest[|rest| - 1]) then rest[..|rest| - 1] else rest
    else s
  }

  function StripUrl(css: string): string
  {
    StripUrlClose(StripUrlOpen(css))
  }

  /** Stripping inverts the CSS `url(...)` notation: with a quote of either kind around
      the address any address comes back, and without quotes any address that neither
      starts nor ends with a quote does. */
  lemma StripUrlRoundTrip(q: string, u: string)
    requires q == "'" || q == "\"" || (q == "" && (u == "" || (!IsQuote(u[0]) && !IsQuote(u[|u| - 1]))))
    ensures StripUrl("url(" + q + u + q + ")") == u
  {
    var rest := u + q + ")";
    if q == "" && u == "" {
      assert rest[0] == ')';
    } else if q == "" {
      assert rest[0] == u[0];
    }
    StripOpenOf(q, rest);
    assert "url(" + q + u + q + ")" == "url(" + q + rest;
    StripCloseOf(u, q);
  }

  /** The opening `url(` and the quote after it, if any, are removed. */
  lemma StripOpenOf(q: string, rest: string)
    requires q == "'" || q == "\"" || (q == "" && (rest == "" || !IsQuote(rest[0])))
    ensures StripUrlOpen("url(" + q + rest) == rest
  {
    var css := "url(" + q + rest;
    assert css[..4] == "url(";
    assert css[4..] == q + rest;
    if q != "" {
      assert (q + rest)[0] == q[0];
      assert (q + rest)[1..] == rest;
    } else {
      assert q + rest == rest;
    }
  }

  /** The closing `)` and the quote before it, if any, are removed. */
  lemma StripCloseOf(u: string, q: string)
    requires q == "'" || q == "\"" || (q == "" && (u == "" || !IsQuote(u[|u| - 1])))
    ensures StripUrlClose(u + q + ")") == u
  {
    var s := u + q + ")";
    assert s[|s| - 1..] == ")";
    var rest := s[..|s| - 1];
    assert rest == u + q;
    if q != "" {
      assert rest[|rest| - 1] == q[0];
      assert rest[..|rest| - 1] == u;
    } else {
      assert rest == u;
    }
  }

  /** The image URL: the image's `src` when non-empty; otherwise the stripped background
      image when there is one other than 'none'; a protocol-relative result gets the
      `https:` scheme. */
  function TileImageUrl(imageSrc: Option<string>, background: Option<string>): string
  {
    var fromImage := imageSrc.GetOr("");
    var url :=
      if fromImage != "" then fromImage
      else if background.Some? && background.value != "" && background.value != "none" then StripUrl(background.value)
      else "";
    if StartsWith(url, "//") then "https:" + url else url
  }

  /** Where the image URL comes from: an image `src` wins over the background, no image
      with no background (or 'none') gives '', and the result is never protocol-relative. */
  lemma TileImageUrlSources(imageSrc: Option<string>, background: Option<string>)
    ensures imageSrc.Some? && imageSrc.value != "" && !StartsWith(imageSrc.value, "//") ==>
      TileImageUrl(imageSrc, background) == imageSrc.value
    ensures imageSrc.GetOr("") == "" && (background.None? || background.value == "none") ==>
      TileImageUrl(imageSrc, background) == ""
    ensures !StartsWith(TileImageUrl(imageSrc, background), "//")
  {
    var pre :=
      if imageSrc.GetOr("") != "" then imageSrc.GetOr("")
      else if background.Some? && background.value != "" && background.value != "none" then StripUrl(background.value)
      else "";
    if StartsWith(pre, "//") {
      assert TileImageUrl(imageSrc, background)[0] == 'h';
    }
  }

  /** Mode inference: 'online' iff the location mentions "online" in any letter case. */
  function InferMode(location: string): (m: Mode)
    ensures m != Hybrid
    ensures m == Online <==> ContainsCI(location, "online")
  {
    if ContainsCI(location, "online") then Online else Offline
  }

  predicate Usable(t: Tile)
  {
    t.title.Some? && t.anchor.Some?
  }

  /** The entry for a tile; only applied to usable tiles. */
  function Extract(t: Tile): RawTile
  {
    var location := TextOr(t.location, "Online");
    RawTile(TextOr(t.title, ""), t.anchor.GetOr(""), location, TextOr(t.prize, ""),
            TileImageUrl(t.imageSrc, t.background), InferMode(location))
  }

  /** An entry always has a location ("Online" when the tile shows none) and is never
      hybrid. */
  lemma ExtractShape(t: Tile)
    ensures Extract(t).location != "" && Extract(t).mode != Hybrid
  {
  }

  /** The entries the in-page `forEach` collects, in tile order. */
  function Extracted(tiles: seq<Tile>): seq<RawTile>
  {
    Collect(tiles, Usable, Extract)
  }

  /** One entry per usable tile, and only those. */
  lemma ExtractedSpec(tiles: seq<Tile>, e: RawTile)
    ensures e in Extracted(tiles) <==> exists i :: 0 <= i < |tiles| && Usable(tiles[i]) && e == Extract(tiles[i])
  {
    CollectMembers(tiles, Usable, Extract, e);
  }

  /** The in-page script: one pass over the tiles. */
  method ExtractTiles(tiles: seq<Tile>) returns (data: seq<RawTile>)
    ensures data == Extracted(tiles)
  {
    data := [];
    for i := 0 to |tiles|
      invariant data == Extracted(tiles[..i])
    {
      assert tiles[..i + 1][..i] == tiles[..i];
      var tile := tiles[i];
      assert Extracted(tiles[..i + 1]) == Extracted(tiles[..i]) + (if Usable(tile) then [Extract(tile)] else []);
      if tile.title.Some? && tile.anchor.Some? {
        var location := TextOr(tile.location, "Online");
        var imageUrl := tile.imageSrc.GetOr("");
        if imageUrl == "" {
          if tile.background.Some? {
            var bgImage := tile.background.value;
            if bgImage != "" && bgImage != "none" {
              imageUrl := StripUrl(bgImage);
            }
          }
        }
        if StartsWith(imageUrl, "//") {
          imageUrl := "https:" + imageUrl;
        }
        var mode := Offline;
        if ContainsCI(location, "online") {
          mode := Online;
        }
        assert imageUrl == TileImageUrl(tile.imageSrc, tile.background);
        assert mode == InferMode(location);
        data := data + [RawTile(TextOr(tile.title, ""), tile.anchor.value, location,
                                TextOr(tile.prize, ""), imageUrl, mode)];
      }
    }
    assert tiles[..|tiles|] == tiles;
  }

  /** The record for an entry. Both dates are the scrape instant: serialised with
      `toISOString` in the page and read back with `new Date`, which keeps the instant. */
  function ToRecord(e: RawTile, now: int): (h: Hackathon)
    ensures h.title == e.title && h.registrationUrl == e.url && h.mode == e.mode
    ensures h.location == Some(e.location) && h.prize == Some(e.prize)
  {
    Hackathon(e.title, "Devpost", "Check out " + e.title + " on Devpost!", now, now, e.mode,
              false, [], e.url, "devpost", Some(e.location), Some(e.prize), Some(e.imageUrl))
  }

  function Normalize(entries: seq<RawTile>, now: int): (r: seq<Hackathon>)
    ensures |r| == |entries|
    ensures forall i :: 0 <= i < |r| ==> r[i] == ToRecord(entries[i], now)
  {
    seq(|entries|, i requires 0 <= i < |entries| => ToRecord(entries[i], now))
  }

  /** Every record carries the fixed Devpost fields, starts and ends at the scrape instant,
      has a non-empty location, and is never hybrid. */
  lemma NormalizedFields(tiles: seq<Tile>, now: int)
    ensures forall h :: h in Normalize(Extracted(tiles), now) ==>
      && WellTyped(h) && h.organizer == "Devpost" && !h.isPaid && h.skills == []
      && h.description == "Check out " + h.title + " on Devpost!"
      && h.startDate == now && h.endDate == now && h.mode != Hybrid
      && h.location.Some? && h.location.value != ""
  {
    forall e | e in Extracted(tiles) ensures e.location != "" && e.mode != Hybrid {
      ExtractedSpec(tiles, e);
      var i :| 0 <= i < |tiles| && Usable(tiles[i]) && e == Extract(tiles[i]);
      ExtractShape(tiles[i]);
    }
  }

  /** The start date is part of the upsert key, so the same tile scraped at two different
      instants is stored under two different keys: a second run inserts a duplicate. */
  lemma RescrapeChangesKey(e: RawTile, now1: int, now2: int)
    requires now1 != now2
    ensures KeyOf(ToRecord(e, now1)) != KeyOf(ToRecord(e, now2))
  {
  }

  datatype PageOutcome = Loaded(tiles: seq<Tile>) | Failed

  /** `scrapeDevpost` once the browser is up: an error inside the `try` gives no records;
      otherwise one record per usable tile, in tile order. */
  method ScrapeDevpost(page: PageOutcome, now: int) returns (r: seq<Hackathon>)
    ensures page.Failed? ==> r == []
    ensures page.Loaded? ==> r == Normalize(Extracted(page.tiles), now)
  {
    if page.Failed? {
      return [];
    }
    var entries := ExtractTiles(page.tiles);
    r := Normalize(entries, now);
  }
}

=== FILE: filtering.dfy ===
/**
 * `Array.prototype.filter`: the elements that pass a test, in their original order; the
 * `forEach` loops that push a value computed from each element that passes a test;
 * the search for the first element that passes; and `map`.
 */
module Filtering {
  import opened Wrappers

  function Filter<T>(s: seq<T>, p: T -> bool): (r: seq<T>)
    ensures |r| <= |s|
  {
    if s == [] then [] else (if p(s[0]) then [s[0]] else []) + Filter(s[1..], p)
  }

  /** An element is kept iff it is in the input and passes the test. */
  lemma {:induction false} FilterMembers<T>(s: seq<T>, p: T -> bool, x: T)
    ensures x in Filter(s, p) <==> x in s && p(x)
  {
    if s != [] {
      FilterMembers(s[1..], p, x);
      assert s == [s[0]] + s[1..];
    }
  }

  /** Filtering distributes over concatenation, so it keeps the input order. */
  lemma {:induction false} FilterAppend<T>(a: seq<T>, b: seq<T>, p: T -> bool)
    ensures Filter(a + b, p) == Filter(a, p) + Filter(b, p)
  {
    if a == [] {
      assert a + b == b;
    } else {
      var ab := a + b;
      var head := if p(a[0]) then [a[0]] else [];
      assert ab != [] && ab[0] == a[0] && ab[1..] == a[1..] + b;
      calc {
        Filter(ab, p);
        head + Filter(a[1..] + b, p);
        { FilterAppend(a[1..], b, p); }
        head + (Filter(a[1..], p) + Filter(b, p));
        (head + Filter(a[1..], p)) + Filter(b, p);
        Filter(a, p) + Filter(b, p);
      }
    }
  }

  /** When every element passes, nothing is dropped. */
  lemma {:induction false} FilterAll<T>(s: seq<T>, p: T -> bool)
    requires forall i :: 0 <= i < |s| ==> p(s[i])
    ensures Filter(s, p) == s
  {
    if s != [] {
      FilterAll(s[1..], p);
      assert [s[0]] + s[1..] == s;
    }
  }

  /** What a `forEach` collects that pushes `f(x)` for each `x` passing `p`, in order. */
  function Collect<T, U>(s: seq<T>, p: T -> bool, f: T -> U): (r: seq<U>)
    ensures |r| <= |s|
  {
    if s == [] then []
    else Collect(s[..|s| - 1], p, f) + (if p(s[|s| - 1]) then [f(s[|s| - 1])] else [])
  }

  /** A value is collected iff it is computed from some element that passes. */
  lemma {:induction false} CollectMembers<T, U>(s: seq<T>, p: T -> bool, f: T -> U, y: U)
    ensures y in Collect(s, p, f) <==> exists i :: 0 <= i < |s| && p(s[i]) && y == f(s[i])
  {
    if s != [] {
      var n := |s| - 1;
      var front := s[..n];
      CollectMembers(front, p, f, y);
      assert Collect(s, p, f) == Collect(front, p, f) + (if p(s[n]) then [f(s[n])] else []);
      if y in Collect(front, p, f) {
        var i :| 0 <= i < n && p(front[i]) && y == f(front[i]);
        assert front[i] == s[i];
      }
      if exists i :: 0 <= i < |s| && p(s[i]) && y == f(s[i]) {
        var i :| 0 <= i < |s| && p(s[i]) && y == f(s[i]);
        if i < n {
          assert front[i] == s[i];
        }
      }
    }
  }

  /** When every element passes, one value is collected per element. */
  lemma {:induction false} CollectAll<T, U>(s: seq<T>, p: T -> bool, f: T -> U)
    requires forall i :: 0 <= i < |s| ==> p(s[i])
    ensures |Collect(s, p, f)| == |s|
  {
    if s != [] {
      var n := |s| - 1;
      forall i | 0 <= i < n
        ensures p(s[..n][i])
      {
        assert s[..n][i] == s[i];
      }
      CollectAll(s[..n], p, f);
    }
  }

  /** `Array.prototype.find`: the first element that passes, if any. */
  function FindFirst<T>(s: seq<T>, p: T -> bool): (r: Option<T>)
    ensures r.Some? ==> r.value in s && p(r.value)
    ensures r.None? <==> forall x :: x in s ==> !p(x)
  {
    if s == [] then None
    else if p(s[0]) then Some(s[0])
    else FindFirst(s[1..], p)
  }

  /** The element found is the first that passes: none before it does. */
  lemma {:induction false} FindFirstIsFirst<T>(s: seq<T>, p: T -> bool, i: nat)
    requires i < |s| && p(s[i])
    requires forall j :: 0 <= j < i ==> !p(s[j])
    ensures FindFirst(s, p) == Some(s[i])
  {
    if i > 0 {
      assert !p(s[0]);
      forall j | 0 <= j < i - 1
        ensures !p(s[1..][j])
      {
        assert s[1..][j] == s[j + 1];
      }
      FindFirstIsFirst(s[1..], p, i - 1);
    }
  }

  /** `Array.prototype.map`. */
  function Mapped<T, U>(s: seq<T>, f: T -> U): (r: seq<U>)
    ensures |r| == |s| && forall k :: 0 <= k < |s| ==> r[k] == f(s[k])
  {
    seq(|s|, k requires 0 <= k < |s| => f(s[k]))
  }

  /** Mapping one more element appends its image. */
  lemma MappedSnoc<T, U>(s: seq<T>, x: T, f: T -> U)
    ensures Mapped(s + [x], f) == Mapped(s, f) + [f(x)]
  {
    var a, b := Mapped(s + [x], f), Mapped(s, f) + [f(x)];
    forall k | 0 <= k < |a|
      ensures a[k] == b[k]
    {
      if k < |s| {
        assert (s + [x])[k] == s[k];
      }
    }
  }
}

=== FILE: hackathon_model.dfy ===
/**
 * The stored document (server/models/Hackathon.ts): the schema's fields, its two
 * enumerations, its defaults, and the unique compound index on
 * `(title, startDate, source)` that makes that triple the document's identity.
 * The schema has no `imageUrl` path, so an adapter's image URL is not stored.
 */
module HackathonModel {
  import opened Wrappers
  import opened Types

  /** The unique compound index `{ title: 1, startDate: 1, source: 1 }`. */
  datatype Key = Key(title: string, startDate: int, source: string)

  /** A stored document, with the identifier the store assigns on insert. */
  datatype Document = Document(
    id: nat,
    title: string,
    organizer: string,
    description: string,
    startDate: int,
    endDate: int,
    mode: Mode,
    isPaid: bool,
    skills: seq<string>,
    registrationUrl: string,
    source: string,
    lastUpdated: int,
    location: Option<string>,
    prize: Option<string>)

  /** The upsert filter of both persistence loops: the record's own title, start and source. */
  function KeyOf(h: Hackathon): Key
  {
    Key(h.title, h.startDate, h.source)
  }

  function DocKey(d: Document): Key
  {
    Key(d.title, d.startDate, d.source)
  }

  /** The schema default of `isPaid`. */
  const DefaultIsPaid: bool := false

  /** What the schema's validators accept: the required strings are present (Mongoose's
      `required` rejects an empty string) and `source` is one of the enumerated labels
      (`mode` is enumerated by its type). No constraint relates `startDate` and `endDate`. */
  predicate SchemaValid(d: Document)
  {
    && d.title != ""
    && d.organizer != ""
    && d.description != ""
    && d.registrationUrl != ""
    && IsSourceLabel(d.source)
  }

  /** The document an upsert inserts: the record's fields, `lastUpdated` stamped with the
      write time, the new identifier; the record's `imageUrl` has no schema path. The schema
      defaults (`isPaid` false, `lastUpdated` now) never show, because every record carries
      both fields. */
  function Inserted(h: Hackathon, id: nat, now: int): (d: Document)
    ensures DocKey(d) == KeyOf(h) && d.id == id && d.lastUpdated == now
  {
    Document(id, h.title, h.organizer, h.description, h.startDate, h.endDate, h.mode,
             h.isPaid, h.skills, h.registrationUrl, h.source, now, h.location, h.prize)
  }

  /** The `$set` an upsert applies to an existing document: every field the record carries
      is overwritten, `lastUpdated` becomes the write time, an optional field the record
      leaves undefined keeps its stored value, and the identifier stays. */
  function Merged(prior: Document, h: Hackathon, now: int): Document
  {
    Document(prior.id, h.title, h.organizer, h.description, h.startDate, h.endDate, h.mode,
             h.isPaid, h.skills, h.registrationUrl, h.source, now,
             if h.location.Some? then h.location else prior.location,
             if h.prize.Some? then h.prize else prior.prize)
  }

  /** A document with its write stamp erased: what "identical field values except
      `lastUpdated`" compares. */
  function Unstamped(d: Document): Document
  {
    d.(lastUpdated := 0)
  }

  /** Updating keeps the document under the same key and identifier, takes every field the
      record carries, and stamps the write time. */
  lemma MergedKeepsIdentity(prior: Document, h: Hackathon, now: int)
    requires DocKey(prior) == KeyOf(h)
    ensures var d := Merged(prior, h, now);
      && DocKey(d) == DocKey(prior) && d.id == prior.id && d.lastUpdated == now
      && d.organizer == h.organizer && d.description == h.description
      && d.endDate == h.endDate && d.mode == h.mode && d.isPaid == h.isPaid
      && d.skills == h.skills && d.registrationUrl == h.registrationUrl
      && (h.location.Some? ==> d.location == h.location)
      && (h.prize.Some? ==> d.prize == h.prize)
  {
  }

  /** Writing the same record again changes nothing but the stamp. */
  lemma MergedIdempotent(prior: Document, h: Hackathon, t1: int, t2: int)
    ensures Merged(Merged(prior, h, t1), h, t2) == Merged(prior, h, t2)
    ensures Unstamped(Merged(Merged(prior, h, t1), h, t2)) == Unstamped(Merged(prior, h, t1))
  {
  }

  /** A record's stored form passes the enumeration check only when its source label is
      one of the three; a record labelled 'devfolio' would fail it. */
  lemma SourceEnumOnStore(h: Hackathon, id: nat, now: int)
    ensures SchemaValid(Inserted(h, id, now)) ==> WellTyped(h)
    ensures h.source == "devfolio" ==> !SchemaValid(Inserted(h, id, now))
  {
  }
}

=== FILE: hackathon_recommendations.dfy ===
/**
 * The filtered recommendation panel (src/components/HackathonRecommendations.tsx): the
 * request body assembled from the panel's location, mode and paid-only filter, and the
 * `loading` / `recommendations` state around one request. The request, the parsed reply
 * and the browser's geolocation are inputs.
 */
module HackathonRecommendations {
  import opened Wrappers
  import Recommendation

  type Json = Recommendation.Json

  /** The skills used when the component is given none. */
  const DefaultSkills: seq<string> := ["React", "TypeScript", "Node.js"]

  /** The `filters` object sent with a request. */
  function FiltersFor(mode: string, isPaid: bool, location: string): map<string, Json>
  {
    var f := if mode != "" && mode != "all" then map["mode" := Recommendation.JStr(mode)] else map[];
    var f := if isPaid then f["isPaid" := Recommendation.JBool(true)] else f;
    if location != "" then f["location" := Recommendation.JStr(location)] else f
  }

  /** The mode is sent only when chosen (not empty, not 'all'); the paid-only flag only
      as true; the location only when not empty; nothing else is sent. With the panel's
      initial choices the object is empty. */
  lemma FiltersForSpec(mode: string, isPaid: bool, location: string)
    ensures var f := FiltersFor(mode, isPaid, location);
      && ("mode" in f <==> mode != "" && mode != "all")
      && ("mode" in f ==> f["mode"] == Recommendation.JStr(mode))
      && ("isPaid" in f <==> isPaid)
      && ("isPaid" in f ==> f["isPaid"] == Recommendation.JBool(true))
      && ("location" in f <==> location != "")
      && ("location" in f ==> f["location"] == Recommendation.JStr(location))
      && f.Keys <= {"mode", "isPaid", "location"}
    ensures FiltersFor("all", false, "") == map[]
  {
  }

  /** The strings as a JSON array. */
  function Strings(xs: seq<string>): (r: seq<Json>)
    ensures |r| == |xs| && forall i :: 0 <= i < |r| ==> r[i] == Recommendation.JStr(xs[i])
  {
    seq(|xs|, i requires 0 <= i < |xs| => Recommendation.JStr(xs[i]))
  }

  /** The JSON body of the request. */
  function RequestBody(userSkills: seq<string>, location: string, filters: map<string, Json>): Json
  {
    Recommendation.JObj(map[
      "userSkills" := Recommendation.JArr(Strings(userSkills)),
      "userLocation" := Recommendation.JStr(location),
      "filters" := Recommendation.JObj(filters)])
  }

  /** The location always travels as `userLocation`, even when empty, whereas the
      `filters` object carries it only when it is not empty. */
  lemma LocationAlwaysSent(userSkills: seq<string>, mode: string, isPaid: bool, location: string)
    ensures var body := RequestBody(userSkills, location, FiltersFor(mode, isPaid, location));
      && body.fields.Keys == {"userSkills", "userLocation", "filters"}
      && body.fields["userLocation"] == Recommendation.JStr(location)
      && ("location" in body.fields["filters"].fields <==> location != "")
  {
    FiltersForSpec(mode, isPaid, location);
  }

  /** What the request comes back with: the parsed JSON body, whatever its status, or a
      thrown error (network, or a body that is not JSON). */
  datatype Fetched = Parsed(data: Json) | Threw

  /** The city of a reverse-geocoding reply: `city || locality`. */
  function DetectedCity(city: Option<string>, locality: Option<string>): (r: Option<string>)
    ensures r.Some? ==> r.value != "" && (r == city || r == locality)
    ensures r.None? <==> (city.None? || city.value == "") && (locality.None? || locality.value == "")
  {
    if city.Some? && city.value != "" then city
    else if locality.Some? && locality.value != "" then locality
    else None
  }

  /** The panel's state. `recommendations` holds whatever the reply parsed to. */
  class Panel {
    const userSkills: seq<string>
    var recommendations: Json
    var loading: bool
    var location: string
    var mode: string
    var isPaid: bool

    /** `userSkills` defaults when not given. */
    constructor(skills: Option<seq<string>>)
      ensures userSkills == (if skills.Some? then skills.value else DefaultSkills)
      ensures recommendations == Recommendation.JArr([]) && !loading
      ensures location == "" && mode == "all" && !isPaid
    {
      userSkills := if skills.Some? then skills.value else DefaultSkills;
      recommendations := Recommendation.JArr([]);
      loading := false;
      location := "";
      mode := "all";
      isPaid := false;
    }

    /** The three filter controls. */
    method SetFilters(newLocation: string, newMode: string, newIsPaid: bool)
      modifies this
      ensures location == newLocation && mode == newMode && isPaid == newIsPaid
      ensures recommendations == old(recommendations) && loading == old(loading)
    {
      location := newLocation;
      mode := newMode;
      isPaid := newIsPaid;
    }

    /** A detected city replaces the location; no city leaves it as it is. */
    method ApplyDetectedCity(city: Option<string>, locality: Option<string>)
      modifies this
      ensures DetectedCity(city, locality).Some? ==> location == DetectedCity(city, locality).value
      ensures DetectedCity(city, locality).None? ==> location == old(location)
      ensures mode == old(mode) && isPaid == old(isPaid)
      ensures recommendations == old(recommendations) && loading == old(loading)
    {
      var found := DetectedCity(city, locality);
      if found.Some? {
        location := found.value;
      }
    }

    /** The `filters` object, filled one key at a time. */
    method BuildFilters() returns (filters: map<string, Json>)
      ensures filters == FiltersFor(mode, isPaid, location)
    {
      filters := map[];
      if mode != "" && mode != "all" {
        filters := filters["mode" := Recommendation.JStr(mode)];
      }
      if isPaid {
        filters := filters["isPaid" := Recommendation.JBool(true)];
      }
      if location != "" {
        filters := filters["location" := Recommendation.JStr(location)];
      }
    }

    /** The start of `fetchRecommendations`: loading, and the body to send, carrying
      the skills, the location and the filters. */
    method BeginFetch() returns (body: Json)
      modifies this
      ensures loading
      ensures body == RequestBody(userSkills, location, FiltersFor(mode, isPaid, location))
      ensures recommendations == old(recommendations)
      ensures location == old(location) && mode == old(mode) && isPaid == old(isPaid)
    {
      loading := true;
      var filters := BuildFilters();
      body := RequestBody(userSkills, location, filters);
    }

    /** The end of `fetchRecommendations`: a parsed reply replaces the recommendations
      (even an error object, since the status is not looked at), a thrown error keeps
      them; loading ends either way. */
    method FinishFetch(fetched: Fetched)
      modifies this
      ensures !loading
      ensures fetched.Parsed? ==> recommendations == fetched.data
      ensures fetched.Threw? ==> recommendations == old(recommendations)
      ensures location == old(location) && mode == old(mode) && isPaid == old(isPaid)
    {
      if fetched.Parsed? {
        recommendations := fetched.data;
      }
      loading := false;
    }

    /** `fetchRecommendations` with what its request comes back with. */
    method FetchRecommendations(fetched: Fetched) returns (body: Json)
      modifies this
      ensures body == RequestBody(userSkills, location, FiltersFor(mode, isPaid, location))
      ensures !loading
      ensures fetched.Parsed? ==> recommendations == fetched.data
      ensures fetched.Threw? ==> recommendations == old(recommendations)
      ensures location == old(location) && mode == old(mode) && isPaid == old(isPaid)
    {
      body := BeginFetch();
      FinishFetch(fetched);
    }
  }
}

=== FILE: kaggle.dfy ===
/**
 * The Kaggle adapter (server/services/kaggleService.ts): where the credentials come from,
 * when the competitions request is made at all, and how each competition becomes a record.
 * The environment variables, the two credential files and the HTTP response are inputs.
 */
module Kaggle {
  import opened Wrappers
  import opened Text
  import opened Types

  /** A parsed credential object; a field that is absent, or not a string, is `None`. */
  datatype Creds = Creds(username: Option<string>, key: Option<string>)

  /** A credential file: missing, present but not JSON (or unreadable), or parsed. A file
      holding `null` parses to `None`; any other JSON value reads as an object. */
  datatype CredFile = Absent | Unparseable | Parsed(value: Option<Creds>)

  /** `getKaggleCredentials`: both environment variables when both are truthy; else the
      first credential file that exists and parses (./kaggle.json, then
      ~/.kaggle/kaggle.json), returned as parsed; else null. */
  function GetCredentials(envUser: Option<string>, envKey: Option<string>, local: CredFile, home: CredFile): Option<Creds>
  {
    if Truthy(envUser) && Truthy(envKey) then Some(Creds(envUser, envKey))
    else if local.Parsed? then local.value
    else if home.Parsed? then home.value
    else None
  }

  /** The precedence chain: the environment pair wins when both are set; a file that does
      not parse is skipped; a parsed file ends the search even when it lacks fields or
      holds `null`; with nothing usable the result is null. */
  lemma CredentialPrecedence(envUser: Option<string>, envKey: Option<string>, local: CredFile, home: CredFile)
    ensures Truthy(envUser) && Truthy(envKey) ==> GetCredentials(envUser, envKey, local, home) == Some(Creds(envUser, envKey))
    ensures !(Truthy(envUser) && Truthy(envKey)) && local.Parsed? ==> GetCredentials(envUser, envKey, local, home) == local.value
    ensures !(Truthy(envUser) && Truthy(envKey)) && !local.Parsed? ==>
      GetCredentials(envUser, envKey, local, home) == GetCredentials(None, None, Absent, home)
    ensures GetCredentials(envUser, envKey, local, home).Some? ==>
      (Truthy(envUser) && Truthy(envKey)) || local == Parsed(GetCredentials(envUser, envKey, local, home))
      || home == Parsed(GetCredentials(envUser, envKey, local, home))
    ensures GetCredentials(None, None, Parsed(Some(Creds(None, None))), Parsed(Some(Creds(Some("u"), Some("k")))))
      == Some(Creds(None, None))
  {
  }

  /** The request is made only with credentials that have a truthy username and key. */
  predicate Usable(creds: Option<Creds>)
  {
    creds.Some? && Truthy(creds.value.username) && Truthy(creds.value.key)
  }

  /** The `Authorization` header of the request: a bearer token made of the key. */
  function Authorization(creds: Option<Creds>): (h: string)
    requires Usable(creds)
    ensures StartsWith(h, "Bearer ") && h[7..] == creds.value.key.value
  {
    "Bearer " + creds.value.key.value
  }

  /** One competition object of the response. Its two dates are taken as instants. */
  datatype Competition = Competition(
    title: string,
    organizationName: Option<string>,
    description: string,
    enabledDate: int,
    deadline: int,
    ref: string,
    reward: Option<string>)

  /** What the request yields: the competitions, or an error (a failed request, or a body
      that is not an array). */
  datatype Response = Competitions(comps: seq<Competition>) | RequestError

  /** The record for one competition. */
  function ToRecord(c: Competition): (h: Hackathon)
    ensures h.title == c.title && h.description == c.description
    ensures h.startDate == c.enabledDate && h.endDate == c.deadline
  {
    Hackathon(c.title, if Truthy(c.organizationName) then c.organizationName.value else "Kaggle",
              c.description, c.enabledDate, c.deadline, Online, false,
              ["Data Science", "Machine Learning"], "https://www.kaggle.com/c/" + c.ref, "kaggle",
              Some("Virtual"), Some(if Truthy(c.reward) then c.reward.value else ""), None)
  }

  /** Each record carries the fixed Kaggle fields; the organizer and prize fall back when
      the competition's value is falsy; the URL is the competition page. */
  lemma RecordFields(c: Competition)
    ensures var h := ToRecord(c);
      && WellTyped(h) && h.mode == Online && !h.isPaid && h.location == Some("Virtual")
      && h.skills == ["Data Science", "Machine Learning"]
      && StartsWith(h.registrationUrl, "https://www.kaggle.com/c/") && h.registrationUrl[25..] == c.ref
      && (h.organizer == "Kaggle" <==> !Truthy(c.organizationName) || c.organizationName.value == "Kaggle")
      && (h.prize == Some("") <==> !Truthy(c.reward))
  {
    var h := ToRecord(c);
    assert |"https://www.kaggle.com/c/"| == 25;
    assert h.registrationUrl[..25] == "https://www.kaggle.com/c/";
  }

  /** `fetchKaggleCompetitions`, given the credentials found and the response the request
      would get. */
  function FetchCompetitions(creds: Option<Creds>, response: Response): (r: seq<Hackathon>)
    ensures !Usable(creds) || response.RequestError? ==> r == []
    ensures Usable(creds) && response.Competitions? ==>
      |r| == |response.comps| && forall i :: 0 <= i < |r| ==> r[i] == ToRecord(response.comps[i])
  {
    if !Usable(creds) then []
    else match response
      case RequestError => []
      case Competitions(comps) => seq(|comps|, i requires 0 <= i < |comps| => ToRecord(comps[i]))
  }

  /** Without usable credentials no request is made: the result does not depend on what
      the request would return. */
  lemma NoRequestWithoutCredentials(creds: Option<Creds>, r1: Response, r2: Response)
    requires !Usable(creds)
    ensures FetchCompetitions(creds, r1) == FetchCompetitions(creds, r2) == []
  {
  }

  /** A credential file holding `null` or an object without a key stops the chain and
      skips the request, even when the home-directory file would have been usable. */
  lemma IncompleteLocalFileSkipsKaggle(home: CredFile, response: Response)
    ensures FetchCompetitions(GetCredentials(None, None, Parsed(Some(Creds(Some("u"), None))), home), response) == []
    ensures FetchCompetitions(GetCredentials(None, None, Parsed(None), home), response) == []
  {
  }
}

=== FILE: mlh.dfy ===
/**
 * The MLH adapter (server/services/mlhService.ts). The browser run itself is not modelled:
 * its product, the list of `.event-wrapper` cards with the text of the elements each one
 * holds, is the input. On that list the adapter keeps the cards with both a title and a
 * link, derives the location, the mode and the image URL, and later rewrites the free-text
 * date range into two strings for JavaScript's `Date` parser, which is a parameter
 * (`parse`, `None` for an invalid date), as are the current year and the current instant.
 */
module Mlh {
  import opened Wrappers
  import opened Text
  import opened Types
  import opened Filtering

  /** One `.event-wrapper` card: the `textContent` of each element (`None` when the
      element is absent), the link's resolved `href` and the logo's `src`. */
  datatype Card = Card(
    title: Option<string>,
    date: Option<string>,
    location: Option<string>,
    link: Option<string>,
    imageSrc: Option<string>)

  /** What the in-page script pushes for a card, before dates are parsed. */
  datatype RawEvent = RawEvent(
    title: string,
    rawDate: string,
    location: string,
    url: string,
    imageUrl: string,
    mode: Mode)

  /** A missing or blank location reads as 'Online'. */
  function CardLocation(text: Option<string>): (r: string)
    ensures r != ""
  {
    TextOr(text, "Online")
  }

  /** Mode inference: 'online' when the location mentions "virtual" or "online" in any
      letter case, otherwise 'offline'. */
  function InferMode(location: string): (m: Mode)
    ensures m == Online <==> ContainsCI(location, "virtual") || ContainsCI(location, "online")
    ensures m == Offline <==> !ContainsCI(location, "virtual") && !ContainsCI(location, "online")
    ensures m != Hybrid
  {
    if ContainsCI(location, "virtual") || ContainsCI(location, "online") then Online else Offline
  }

  /** A protocol-relative image URL (`//host/...`) gets the `https:` scheme; an empty one,
      one already starting with "http" and any other relative one are kept as they are. */
  function FixImageUrl(src: string): (r: string)
  {
    if src != "" && !StartsWith(src, "http") && StartsWith(src, "//") then "https:" + src else src
  }

  /** The fix makes a protocol-relative URL absolute, touches nothing else, and is
      idempotent. */
  lemma FixImageUrlProperties(src: string)
    ensures StartsWith(src, "//") ==> FixImageUrl(src) == "https:" + src && StartsWith(FixImageUrl(src), "http")
    ensures !StartsWith(src, "//") ==> FixImageUrl(src) == src
    ensures FixImageUrl(FixImageUrl(src)) == FixImageUrl(src)
  {
    if StartsWith(src, "//") {
      assert !StartsWith(src, "http") by {
        assert src[0] == '/';
      }
      assert ("https:" + src)[..4] == "http";
      assert !StartsWith("https:" + src, "//") by {
        assert ("https:" + src)[0] == 'h';
      }
    }
  }

  /** A card is used only when both its title element and its link element exist. */
  predicate Usable(c: Card)
  {
    c.title.Some? && c.link.Some?
  }

  /** The entry pushed for a card; only applied to usable cards. */
  function Extract(c: Card): RawEvent
  {
    var location := CardLocation(c.location);
    RawEvent(
      TextOr(c.title, ""),
      TextOr(c.date, ""),
      location,
      c.link.GetOr(""),
      FixImageUrl(c.imageSrc.GetOr("")),
      InferMode(location))
  }

  /** An entry always has a location ("Online" when the card shows none) and is never
      hybrid. */
  lemma ExtractShape(c: Card)
    ensures Extract(c).location != "" && Extract(c).mode != Hybrid
  {
  }

  /** The entries the in-page `forEach` collects, in card order. */
  function Extracted(cards: seq<Card>): seq<RawEvent>
  {
    Collect(cards, Usable, Extract)
  }

  /** One entry per usable card, and only those; no card yields more than one entry, and
      when every card is usable none is dropped. */
  lemma ExtractedSpec(cards: seq<Card>, e: RawEvent)
    ensures e in Extracted(cards) <==> exists i :: 0 <= i < |cards| && Usable(cards[i]) && e == Extract(cards[i])
    ensures |Extracted(cards)| <= |cards|
    ensures (forall i :: 0 <= i < |cards| ==> Usable(cards[i])) ==> |Extracted(cards)| == |cards|
  {
    CollectMembers(cards, Usable, Extract, e);
    if forall i :: 0 <= i < |cards| ==> Usable(cards[i]) {
      CollectAll(cards, Usable, Extract);
    }
  }

  /** The in-page script: one pass over the cards, pushing an entry for each usable one. */
  method ExtractEvents(cards: seq<Card>) returns (data: seq<RawEvent>)
    ensures data == Extracted(cards)
  {
    data := [];
    for i := 0 to |cards|
      invariant data == Extracted(cards[..i])
    {
      assert cards[..i + 1][..i] == cards[..i];
      var card := cards[i];
      assert Extracted(cards[..i + 1]) == Extracted(cards[..i]) + (if Usable(card) then [Extract(card)] else []);
      if card.title.Some? && card.link.Some? {
        var location := TextOr(card.location, "Online");
        var imageUrl := card.imageSrc.GetOr("");
        if imageUrl != "" && !StartsWith(imageUrl, "http") {
          if StartsWith(imageUrl, "//") {
            imageUrl := "https:" + imageUrl;
          }
        }
        var mode := Offline;
        if ContainsCI(location, "virtual") || ContainsCI(location, "online") {
          mode := Online;
        }
        data := data + [RawEvent(TextOr(card.title, ""), TextOr(card.date, ""), location,
                                 card.link.value, imageUrl, mode)];
      }
    }
    assert cards[..|cards|] == cards;
  }

  // ---------------------------------------------------------------- date rewriting

  predicate IsOrdinalSuffix(s: string)
  {
    s == "st" || s == "nd" || s == "rd" || s == "th"
  }

  /** The length of the run of digits `s` starts with. */
  function DigitRun(s: string): (n: nat)
    ensures n <= |s|
    ensures forall i :: 0 <= i < n ==> IsDigit(s[i])
    ensures n < |s| ==> !IsDigit(s[n])
  {
    if s != [] && IsDigit(s[0]) then 1 + DigitRun(s[1..]) else 0
  }

  /** `s.replace(/(\d+)(st|nd|rd|th)/g, '$1')`: every maximal run of digits directly
      followed by one of the four suffixes loses the suffix; the scan resumes after the
      removed suffix. The match is case-sensitive. */
  function RemoveOrdinals(s: string): (r: string)
    ensures |r| <= |s|
    decreases |s|
  {
    if s == [] then []
    else if IsDigit(s[0]) then
      var n := DigitRun(s);
      var rest := s[n..];
      if |rest| >= 2 && IsOrdinalSuffix(rest[..2]) then s[..n] + RemoveOrdinals(rest[2..])
      else s[..n] + RemoveOrdinals(rest)
    else [s[0]] + RemoveOrdinals(s[1..])
  }

  /** An ordinal suffix and what follows it have the digits of what follows. */
  lemma DigitsAfterSuffix(s: string)
    requires |s| >= 2 && IsOrdinalSuffix(s[..2])
    ensures Digits(s) == Digits(s[2..])
  {
    DigitsSplit(s, 2);
    assert Digits(s[..2][1..][1..]) == [];
  }

  /** Removing ordinal suffixes removes letters only: every digit stays, in order. */
  lemma {:induction false} RemoveOrdinalsKeepsDigits(s: string)
    ensures Digits(RemoveOrdinals(s)) == Digits(s)
    decreases |s|
  {
    if s != [] {
      if IsDigit(s[0]) {
        var n := DigitRun(s);
        var rest := s[n..];
        DigitsSplit(s, n);
        if |rest| >= 2 && IsOrdinalSuffix(rest[..2]) {
          DigitsAfterSuffix(rest);
          RemoveOrdinalsKeepsDigits(rest[2..]);
          DigitsAppend(s[..n], RemoveOrdinals(rest[2..]));
        } else {
          RemoveOrdinalsKeepsDigits(rest);
          DigitsAppend(s[..n], RemoveOrdinals(rest));
        }
      } else {
        DigitsSplit(s, 1);
        assert s[..1] == [s[0]];
        RemoveOrdinalsKeepsDigits(s[1..]);
        DigitsAppend([s[0]], RemoveOrdinals(s[1..]));
      }
    }
  }

  /** Text without digits passes unchanged. */
  lemma {:induction false} RemoveOrdinalsWithoutDigits(s: string)
    requires forall i :: 0 <= i < |s| ==> !IsDigit(s[i])
    ensures RemoveOrdinals(s) == s
    decreases |s|
  {
    if s != [] {
      RemoveOrdinalsWithoutDigits(s[1..]);
      assert [s[0]] + s[1..] == s;
    }
  }

  lemma {:induction false} DigitRunOf(d: string, rest: string)
    requires forall i :: 0 <= i < |d| ==> IsDigit(d[i])
    requires rest == [] || !IsDigit(rest[0])
    ensures DigitRun(d + rest) == |d|
  {
    if d != [] {
      DigitRunOf(d[1..], rest);
      assert (d + rest)[1..] == d[1..] + rest;
    }
  }

  /** A run of digits directly followed by an ordinal suffix keeps the digits and loses
      the suffix; the rest is processed after it. */
  lemma OrdinalRemoved(d: string, suffix: string, rest: string)
    requires AllDigits(d) && IsOrdinalSuffix(suffix)
    ensures RemoveOrdinals(d + suffix + rest) == d + RemoveOrdinals(rest)
  {
    var s := d + suffix + rest;
    DigitRunOf(d, suffix + rest);
    assert s == d + (suffix + rest);
    assert s[..|d|] == d && s[|d|..] == suffix + rest;
    assert (suffix + rest)[..2] == suffix && (suffix + rest)[2..] == rest;
  }

  /** The date range, cleaned: ordinals removed, then trimmed. */
  function CleanDate(dateStr: string): string
  {
    Trim(RemoveOrdinals(dateStr))
  }

  /** The two strings `parseDate` hands to `new Date`, the current year appended to each.
      With a '-', the start is the first piece and the end the second, both trimmed; an
      end made of digits only borrows the start's first word (its month). Without a '-',
      both are the whole cleaned string. */
  function DateStrings(dateStr: string, year: nat): (r: (string, string))
    ensures EndsWith(r.0, " " + Decimal(year)) && EndsWith(r.1, " " + Decimal(year))
  {
    var clean := CleanDate(dateStr);
    var suffix := " " + Decimal(year);
    if '-' in clean then
      var parts := Split(clean, '-');
      var startPart := Trim(parts[0]);
      var endPart := if |parts| > 1 then Trim(parts[1]) else "";
      var endPart' := if AllDigits(endPart) then Split(startPart, ' ')[0] + " " + endPart else endPart;
      (startPart + suffix, endPart' + suffix)
    else
      (clean + suffix, clean + suffix)
  }

  /** A single date gives the same string twice; a range always has the second piece the
      end is read from. */
  lemma DateStringsShape(dateStr: string, year: nat)
    ensures '-' !in CleanDate(dateStr) ==> DateStrings(dateStr, year).0 == DateStrings(dateStr, year).1 == CleanDate(dateStr) + " " + Decimal(year)
    ensures '-' in CleanDate(dateStr) ==> |Split(CleanDate(dateStr), '-')| >= 2
  {
    var clean := CleanDate(dateStr);
    if '-' in clean {
      SplitShape(clean, '-');
      var i :| 0 <= i < |clean| && clean[i] == '-';
      CountPositive(clean, '-', i);
    }
  }

  /** A range: the cleaned text is its first piece, '-', its second piece and a remainder
      empty or starting with '-' (every cleaned text holding '-' is cut so, by
      `SplitFirstTwo`). The start is the first piece trimmed; the end is the second piece
      trimmed, preceded by the start's first word (its month) when it is all digits. */
  lemma DateRangeStrings(dateStr: string, year: nat, first: string, second: string, rest: string)
    requires CleanDate(dateStr) == first + "-" + second + rest
    requires '-' !in first && '-' !in second && (rest == "" || rest[0] == '-')
    ensures var suffix := " " + Decimal(year);
      && DateStrings(dateStr, year).0 == Trim(first) + suffix
      && DateStrings(dateStr, year).1
         == (if AllDigits(Trim(second)) then Split(Trim(first), ' ')[0] + " " + Trim(second) else Trim(second)) + suffix
  {
    SplitPrefixPieces(first, second, rest, '-');
    assert CleanDate(dateStr)[|first|] == '-';
  }

  /** Text without digits passes ordinal removal unchanged in front of anything. */
  lemma {:induction false} RemoveOrdinalsPlainPrefix(p: string, s: string)
    requires forall i :: 0 <= i < |p| ==> !IsDigit(p[i])
    ensures RemoveOrdinals(p + s) == p + RemoveOrdinals(s)
    decreases |p|
  {
    if p != [] {
      assert (p + s)[0] == p[0] && (p + s)[1..] == p[1..] + s;
      RemoveOrdinalsPlainPrefix(p[1..], s);
      assert p + RemoveOrdinals(s) == [p[0]] + (p[1..] + RemoveOrdinals(s));
    } else {
      assert p + s == s;
    }
  }

  /** A digit run followed by a non-digit that starts no ordinal suffix is kept. */
  lemma RemoveOrdinalsDigitsPrefix(d: string, s: string)
    requires AllDigits(d) && s != [] && !IsDigit(s[0]) && !(|s| >= 2 && IsOrdinalSuffix(s[..2]))
    ensures RemoveOrdinals(d + s) == d + RemoveOrdinals(s)
  {
    DigitRunOf(d, s);
    assert (d + s)[..|d|] == d && (d + s)[|d|..] == s;
  }

  /** A word: not empty, with no white space and no '-'. */
  predicate IsWord(w: string)
  {
    w != "" && forall i :: 0 <= i < |w| ==> !IsSpace(w[i]) && w[i] != '-'
  }

  /** A range within one month ("Feb 10 - 12"): the end borrows the start's month. */
  lemma SameMonthRange(dateStr: string, year: nat, month: string, d1: string, d2: string)
    requires CleanDate(dateStr) == month + " " + d1 + " - " + d2
    requires IsWord(month) && AllDigits(d1) && AllDigits(d2)
    ensures var suffix := " " + Decimal(year);
      DateStrings(dateStr, year).0 == month + " " + d1 + suffix && DateStrings(dateStr, year).1 == month + " " + d2 + suffix
  {
    var first, second := month + " " + d1 + " ", " " + d2;
    SameMonthText(month, d1, d2);
    StartPiece(month, d1);
    DayPiece(d2);
    DateRangeStrings(dateStr, year, first, second, "");
    assert AllDigits(Trim(second)) && Split(Trim(first), ' ')[0] == month;
  }

  /** A range across months ("Feb 28 - Mar 2"): each end keeps its own month. */
  lemma CrossMonthRange(dateStr: string, year: nat, m1: string, d1: string, m2: string, d2: string)
    requires CleanDate(dateStr) == m1 + " " + d1 + " - " + m2 + " " + d2
    requires IsWord(m1) && IsWord(m2) && !IsDigit(m2[0]) && AllDigits(d1) && AllDigits(d2)
    ensures var suffix := " " + Decimal(year);
      DateStrings(dateStr, year).0 == m1 + " " + d1 + suffix && DateStrings(dateStr, year).1 == m2 + " " + d2 + suffix
  {
    var first, second := m1 + " " + d1 + " ", " " + m2 + " " + d2;
    CrossMonthText(m1, d1, m2, d2);
    StartPiece(m1, d1);
    EndPiece(m2, d2);
    DateRangeStrings(dateStr, year, first, second, "");
    assert !AllDigits(Trim(second)) && Trim(second) == m2 + " " + d2 && Trim(first) == m1 + " " + d1;
  }

  lemma SameMonthText(month: string, d1: string, d2: string)
    ensures month + " " + d1 + " - " + d2 == (month + " " + d1 + " ") + "-" + (" " + d2) + ""
  {
    var l := month + " " + d1;
    assert month + " " + d1 + " - " + d2 == l + " - " + d2;
    assert (month + " " + d1 + " ") + "-" + (" " + d2) + "" == l + " - " + d2;
  }

  lemma CrossMonthText(m1: string, d1: string, m2: string, d2: string)
    ensures m1 + " " + d1 + " - " + m2 + " " + d2 == (m1 + " " + d1 + " ") + "-" + (" " + m2 + " " + d2) + ""
  {
    var l, r := m1 + " " + d1, m2 + " " + d2;
    assert m1 + " " + d1 + " - " + m2 + " " + d2 == l + " - " + r;
    assert (m1 + " " + d1 + " ") + "-" + (" " + m2 + " " + d2) + "" == l + " - " + r;
  }

  /** The start piece "month day ": trimmed, its first word is the month. */
  lemma StartPiece(month: string, day: string)
    requires IsWord(month) && AllDigits(day)
    ensures var piece := month + " " + day + " ";
      && '-' !in piece && Trim(piece) == month + " " + day
      && Split(Trim(piece), ' ')[0] == month
  {
    assert '-' !in month && '-' !in day;
    WordDayTrimmed(month, day, "", " ");
    assert "" + (month + " " + day) + " " == month + " " + day + " ";
    SplitAfterPiece(month, day, ' ');
    assert month + [' '] + day == month + " " + day;
  }

  /** "month day", between white space, is what trimming keeps. */
  lemma WordDayTrimmed(month: string, day: string, a: string, b: string)
    requires IsWord(month) && AllDigits(day)
    requires forall i :: 0 <= i < |a| ==> IsSpace(a[i])
    requires forall i :: 0 <= i < |b| ==> IsSpace(b[i])
    ensures Trim(a + (month + " " + day) + b) == month + " " + day
  {
    var core := month + " " + day;
    assert core[0] == month[0] && core[|core| - 1] == day[|day| - 1];
    TrimAround(a, core, b);
  }

  /** The end piece " day": trimmed, it is the day alone. */
  lemma DayPiece(day: string)
    requires AllDigits(day)
    ensures '-' !in " " + day && Trim(" " + day) == day
  {
    assert '-' !in day && !IsSpace(day[0]) && !IsSpace(day[|day| - 1]);
    TrimAround(" ", day, "");
    assert " " + day + "" == " " + day;
  }

  /** The end piece " month day": trimmed, it keeps the month and is not all digits. */
  lemma EndPiece(month: string, day: string)
    requires IsWord(month) && !IsDigit(month[0]) && AllDigits(day)
    ensures var piece := " " + month + " " + day;
      && '-' !in piece && Trim(piece) == month + " " + day && !AllDigits(Trim(piece))
  {
    EndPieceNoDash(month, day);
    WordDayTrimmed(month, day, " ", "");
    EndPieceText(month, day);
    assert (month + " " + day)[0] == month[0];
  }

  lemma EndPieceNoDash(month: string, day: string)
    requires IsWord(month) && AllDigits(day)
    ensures '-' !in " " + month + " " + day
  {
    assert '-' !in month && '-' !in day;
  }

  lemma EndPieceText(month: string, day: string)
    ensures " " + (month + " " + day) + "" == " " + month + " " + day
  {
  }

  /** The same-month range the adapter's own comment names, "Feb 10 - 12": the end
      reads "Feb 12". */
  lemma FebTenToTwelve(dateStr: string, year: nat, feb: string, ten: string, twelve: string)
    requires feb == "Feb" && ten == "10" && twelve == "12"
    requires CleanDate(dateStr) == feb + " " + ten + " - " + twelve
    ensures var suffix := " " + Decimal(year);
      DateStrings(dateStr, year).0 == feb + " " + ten + suffix && DateStrings(dateStr, year).1 == feb + " " + twelve + suffix
  {
    assert IsWord(feb) && AllDigits(ten) && AllDigits(twelve);
    SameMonthRange(dateStr, year, feb, ten, twelve);
  }

  /** The cross-month range the adapter's own comment names, "Feb 28 - Mar 2": the end
      reads "Mar 2". */
  lemma FebToMarch(dateStr: string, year: nat, feb: string, day1: string, mar: string, day2: string)
    requires feb == "Feb" && day1 == "28" && mar == "Mar" && day2 == "2"
    requires CleanDate(dateStr) == feb + " " + day1 + " - " + mar + " " + day2
    ensures var suffix := " " + Decimal(year);
      DateStrings(dateStr, year).0 == feb + " " + day1 + suffix && DateStrings(dateStr, year).1 == mar + " " + day2 + suffix
  {
    assert IsWord(feb) && IsWord(mar) && !IsDigit(mar[0]) && AllDigits(day1) && AllDigits(day2);
    CrossMonthRange(dateStr, year, feb, day1, mar, day2);
  }

  lemma {:induction false} CountPositive(s: string, c: char, i: nat)
    requires i < |s| && s[i] == c
    ensures Count(s, c) > 0
  {
    if i > 0 {
      CountPositive(s[1..], c, i - 1);
    }
  }

  /** `parseDate`: each string is parsed on its own and replaced by the current instant
      when it does not parse. */
  function ParseDate(dateStr: string, year: nat, now: int, parse: string -> Option<int>): (r: (int, int))
    ensures var s := DateStrings(dateStr, year);
      && (parse(s.0).Some? ==> r.0 == parse(s.0).value) && (parse(s.0).None? ==> r.0 == now)
      && (parse(s.1).Some? ==> r.1 == parse(s.1).value) && (parse(s.1).None? ==> r.1 == now)
  {
    var s := DateStrings(dateStr, year);
    (parse(s.0).GetOr(now), parse(s.1).GetOr(now))
  }

  /** Nothing orders the two instants: whenever the two strings differ, some parser puts
      the start after the end. */
  lemma StartAfterEndPossible(dateStr: string, year: nat, now: int)
    requires DateStrings(dateStr, year).0 != DateStrings(dateStr, year).1
    ensures var s := DateStrings(dateStr, year);
      var r := ParseDate(dateStr, year, now, x => if x == s.0 then Some(1) else Some(0));
      r.0 > r.1
  {
  }

  /** Without a '-' (so without a range), the two instants agree. */
  lemma SingleDateSameInstants(dateStr: string, year: nat, now: int, parse: string -> Option<int>)
    requires '-' !in CleanDate(dateStr)
    ensures ParseDate(dateStr, year, now, parse).0 == ParseDate(dateStr, year, now, parse).1
  {
  }

  // ---------------------------------------------------------------- final mapping

  /** The record built for one entry, with the parsed dates. */
  function ToRecord(e: RawEvent, dates: (int, int)): (h: Hackathon)
    ensures h.title == e.title && h.registrationUrl == e.url && h.mode == e.mode
    ensures h.startDate == dates.0 && h.endDate == dates.1
  {
    Hackathon(e.title, "MLH", "Join " + e.title + ", an official MLH event!", dates.0, dates.1,
              e.mode, false, [], e.url, "mlh", Some(e.location), Some(""), Some(e.imageUrl))
  }

  /** `events.map(...)`: one record per entry, in order. */
  function Normalize(events: seq<RawEvent>, year: nat, now: int, parse: string -> Option<int>): (r: seq<Hackathon>)
    ensures |r| == |events|
    ensures forall i :: 0 <= i < |r| ==>
      r[i] == ToRecord(events[i], ParseDate(events[i].rawDate, year, now, parse))
  {
    seq(|events|, i requires 0 <= i < |events| => ToRecord(events[i], ParseDate(events[i].rawDate, year, now, parse)))
  }

  /** Every record the adapter returns carries the fixed MLH fields, a well-typed source
      label, a non-empty location, and a mode that is never hybrid. */
  lemma NormalizedFields(cards: seq<Card>, year: nat, now: int, parse: string -> Option<int>)
    ensures forall h :: h in Normalize(Extracted(cards), year, now, parse) ==>
      && WellTyped(h) && h.organizer == "MLH" && !h.isPaid && h.skills == []
      && h.description == "Join " + h.title + ", an official MLH event!"
      && h.prize == Some("") && h.mode != Hybrid
      && h.location.Some? && h.location.value != ""
  {
    var events := Extracted(cards);
    forall e | e in events ensures e.location != "" && e.mode != Hybrid {
      ExtractedSpec(cards, e);
      var i :| 0 <= i < |cards| && Usable(cards[i]) && e == Extract(cards[i]);
      ExtractShape(cards[i]);
    }
  }

  /** What happens inside the adapter's `try`: navigation and extraction either yield the
      cards or throw. */
  datatype PageOutcome = Loaded(cards: seq<Card>) | Failed

  /** `fetchMLHHackathons` once the browser is up: any error inside the `try` gives no
      records; otherwise one record per usable card, in card order. */
  method FetchMlhHackathons(page: PageOutcome, year: nat, now: int, parse: string -> Option<int>)
    returns (r: seq<Hackathon>)
    ensures page.Failed? ==> r == []
    ensures page.Loaded? ==> r == Normalize(Extracted(page.cards), year, now, parse)
  {
    if page.Failed? {
      return [];
    }
    var events := ExtractEvents(page.cards);
    r := Normalize(events, year, now, parse);
  }
}

=== FILE: orchestration.dfy ===
/**
 * The two drivers of the ingestion pipeline: the command-line job `run` of
 * server/runScrapers.ts and the twelve-hourly job of server/cron/scheduler.ts. Each calls
 * the three adapters in the fixed order MLH, Kaggle, Devpost and saves what they return.
 * What an adapter call yields is an input (`FetchOutcome`): the records, together with how
 * each of their writes fares, or an exception. An adapter only throws from code outside its
 * own `try` (the browser launch of the MLH and Devpost scrapers); everything else an adapter
 * does already turns failure into an empty list.
 */
module Orchestration {
  import opened Types
  import opened HackathonModel
  import opened Persistence

  datatype Source = Mlh | Kaggle | Devpost

  /** The command-line name of a source. */
  function SourceName(s: Source): string
  {
    match s
    case Mlh => "mlh"
    case Kaggle => "kaggle"
    case Devpost => "devpost"
  }

  /** The position of a source in the order both jobs call the adapters. */
  function Rank(s: Source): nat
  {
    match s
    case Mlh => 0
    case Kaggle => 1
    case Devpost => 2
  }

  const FixedOrder: seq<Source> := [Mlh, Kaggle, Devpost]

  /** `scrapersToRun`: with no argument every source runs; otherwise a source runs iff its
      exact name is one of the arguments. */
  predicate Selected(args: seq<string>, s: Source)
  {
    |args| == 0 || SourceName(s) in args
  }

  /** The sources `run` calls, in calling order. No argument runs all three in the fixed
      order; arguments that name no source are ignored, and the names are case-sensitive. */
  function Selection(args: seq<string>): (r: seq<Source>)
    ensures |r| <= 3
  {
    (if Selected(args, Mlh) then [Mlh] else [])
    + (if Selected(args, Kaggle) then [Kaggle] else [])
    + (if Selected(args, Devpost) then [Devpost] else [])
  }

  /** A source is called iff it is selected, and the calls follow the fixed order. */
  lemma SelectionExact(args: seq<string>, s: Source)
    ensures s in Selection(args) <==> Selected(args, s)
    ensures var r := Selection(args); forall i, j :: 0 <= i < j < |r| ==> Rank(r[i]) < Rank(r[j])
  {
    var m, k, d := Selected(args, Mlh), Selected(args, Kaggle), Selected(args, Devpost);
    var r := Selection(args);
    assert r == (if m then [Mlh] else []) + (if k then [Kaggle] else []) + (if d then [Devpost] else []);
    if m && k && d { assert r == [Mlh, Kaggle, Devpost]; }
    else if m && k { assert r == [Mlh, Kaggle]; }
    else if m && d { assert r == [Mlh, Devpost]; }
    else if k && d { assert r == [Kaggle, Devpost]; }
    else if m { assert r == [Mlh]; }
    else if k { assert r == [Kaggle]; }
    else if d { assert r == [Devpost]; }
    else { assert r == []; }
  }

  lemma SelectionProperties(args: seq<string>, a: string)
    ensures Selection([]) == FixedOrder
    ensures args != [] && a !in {"mlh", "kaggle", "devpost"} ==> Selection(args + [a]) == Selection(args)
    ensures Selection(["MLH"]) == []
    ensures Selection(["devpost", "mlh"]) == [Mlh, Devpost]
  {
    if args != [] && a !in {"mlh", "kaggle", "devpost"} {
      forall s: Source ensures Selected(args + [a], s) == Selected(args, s) {
        assert SourceName(s) in args + [a] <==> SourceName(s) in args;
      }
    }
    assert "mlh" != "MLH" && "kaggle" != "MLH" && "devpost" != "MLH";
    assert "mlh" in ["devpost", "mlh"];
  }

  /** What awaiting one adapter gave: its records, with how each record's write fares, or
      an exception. */
  datatype FetchOutcome = Fetched(records: seq<Hackathon>, writes: seq<WriteEnv>) | Threw

  predicate Fits(f: FetchOutcome)
  {
    f.Fetched? ==> |f.records| == |f.writes|
  }

  /** One `try { fetch; saveHackathons } catch { log }` block of `run`. */
  function AfterSource(st: StoreState, f: FetchOutcome): StoreState
    requires Fits(f)
  {
    match f
    case Threw => st
    case Fetched(hs, ws) => Batch(st, hs, ws).0
  }

  /** The store after the blocks of `order`, each in its own `try`. */
  function AfterSources(st: StoreState, order: seq<Source>, fetch: Source -> FetchOutcome): StoreState
    requires forall s :: Fits(fetch(s))
    decreases |order|
  {
    if order == [] then st
    else AfterSources(AfterSource(st, fetch(order[0])), order[1..], fetch)
  }

  /** The sources of `order` whose adapter returned. */
  function Returned(order: seq<Source>, fetch: Source -> FetchOutcome): (r: seq<Source>)
    ensures forall s :: s in r <==> s in order && fetch(s).Fetched?
  {
    if order == [] then []
    else (if fetch(order[0]).Fetched? then [order[0]] else []) + Returned(order[1..], fetch)
  }

  /** Per-source isolation: a source whose adapter throws is as if it had not been
      selected; the sources after it still run. */
  lemma {:induction false} ThrowingSourceSkipped(st: StoreState, order: seq<Source>, fetch: Source -> FetchOutcome)
    requires forall s :: Fits(fetch(s))
    ensures AfterSources(st, order, fetch) == AfterSources(st, Returned(order, fetch), fetch)
    decreases |order|
  {
    if order != [] {
      ThrowingSourceSkipped(AfterSource(st, fetch(order[0])), order[1..], fetch);
      if fetch(order[0]).Fetched? {
        var rest := Returned(order[1..], fetch);
        assert Returned(order, fetch) == [order[0]] + rest;
        assert ([order[0]] + rest)[0] == order[0] && ([order[0]] + rest)[1..] == rest;
        assert AfterSources(st, [order[0]] + rest, fetch) == AfterSources(AfterSource(st, fetch(order[0])), rest, fetch);
      } else {
        assert Returned(order, fetch) == Returned(order[1..], fetch);
      }
    }
  }

  /** Later blocks never remove a document. */
  lemma {:induction false} AfterSourcesGrows(st: StoreState, order: seq<Source>, fetch: Source -> FetchOutcome)
    requires forall s :: Fits(fetch(s))
    ensures st.docs.Keys <= AfterSources(st, order, fetch).docs.Keys
    decreases |order|
  {
    if order != [] {
      var f := fetch(order[0]);
      if f.Fetched? {
        BatchKeySet(st, f.records, f.writes);
      }
      AfterSourcesGrows(AfterSource(st, f), order[1..], fetch);
    }
  }

  /** Every record of a source that returned, whose write succeeded, is stored after the
      run, whatever the other sources did. */
  lemma {:induction false} ReturnedRecordsStored(st: StoreState, order: seq<Source>, fetch: Source -> FetchOutcome, s: Source, i: nat)
    requires forall s :: Fits(fetch(s))
    requires s in order && fetch(s).Fetched? && i < |fetch(s).records| == |fetch(s).writes|
    requires !fetch(s).writes[i].fails
    ensures KeyOf(fetch(s).records[i]) in AfterSources(st, order, fetch).docs
    decreases |order|
  {
    var f := fetch(order[0]);
    if order[0] == s {
      BatchKeySet(st, f.records, f.writes);
      assert KeyOf(f.records[i]) in WrittenKeys(f.records, f.writes);
      AfterSourcesGrows(AfterSource(st, f), order[1..], fetch);
    } else {
      ReturnedRecordsStored(AfterSource(st, f), order[1..], fetch, s, i);
    }
  }

  /** One block of `run`: the adapter call and `saveHackathons` inside the block's `try`;
      an exception is logged and leaves the store as it was. */
  method RunSource(store: HackathonStore, f: FetchOutcome, sourceName: string)
    requires store.Valid() && Fits(f)
    modifies store
    ensures store.Valid()
    ensures store.State() == AfterSource(old(store.State()), f)
  {
    match f
    case Threw =>
    case Fetched(hs, ws) =>
      var _, _ := store.SaveHackathons(hs, sourceName, ws);
  }

  /** `run` of server/runScrapers.ts. `connects` is whether `connectDB` succeeds; when it
      does not, the job exits with status 1 before any adapter is called. Otherwise the
      selected sources run in the fixed order, each isolated from the others, and the exit
      status is 0. */
  method Run(store: HackathonStore, args: seq<string>, connects: bool, fetch: Source -> FetchOutcome)
    returns (exitCode: int)
    requires store.Valid() && forall s :: Fits(fetch(s))
    modifies store
    ensures store.Valid()
    ensures exitCode == (if connects then 0 else 1)
    ensures store.State() == if connects then AfterSources(old(store.State()), Selection(args), fetch)
                             else old(store.State())
  {
    if !connects {
      return 1;
    }
    ghost var remaining := Selection(args);
    ghost var goal := AfterSources(store.State(), remaining, fetch);
    if Selected(args, Mlh) {
      RunSource(store, fetch(Mlh), "MLH");
      remaining := remaining[1..];
    }
    assert goal == AfterSources(store.State(), remaining, fetch);
    if Selected(args, Kaggle) {
      RunSource(store, fetch(Kaggle), "Kaggle");
      remaining := remaining[1..];
    }
    assert goal == AfterSources(store.State(), remaining, fetch);
    if Selected(args, Devpost) {
      RunSource(store, fetch(Devpost), "Devpost");
      remaining := remaining[1..];
    }
    assert remaining == [];
    return 0;
  }

  // ---------------------------------------------------------------- the scheduled job

  /** The store after the scheduled job's body over `order`, and whether the body ran to
      completion: the calls are awaited one after another with no `try`, so the first
      exception rejects the job and the sources after it do not run. */
  function JobResult(st: StoreState, order: seq<Source>, fetch: Source -> FetchOutcome): (StoreState, bool)
    requires forall s :: Fits(fetch(s))
    decreases |order|
  {
    if order == [] then (st, true)
    else
      var f := fetch(order[0]);
      if f.Threw? then (st, false)
      else JobResult(AfterSource(st, f), order[1..], fetch)
  }

  /** When no adapter throws, the job completes and leaves the store as `run` with no
      arguments would. */
  lemma {:induction false} JobAgreesWithRun(st: StoreState, order: seq<Source>, fetch: Source -> FetchOutcome)
    requires forall s :: Fits(fetch(s))
    requires forall s :: s in order ==> fetch(s).Fetched?
    ensures JobResult(st, order, fetch) == (AfterSources(st, order, fetch), true)
    decreases |order|
  {
    if order != [] {
      JobAgreesWithRun(AfterSource(st, fetch(order[0])), order[1..], fetch);
    }
  }

  /** Without per-source isolation, an exception from the first adapter leaves the store
      untouched by the job, where `run` still saves the other two sources. */
  lemma FirstThrowStopsJob(st: StoreState, fetch: Source -> FetchOutcome)
    requires forall s :: Fits(fetch(s))
    requires fetch(Mlh) == Threw
    ensures JobResult(st, FixedOrder, fetch) == (st, false)
    ensures AfterSources(st, Selection([]), fetch) == AfterSources(st, [Kaggle, Devpost], fetch)
  {
    assert FixedOrder[1..] == [Kaggle, Devpost];
  }

  /** The job body of `startScheduler`, as one scheduled run executes it; `completed` is
      false when an adapter's exception rejects the job. */
  method ScheduledJob(store: HackathonStore, fetch: Source -> FetchOutcome) returns (completed: bool)
    requires store.Valid() && forall s :: Fits(fetch(s))
    modifies store
    ensures store.Valid()
    ensures (store.State(), completed) == JobResult(old(store.State()), FixedOrder, fetch)
  {
    assert FixedOrder[1..] == [Kaggle, Devpost] && FixedOrder[1..][1..] == [Devpost];
    var mlhData := fetch(Mlh);
    if mlhData.Threw? {
      return false;
    }
    store.SaveAll(mlhData.records, mlhData.writes);
    assert JobResult(old(store.State()), FixedOrder, fetch) == JobResult(store.State(), [Kaggle, Devpost], fetch);
    var kaggleData := fetch(Kaggle);
    if kaggleData.Threw? {
      return false;
    }
    store.SaveAll(kaggleData.records, kaggleData.writes);
    assert JobResult(old(store.State()), FixedOrder, fetch) == JobResult(store.State(), [Devpost], fetch);
    var devpostData := fetch(Devpost);
    if devpostData.Threw? {
      return false;
    }
    store.SaveAll(devpostData.records, devpostData.writes);
    return true;
  }

  // The cron expression `0 */12 * * *`: minute 0 of every hour that is a multiple of 12,
  // on every day of the month, month and weekday.
  predicate Fires(minute: nat, hour: nat)
    requires minute < 60 && hour < 24
  {
    minute == 0 && hour % 12 == 0
  }

  /** The schedule fires exactly twice a day, at 00:00 and 12:00. */
  lemma FiresTwiceADay(minute: nat, hour: nat)
    requires minute < 60 && hour < 24
    ensures Fires(minute, hour) <==> (minute, hour) in {(0, 0), (0, 12)}
  {
  }
}

=== FILE: persistence.dfy ===
/**
 * The upsert loop `saveHackathons` (server/runScrapers.ts and server/cron/scheduler.ts)
 * over the document store. The store is a map from the unique compound key
 * `(title, startDate, source)` to the one document under it, so the unique index holds by
 * construction; `Consistent` adds that every document sits under its own key and that
 * identifiers are distinct. The clock reading and the success of each write are inputs
 * (`WriteEnv`), one per record of the batch.
 */
module Persistence {
  import opened Wrappers
  import opened Types
  import opened HackathonModel

  /** What the store does on one write: the time `new Date()` reads, and whether the call
      throws (a lost connection, a cast error, ...). */
  datatype WriteEnv = WriteEnv(time: int, fails: bool)

  /** The result of one `updateOne(..., { upsert: true })`: `upsertedCount > 0`,
      `modifiedCount > 0`, neither, or an exception caught by the loop. */
  datatype Outcome = Inserted | Modified | Unchanged | Failed

  datatype StoreState = StoreState(docs: map<Key, Document>, nextId: nat)

  /** Every document lives under its own key, identifiers are below `nextId` and distinct. */
  ghost predicate Consistent(st: StoreState)
  {
    && (forall k :: k in st.docs ==> DocKey(st.docs[k]) == k && st.docs[k].id < st.nextId)
    && (forall k1, k2 :: k1 in st.docs && k2 in st.docs && k1 != k2 ==> st.docs[k1].id != st.docs[k2].id)
  }

  /** One upsert of `h`: a failing write changes nothing; otherwise the document under
      `KeyOf(h)` is updated if there is one and inserted if there is none. */
  function Write(st: StoreState, h: Hackathon, w: WriteEnv): (r: (StoreState, Outcome))
  {
    if w.fails then (st, Failed)
    else
      var k := KeyOf(h);
      if k in st.docs then
        var d := Merged(st.docs[k], h, w.time);
        (StoreState(st.docs[k := d], st.nextId), if d == st.docs[k] then Unchanged else Modified)
      else
        (StoreState(st.docs[k := HackathonModel.Inserted(h, st.nextId, w.time)], st.nextId + 1), Inserted)
  }

  /** The batch written sequentially, first record first; the outcomes in batch order. */
  function Batch(st: StoreState, hs: seq<Hackathon>, ws: seq<WriteEnv>): (r: (StoreState, seq<Outcome>))
    requires |hs| == |ws|
    ensures |r.1| == |hs|
  {
    if hs == [] then (st, [])
    else
      var n := |hs| - 1;
      var prefix := Batch(st, hs[..n], ws[..n]);
      var last := Write(prefix.0, hs[n], ws[n]);
      (last.0, prefix.1 + [last.1])
  }

  function CountOf(os: seq<Outcome>, o: Outcome): nat
  {
    if os == [] then 0 else CountOf(os[..|os| - 1], o) + (if os[|os| - 1] == o then 1 else 0)
  }

  /** One more record extends the batch by one write and one outcome. */
  lemma BatchStep(st: StoreState, hs: seq<Hackathon>, ws: seq<WriteEnv>, i: nat)
    requires |hs| == |ws| && i < |hs|
    ensures var prefix := Batch(st, hs[..i], ws[..i]);
      Batch(st, hs[..i + 1], ws[..i + 1])
        == (Write(prefix.0, hs[i], ws[i]).0, prefix.1 + [Write(prefix.0, hs[i], ws[i]).1])
  {
    assert hs[..i + 1][..i] == hs[..i] && ws[..i + 1][..i] == ws[..i];
  }

  lemma CountOfSnoc(os: seq<Outcome>, x: Outcome, o: Outcome)
    ensures CountOf(os + [x], o) == CountOf(os, o) + (if x == o then 1 else 0)
  {
    assert (os + [x])[..|os|] == os;
  }

  /** The keys of the records in the batch whose write did not fail. */
  function WrittenKeys(hs: seq<Hackathon>, ws: seq<WriteEnv>): set<Key>
    requires |hs| == |ws|
  {
    set i | 0 <= i < |hs| && !ws[i].fails :: KeyOf(hs[i])
  }

  function BatchKeys(hs: seq<Hackathon>): set<Key>
  {
    set i | 0 <= i < |hs| :: KeyOf(hs[i])
  }

  // ---------------------------------------------------------------- single write

  lemma WriteConsistent(st: StoreState, h: Hackathon, w: WriteEnv)
    requires Consistent(st)
    ensures Consistent(Write(st, h, w).0)
  {
    if !w.fails && KeyOf(h) !in st.docs {
      var st' := Write(st, h, w).0;
      forall k1, k2 | k1 in st'.docs && k2 in st'.docs && k1 != k2
        ensures st'.docs[k1].id != st'.docs[k2].id
      {
        if k1 != KeyOf(h) && k2 != KeyOf(h) {
          assert st'.docs[k1] == st.docs[k1] && st'.docs[k2] == st.docs[k2];
        }
      }
    }
  }

  // ---------------------------------------------------------------- the batch

  /** Counting the outcomes: inserts and updates together never exceed the batch size. */
  lemma {:induction false} CountsBound(os: seq<Outcome>)
    ensures CountOf(os, Inserted) + CountOf(os, Modified) <= |os|
  {
    if os != [] {
      CountsBound(os[..|os| - 1]);
    }
  }

  /** `savedCount + updatedCount <= hackathons.length`. */
  lemma BatchCountsBound(st: StoreState, hs: seq<Hackathon>, ws: seq<WriteEnv>)
    requires |hs| == |ws|
    ensures var os := Batch(st, hs, ws).1;
      CountOf(os, Inserted) + CountOf(os, Modified) <= |hs|
  {
    CountsBound(Batch(st, hs, ws).1);
  }

  /** The store stays consistent through a batch: at most one document per key, each under
      its own key, identifiers distinct. */
  lemma {:induction false} BatchConsistent(st: StoreState, hs: seq<Hackathon>, ws: seq<WriteEnv>)
    requires |hs| == |ws|
    requires Consistent(st)
    ensures Consistent(Batch(st, hs, ws).0)
  {
    if hs != [] {
      var n := |hs| - 1;
      BatchConsistent(st, hs[..n], ws[..n]);
      WriteConsistent(Batch(st, hs[..n], ws[..n]).0, hs[n], ws[n]);
    }
  }

  lemma WrittenKeysSnoc(hs: seq<Hackathon>, ws: seq<WriteEnv>)
    requires |hs| == |ws| > 0
    ensures var n := |hs| - 1;
      WrittenKeys(hs, ws)
      == WrittenKeys(hs[..n], ws[..n]) + (if ws[n].fails then {} else {KeyOf(hs[n])})
  {
    var n := |hs| - 1;
    var prefix := WrittenKeys(hs[..n], ws[..n]);
    forall k | k in WrittenKeys(hs, ws)
      ensures k in prefix || (!ws[n].fails && k == KeyOf(hs[n]))
    {
      var i :| 0 <= i < |hs| && !ws[i].fails && KeyOf(hs[i]) == k;
      if i < n {
        assert hs[..n][i] == hs[i] && ws[..n][i] == ws[i];
      }
    }
    forall k | k in prefix
      ensures k in WrittenKeys(hs, ws)
    {
      var i :| 0 <= i < n && !ws[..n][i].fails && KeyOf(hs[..n][i]) == k;
      assert hs[..n][i] == hs[i] && ws[..n][i] == ws[i];
    }
  }

  /** After the loop the stored keys are the old ones plus every key whose write went
      through: a failing item is skipped, and the items after it are still written. */
  lemma {:induction false} BatchKeySet(st: StoreState, hs: seq<Hackathon>, ws: seq<WriteEnv>)
    requires |hs| == |ws|
    ensures Batch(st, hs, ws).0.docs.Keys == st.docs.Keys + WrittenKeys(hs, ws)
  {
    if hs == [] {
      assert WrittenKeys(hs, ws) == {};
    } else {
      var n := |hs| - 1;
      BatchKeySet(st, hs[..n], ws[..n]);
      WrittenKeysSnoc(hs, ws);
    }
  }

  /** Keys outside the batch keep their documents unchanged. */
  lemma {:induction false} BatchFrame(st: StoreState, hs: seq<Hackathon>, ws: seq<WriteEnv>, k: Key)
    requires |hs| == |ws|
    requires k !in BatchKeys(hs)
    ensures k in Batch(st, hs, ws).0.docs <==> k in st.docs
    ensures k in st.docs ==> Batch(st, hs, ws).0.docs[k] == st.docs[k]
  {
    if hs != [] {
      var n := |hs| - 1;
      assert KeyOf(hs[n]) in BatchKeys(hs);
      assert k !in BatchKeys(hs[..n]) by {
        forall i | 0 <= i < n
          ensures KeyOf(hs[..n][i]) != k
        {
          assert hs[..n][i] == hs[i];
          assert KeyOf(hs[i]) in BatchKeys(hs);
        }
      }
      BatchFrame(st, hs[..n], ws[..n], k);
    }
  }

  /** Which items insert: item `i` inserts exactly when its write succeeds and its key is
      neither stored beforehand nor written by an earlier item of the same batch. So with
      two equal keys in one batch the first inserts and the second updates that document. */
  lemma {:induction false} BatchInsertIff(st: StoreState, hs: seq<Hackathon>, ws: seq<WriteEnv>, i: nat)
    requires |hs| == |ws| && i < |hs|
    ensures Batch(st, hs, ws).1[i] == Inserted
      <==> !ws[i].fails && KeyOf(hs[i]) !in st.docs.Keys + WrittenKeys(hs[..i], ws[..i])
  {
    var n := |hs| - 1;
    if i < n {
      BatchInsertIff(st, hs[..n], ws[..n], i);
      assert hs[..n][..i] == hs[..i] && ws[..n][..i] == ws[..i];
    } else {
      BatchKeySet(st, hs[..n], ws[..n]);
    }
  }

  /** A record that repeats the key of an earlier record written in the same batch never
      counts as an insert. */
  lemma DuplicateNeverInserts(st: StoreState, hs: seq<Hackathon>, ws: seq<WriteEnv>, i: nat, j: nat)
    requires |hs| == |ws| && i < j < |hs|
    requires KeyOf(hs[i]) == KeyOf(hs[j]) && !ws[i].fails
    ensures Batch(st, hs, ws).1[j] != Inserted
  {
    BatchInsertIff(st, hs, ws, j);
    assert hs[..j][i] == hs[i] && ws[..j][i] == ws[i];
    assert KeyOf(hs[j]) in WrittenKeys(hs[..j], ws[..j]);
  }

  /** `savedCount` is zero when every key of the batch is already stored. */
  lemma {:induction false} NoInsertWhenAllStored(st: StoreState, hs: seq<Hackathon>, ws: seq<WriteEnv>)
    requires |hs| == |ws|
    requires BatchKeys(hs) <= st.docs.Keys
    ensures CountOf(Batch(st, hs, ws).1, Inserted) == 0
  {
    if hs != [] {
      var n := |hs| - 1;
      assert BatchKeys(hs[..n]) <= BatchKeys(hs) by {
        forall k | k in BatchKeys(hs[..n]) ensures k in BatchKeys(hs) {
          var i :| 0 <= i < n && KeyOf(hs[..n][i]) == k;
          assert KeyOf(hs[i]) == k;
        }
      }
      NoInsertWhenAllStored(st, hs[..n], ws[..n]);
      BatchKeySet(st, hs[..n], ws[..n]);
      assert KeyOf(hs[n]) in BatchKeys(hs);
      var os := Batch(st, hs, ws).1;
      assert os[..n] == Batch(st, hs[..n], ws[..n]).1;
    }
  }

  /** Re-running a batch whose writes all went through inserts nothing new. */
  lemma RerunInsertsNothing(st: StoreState, hs: seq<Hackathon>, ws1: seq<WriteEnv>, ws2: seq<WriteEnv>)
    requires |hs| == |ws1| == |ws2|
    requires forall i :: 0 <= i < |ws1| ==> !ws1[i].fails
    ensures CountOf(Batch(Batch(st, hs, ws1).0, hs, ws2).1, Inserted) == 0
  {
    BatchKeySet(st, hs, ws1);
    assert BatchKeys(hs) <= WrittenKeys(hs, ws1);
    NoInsertWhenAllStored(Batch(st, hs, ws1).0, hs, ws2);
  }

  /** The stamp: the last successful write of a key decides its document, whose
      `lastUpdated` is that write's time, whatever the record or the old document held. */
  lemma {:induction false} LastWriteWins(st: StoreState, hs: seq<Hackathon>, ws: seq<WriteEnv>, i: nat)
    requires |hs| == |ws| && i < |hs| && !ws[i].fails
    requires forall j :: i < j < |hs| && KeyOf(hs[j]) == KeyOf(hs[i]) ==> ws[j].fails
    ensures KeyOf(hs[i]) in Batch(st, hs, ws).0.docs
    ensures var d := Batch(st, hs, ws).0.docs[KeyOf(hs[i])];
      && d.lastUpdated == ws[i].time
      && DocKey(d) == KeyOf(hs[i])
      && d.organizer == hs[i].organizer && d.description == hs[i].description
      && d.endDate == hs[i].endDate && d.mode == hs[i].mode && d.isPaid == hs[i].isPaid
      && d.skills == hs[i].skills && d.registrationUrl == hs[i].registrationUrl
      && (hs[i].location.Some? ==> d.location == hs[i].location)
      && (hs[i].prize.Some? ==> d.prize == hs[i].prize)
  {
    var n := |hs| - 1;
    var prefix := Batch(st, hs[..n], ws[..n]).0;
    if i < n {
      LastWriteWins(st, hs[..n], ws[..n], i);
      if !ws[n].fails && KeyOf(hs[n]) == KeyOf(hs[i]) {
        assert false;
      }
    }
  }

  /** Updating an existing key counts as modified whenever the write time differs from the
      stored stamp, which is why re-running a batch at a later time counts updates. */
  lemma UpdateAtNewTimeModifies(st: StoreState, h: Hackathon, w: WriteEnv)
    requires !w.fails && KeyOf(h) in st.docs
    requires st.docs[KeyOf(h)].lastUpdated != w.time
    ensures Write(st, h, w).1 == Modified
  {
  }

  // ---------------------------------------------------------------- idempotence

  predicate AllSucceed(ws: seq<WriteEnv>)
  {
    forall i :: 0 <= i < |ws| ==> !ws[i].fails
  }

  /** The records of the batch that carry key `k`, in batch order. */
  function KeyWrites(hs: seq<Hackathon>, k: Key): seq<Hackathon>
  {
    if hs == [] then []
    else KeyWrites(hs[..|hs| - 1], k) + (if KeyOf(hs[|hs| - 1]) == k then [hs[|hs| - 1]] else [])
  }

  /** An empty document: what an insert merges the record into. */
  function Blank(id: nat): Document
  {
    Document(id, "", "", "", 0, 0, Online, false, [], "", "", 0, None, None)
  }

  /** The records written one after another onto `d`, stamps ignored. */
  function Fold(d: Document, writes: seq<Hackathon>): Document
  {
    if writes == [] then d
    else Merged(Fold(d, writes[..|writes| - 1]), writes[|writes| - 1], 0)
  }

  /** The last location some record of `writes` defines, else `dflt`. */
  function LastLocation(writes: seq<Hackathon>, dflt: Option<string>): Option<string>
  {
    if writes == [] then dflt
    else if writes[|writes| - 1].location.Some? then writes[|writes| - 1].location
    else LastLocation(writes[..|writes| - 1], dflt)
  }

  function LastPrize(writes: seq<Hackathon>, dflt: Option<string>): Option<string>
  {
    if writes == [] then dflt
    else if writes[|writes| - 1].prize.Some? then writes[|writes| - 1].prize
    else LastPrize(writes[..|writes| - 1], dflt)
  }

  /** Taking the last defined value twice is taking it once. */
  lemma {:induction false} LastOptionalsAgain(writes: seq<Hackathon>, l0: Option<string>, p0: Option<string>)
    ensures LastLocation(writes, LastLocation(writes, l0)) == LastLocation(writes, l0)
    ensures LastPrize(writes, LastPrize(writes, p0)) == LastPrize(writes, p0)
  {
    if writes != [] {
      LastOptionalsAgain(writes[..|writes| - 1], l0, p0);
    }
  }

  /** A non-empty run of writes leaves the identifier of the start, every field of the last
      record, and the last defined optional values. */
  lemma {:induction false} FoldShape(d: Document, writes: seq<Hackathon>)
    requires writes != []
    ensures var h, r := writes[|writes| - 1], Fold(d, writes);
      r == Document(d.id, h.title, h.organizer, h.description, h.startDate, h.endDate, h.mode,
                    h.isPaid, h.skills, h.registrationUrl, h.source, 0,
                    LastLocation(writes, d.location), LastPrize(writes, d.prize))
  {
    var n := |writes| - 1;
    if n > 0 {
      FoldShape(d, writes[..n]);
    }
  }

  /** Writing the same run twice is writing it once. */
  lemma FoldTwice(d: Document, writes: seq<Hackathon>)
    requires writes != []
    ensures Fold(Fold(d, writes), writes) == Fold(d, writes)
  {
    FoldShape(d, writes);
    FoldShape(Fold(d, writes), writes);
    LastOptionalsAgain(writes, d.location, d.prize);
  }

  lemma FoldIgnoresStamp(a: Document, b: Document, writes: seq<Hackathon>)
    requires Unstamped(a) == Unstamped(b)
    ensures Unstamped(Fold(a, writes)) == Unstamped(Fold(b, writes))
  {
    if writes != [] {
      FoldShape(a, writes);
      FoldShape(b, writes);
    }
  }

  lemma AllSucceedWrittenKeys(hs: seq<Hackathon>, ws: seq<WriteEnv>)
    requires |hs| == |ws| && AllSucceed(ws)
    ensures WrittenKeys(hs, ws) == BatchKeys(hs)
  {
  }

  lemma {:induction false} KeyWritesPresent(hs: seq<Hackathon>, k: Key)
    ensures KeyWrites(hs, k) != [] <==> k in BatchKeys(hs)
  {
    if hs != [] {
      var n := |hs| - 1;
      KeyWritesPresent(hs[..n], k);
      if k in BatchKeys(hs[..n]) {
        var i :| 0 <= i < n && KeyOf(hs[..n][i]) == k;
        assert KeyOf(hs[i]) == k;
      }
      if k in BatchKeys(hs) && KeyOf(hs[n]) != k {
        var i :| 0 <= i < |hs| && KeyOf(hs[i]) == k;
        assert hs[..n][i] == hs[i];
      }
    }
  }

  /** What a document under `k` is, after the records `kw` of that key were written with no
      failure onto `st0`: it exists exactly when it existed before or some record was
      written, and it is the start (the old document, or an empty one under the assigned
      identifier) with those records written onto it in order. */
  ghost predicate Tracks(st0: StoreState, st: StoreState, k: Key, kw: seq<Hackathon>)
  {
    && (k in st.docs <==> k in st0.docs || kw != [])
    && (k in st.docs ==>
          && (k in st0.docs ==> st.docs[k].id == st0.docs[k].id)
          && Unstamped(st.docs[k]) == Unstamped(Fold(if k in st0.docs then st0.docs[k] else Blank(st.docs[k].id), kw)))
  }

  lemma WriteTracks(st0: StoreState, st: StoreState, h: Hackathon, w: WriteEnv, k: Key, kw: seq<Hackathon>)
    requires Tracks(st0, st, k, kw) && !w.fails
    ensures Tracks(st0, Write(st, h, w).0, k, kw + (if KeyOf(h) == k then [h] else []))
  {
    if KeyOf(h) == k {
      assert (kw + [h])[..|kw|] == kw;
    } else {
      assert kw + [] == kw;
    }
  }

  /** Per key, a batch without a failing write leaves the stored document (or, for a new
      key, an empty one under the assigned identifier) with that key's records written
      onto it in batch order; an existing document keeps its identifier. */
  lemma {:induction false} BatchPerKey(st: StoreState, hs: seq<Hackathon>, ws: seq<WriteEnv>, k: Key)
    requires |hs| == |ws| && AllSucceed(ws)
    ensures Tracks(st, Batch(st, hs, ws).0, k, KeyWrites(hs, k))
  {
    if hs != [] {
      var n := |hs| - 1;
      assert AllSucceed(ws[..n]);
      BatchPerKey(st, hs[..n], ws[..n], k);
      WriteTracks(st, Batch(st, hs[..n], ws[..n]).0, hs[n], ws[n], k, KeyWrites(hs[..n], k));
    }
  }

  /** Idempotent upsert: running a batch again, both runs without a failing write, leaves
      the same keys with identical field values except `lastUpdated` (duplicates of a key
      inside the batch included). */
  lemma RerunIdempotent(st: StoreState, hs: seq<Hackathon>, ws1: seq<WriteEnv>, ws2: seq<WriteEnv>)
    requires |hs| == |ws1| == |ws2| && AllSucceed(ws1) && AllSucceed(ws2)
    ensures var st1 := Batch(st, hs, ws1).0; var st2 := Batch(st1, hs, ws2).0;
      && st2.docs.Keys == st1.docs.Keys
      && forall k :: k in st1.docs ==> Unstamped(st2.docs[k]) == Unstamped(st1.docs[k])
  {
    var st1 := Batch(st, hs, ws1).0;
    var st2 := Batch(st1, hs, ws2).0;
    BatchKeySet(st, hs, ws1);
    BatchKeySet(st1, hs, ws2);
    AllSucceedWrittenKeys(hs, ws1);
    AllSucceedWrittenKeys(hs, ws2);
    forall k | k in st1.docs
      ensures Unstamped(st2.docs[k]) == Unstamped(st1.docs[k])
    {
      if k in BatchKeys(hs) {
        KeyWritesPresent(hs, k);
        var kw := KeyWrites(hs, k);
        BatchPerKey(st1, hs, ws2, k);
        BatchPerKey(st, hs, ws1, k);
        var start := if k in st.docs then st.docs[k] else Blank(st1.docs[k].id);
        assert Unstamped(st1.docs[k]) == Unstamped(Fold(start, kw));
        FoldIgnoresStamp(st1.docs[k], Fold(start, kw), kw);
        FoldTwice(start, kw);
      } else {
        BatchFrame(st1, hs, ws2, k);
      }
    }
  }

  // ---------------------------------------------------------------- the store object

  /** The collection behind the `Hackathon` model. */
  class HackathonStore {
    var docs: map<Key, Document>
    var nextId: nat

    function State(): StoreState
      reads this
    {
      StoreState(docs, nextId)
    }

    ghost predicate Valid()
      reads this
    {
      Consistent(State())
    }

    constructor ()
      ensures Valid() && docs == map[] && nextId == 0
    {
      docs := map[];
      nextId := 0;
    }

    /** One upsert filtered by the record's own `(title, startDate, source)`, with
        `lastUpdated` set to the write time. */
    method Upsert(h: Hackathon, w: WriteEnv) returns (outcome: Outcome)
      requires Valid()
      modifies this
      ensures Valid()
      ensures (State(), outcome) == Write(old(State()), h, w)
    {
      WriteConsistent(State(), h, w);
      if w.fails {
        return Failed;
      }
      var k := KeyOf(h);
      if k in docs {
        var d := Merged(docs[k], h, w.time);
        outcome := if d == docs[k] then Unchanged else Modified;
        docs := docs[k := d];
      } else {
        docs := docs[k := HackathonModel.Inserted(h, nextId, w.time)];
        nextId := nextId + 1;
        outcome := Inserted;
      }
    }

    /** `saveHackathons` of server/runScrapers.ts: upserts the records one after another,
        skipping (after logging) any whose write throws, and counts inserts and updates.
        The `source` label only appears in the log lines. */
    method SaveHackathons(hackathons: seq<Hackathon>, source: string, writes: seq<WriteEnv>)
      returns (savedCount: nat, updatedCount: nat)
      requires Valid() && |writes| == |hackathons|
      modifies this
      ensures Valid()
      ensures State() == Batch(old(State()), hackathons, writes).0
      ensures savedCount == CountOf(Batch(old(State()), hackathons, writes).1, Inserted)
      ensures updatedCount == CountOf(Batch(old(State()), hackathons, writes).1, Modified)
      ensures savedCount + updatedCount <= |hackathons|
    {
      savedCount, updatedCount := 0, 0;
      ghost var outcomes: seq<Outcome> := [];
      var i := 0;
      while i < |hackathons|
        invariant 0 <= i <= |hackathons|
        invariant Valid()
        invariant (State(), outcomes) == Batch(old(State()), hackathons[..i], writes[..i])
        invariant savedCount == CountOf(outcomes, Inserted)
        invariant updatedCount == CountOf(outcomes, Modified)
      {
        BatchStep(old(State()), hackathons, writes, i);
        var outcome := Upsert(hackathons[i], writes[i]);
        CountOfSnoc(outcomes, outcome, Inserted);
        CountOfSnoc(outcomes, outcome, Modified);
        if outcome == Inserted {
          savedCount := savedCount + 1;
        } else if outcome == Modified {
          updatedCount := updatedCount + 1;
        }
        outcomes := outcomes + [outcome];
        i := i + 1;
      }
      assert hackathons[..i] == hackathons && writes[..i] == writes;
      BatchCountsBound(old(State()), hackathons, writes);
    }

    /** `saveHackathons` of server/cron/scheduler.ts: the same sequential upsert loop
        (`findOneAndUpdate` with `upsert` and `setDefaultsOnInsert`), without counting. */
    method SaveAll(hackathons: seq<Hackathon>, writes: seq<WriteEnv>)
      requires Valid() && |writes| == |hackathons|
      modifies this
      ensures Valid()
      ensures State() == Batch(old(State()), hackathons, writes).0
    {
      var i := 0;
      while i < |hackathons|
        invariant 0 <= i <= |hackathons|
        invariant Valid()
        invariant State() == Batch(old(State()), hackathons[..i], writes[..i]).0
      {
        BatchStep(old(State()), hackathons, writes, i);
        var _ := Upsert(hackathons[i], writes[i]);
        i := i + 1;
      }
      assert hackathons[..i] == hackathons && writes[..i] == writes;
    }
  }
}

=== FILE: recommendation.dfy ===
/**
 * The recommendation service (server/services/recommendationService.ts): which stored
 * hackathons are shown to the language model, what the prompt carries, how the model's
 * reply is turned into a list of recommendations, and when a failed request is retried.
 * The model's reply to each attempt, `JSON.parse` and the `GROQ_API_KEY` variable are
 * parameters.
 */
module Recommendation {
  import opened Wrappers
  import opened Text
  import opened Types
  import opened Sorting

  /** The sort key of the recommendation cap: the start instant. */
  function StartOf(h: Hackathon): int
  {
    h.startDate
  }

  // ---------------------------------------------------------------- location matching

  /** `isLocationMatch`: both locations truthy, and one contains the other, ignoring case. */
  predicate IsLocationMatch(hackathonLocation: Option<string>, userLocation: string)
  {
    && Truthy(hackathonLocation) && userLocation != ""
    && (Contains(Lower(hackathonLocation.value), Lower(userLocation))
        || Contains(Lower(userLocation), Lower(hackathonLocation.value)))
  }

  /** The match is symmetric, ignores letter case, holds between a non-empty location and
      itself, and never holds with an empty or absent location. */
  lemma LocationMatchProperties(a: string, b: string)
    ensures IsLocationMatch(Some(a), b) == IsLocationMatch(Some(b), a)
    ensures IsLocationMatch(Some(Lower(a)), b) == IsLocationMatch(Some(a), b)
    ensures a != "" ==> IsLocationMatch(Some(a), a)
    ensures !IsLocationMatch(Some(""), b) && !IsLocationMatch(None, b) && !IsLocationMatch(Some(a), "")
  {
    LowerIsLowerCase(a);
    LowerOfLowerCase(Lower(a));
    ContainsSelf(Lower(a));
    assert |Lower(a)| == |a|;
  }

  // ---------------------------------------------------------------- pre-filtering

  /** The hackathons whose location matches the user's, in input order. */
  function LocalMatches(hs: seq<Hackathon>, userLocation: string): (r: seq<Hackathon>)
    ensures |r| <= |hs|
    ensures forall h :: h in r <==> h in hs && IsLocationMatch(h.location, userLocation)
  {
    if hs == [] then []
    else (if IsLocationMatch(hs[0].location, userLocation) then [hs[0]] else [])
         + LocalMatches(hs[1..], userLocation)
  }

  /** Online: the location mentions "online" once lower-cased, or the mode is online. */
  predicate IsOnline(h: Hackathon)
  {
    (h.location.Some? && Contains(Lower(h.location.value), "online")) || h.mode == Online
  }

  /** The online hackathons, in input order. */
  function OnlineOnes(hs: seq<Hackathon>): (r: seq<Hackathon>)
    ensures |r| <= |hs|
    ensures forall h :: h in r <==> h in hs && IsOnline(h)
  {
    if hs == [] then []
    else (if IsOnline(hs[0]) then [hs[0]] else []) + OnlineOnes(hs[1..])
  }

  function Min(a: nat, b: nat): nat
  {
    if a < b then a else b
  }

  /** The location filter applies when the user gave a location and some hackathon
      matches it. */
  predicate PrefilterFires(hs: seq<Hackathon>, userLocation: Option<string>)
  {
    Truthy(userLocation) && |LocalMatches(hs, userLocation.value)| > 0
  }

  /** The candidate list before the cap: all local matches followed by at most ten
      online hackathons, or the whole input when the filter does not apply. */
  function Prefilter(hs: seq<Hackathon>, userLocation: Option<string>): seq<Hackathon>
  {
    if PrefilterFires(hs, userLocation) then
      var online := OnlineOnes(hs);
      LocalMatches(hs, userLocation.value) + online[..Min(10, |online|)]
    else hs
  }

  /** The filter applies exactly when some hackathon's location matches the user's; then
      every candidate is a local match or online, every local match is a candidate, and
      at most ten candidates are added for being online; otherwise nothing is dropped. */
  lemma PrefilterShape(hs: seq<Hackathon>, userLocation: Option<string>)
    ensures PrefilterFires(hs, userLocation) <==>
      Truthy(userLocation) && exists h :: h in hs && IsLocationMatch(h.location, userLocation.value)
    ensures PrefilterFires(hs, userLocation) ==>
      && (forall h :: h in Prefilter(hs, userLocation) ==>
            h in hs && (IsLocationMatch(h.location, userLocation.value) || IsOnline(h)))
      && (forall h :: h in hs && IsLocationMatch(h.location, userLocation.value) ==> h in Prefilter(hs, userLocation))
      && |Prefilter(hs, userLocation)| <= |LocalMatches(hs, userLocation.value)| + 10
    ensures !PrefilterFires(hs, userLocation) ==> Prefilter(hs, userLocation) == hs
  {
    if Truthy(userLocation) {
      var local := LocalMatches(hs, userLocation.value);
      if exists h :: h in hs && IsLocationMatch(h.location, userLocation.value) {
        var h :| h in hs && IsLocationMatch(h.location, userLocation.value);
        assert h in local;
      }
      if |local| > 0 {
        assert local[0] in local;
        var online := OnlineOnes(hs);
        var r := local + online[..Min(10, |online|)];
        forall h | h in r ensures h in hs && (IsLocationMatch(h.location, userLocation.value) || IsOnline(h)) {
          if h !in local {
            assert h in online;
          }
        }
      }
    }
  }

  /** A hackathon that matches the location and is also among the first ten online ones
      is a candidate twice: the two lists are concatenated without removing duplicates. */
  lemma LocalAndOnlineListedTwice(h: Hackathon, userLocation: string)
    requires IsLocationMatch(h.location, userLocation) && IsOnline(h)
    ensures Prefilter([h], Some(userLocation)) == [h, h]
  {
    assert LocalMatches([h], userLocation) == [h];
    assert OnlineOnes([h]) == [h];
  }

  /** The hard cap: more than 30 candidates are sorted soonest first and cut to 30. */
  function Cap(s: seq<Hackathon>): seq<Hackathon>
  {
    if |s| > 30 then SortBy(s, StartOf)[..30] else s
  }

  /** At most 30 candidates survive; a list of 30 or fewer is kept as it is; a longer one
      keeps 30 of its own elements, ordered by start, none starting later than any it
      drops. */
  lemma CapSpec(s: seq<Hackathon>)
    ensures |Cap(s)| == Min(|s|, 30)
    ensures |s| <= 30 ==> Cap(s) == s
    ensures |s| > 30 ==>
      && SortedBy(Cap(s), StartOf)
      && multiset(Cap(s)) <= multiset(s)
      && forall x, y :: x in Cap(s) && y in multiset(s) - multiset(Cap(s)) ==> x.startDate <= y.startDate
  {
    if |s| > 30 {
      SortBySpec(s, StartOf);
      SortedPrefix(SortBy(s, StartOf), StartOf, 30);
    }
  }

  // ---------------------------------------------------------------- the prompt

  /** What the prompt lists for one hackathon. */
  datatype PromptItem = PromptItem(title: string, description: string, skills: string, mode: Mode, location: Option<string>)

  /** The user lines and the candidate list the prompt carries. */
  datatype Prompt = Prompt(userSkills: string, userLocation: string, items: seq<PromptItem>)

  /** A hackathon as listed in the prompt: the description cut to 300 characters and the
      skills joined with ", ". */
  function Project(h: Hackathon): (p: PromptItem)
    ensures p.title == h.title && p.mode == h.mode && p.location == h.location
    ensures StartsWith(h.description, p.description) && |p.description| == Min(|h.description|, 300)
    ensures |h.skills| == 1 ==> p.skills == h.skills[0]
    ensures h.skills == [] ==> p.skills == ""
  {
    PromptItem(h.title, Take(h.description, 300), Join(h.skills, ", "), h.mode, h.location)
  }

  function Projected(hs: seq<Hackathon>): (r: seq<PromptItem>)
    ensures |r| == |hs| && forall i :: 0 <= i < |r| ==> r[i] == Project(hs[i])
  {
    seq(|hs|, i requires 0 <= i < |hs| => Project(hs[i]))
  }

  /** The user's location line: the location, or "Not specified" when it is falsy. */
  function PromptLocation(userLocation: Option<string>): (r: string)
    ensures r != ""
    ensures Truthy(userLocation) ==> r == userLocation.value
    ensures !Truthy(userLocation) ==> r == "Not specified"
  {
    if Truthy(userLocation) then userLocation.value else "Not specified"
  }

  function BuildPrompt(userSkills: seq<string>, userLocation: Option<string>, candidates: seq<Hackathon>): Prompt
  {
    Prompt(Join(userSkills, ", "), PromptLocation(userLocation), Projected(candidates))
  }

  // ---------------------------------------------------------------- reading the reply

  /** A JSON value. Numbers are integers here; no reply value in this model is a float. */
  datatype Json = JNull | JBool(b: bool) | JNum(n: int) | JStr(s: string) | JArr(items: seq<Json>) | JObj(fields: map<string, Json>)

  /** JavaScript truthiness of a parsed value. */
  predicate JTruthy(j: Json)
  {
    match j
    case JNull => false
    case JBool(b) => b
    case JNum(n) => n != 0
    case JStr(s) => s != ""
    case JArr(_) => true
    case JObj(_) => true
  }

  /** `.replace(/```json\n?|\n?```/g, "")`: scanning left to right, an opening fence (with
      the newline after it, if any) is removed before a closing fence is tried; a closing
      fence takes the newline before it with it. */
  function StripFences(s: string): string
  {
    if s == [] then []
    else if StartsWith(s, "```json\n") then StripFences(s[8..])
    else if StartsWith(s, "```json") then StripFences(s[7..])
    else if StartsWith(s, "\n```") then StripFences(s[4..])
    else if StartsWith(s, "```") then StripFences(s[3..])
    else [s[0]] + StripFences(s[1..])
  }

  /** A character that starts no fence is kept. */
  lemma StripFencesStep(s: string)
    requires s != [] && s[0] != '`' && (|s| < 2 || s[1] != '`')
    ensures StripFences(s) == [s[0]] + StripFences(s[1..])
  {
    NotStartsWith(s, "```json\n", 0);
    NotStartsWith(s, "```json", 0);
    NotStartsWith(s, "\n```", 1);
    NotStartsWith(s, "```", 0);
  }

  /** Text without a backtick is left alone. */
  lemma {:induction false} StripFencesPlain(body: string)
    requires '`' !in body
    ensures StripFences(body) == body
  {
    if body != [] {
      StripFencesPlain(body[1..]);
      assert body[0] in body;
      if |body| >= 2 {
        assert body[1] in body;
      }
      StripFencesStep(body);
      assert [body[0]] + body[1..] == body;
    }
  }

  /** Text without a backtick followed by a closing fence loses just the fence. */
  lemma {:induction false} StripFencesClosing(body: string)
    requires '`' !in body
    ensures StripFences(body + "\n```") == body
  {
    var s := body + "\n```";
    if body == [] {
      assert s == "\n```";
      assert StartsWith(s, "\n```") by { assert s[..4] == s; }
      assert !StartsWith(s, "```json\n") && !StartsWith(s, "```json") by {
        assert s[0] == '\n';
      }
      assert s[4..] == [];
    } else {
      StripFencesClosing(body[1..]);
      assert s[1..] == body[1..] + "\n```";
      assert body[0] in body;
      if |body| >= 2 {
        assert body[1] in body;
        assert s[1] == body[1];
      } else {
        assert s[1] == '\n';
      }
      StripFencesStep(s);
      assert [body[0]] + body[1..] == body;
    }
  }

  /** Fencing a reply as a json code block and stripping it gives the reply back. */
  lemma FenceRoundTrip(body: string)
    requires '`' !in body
    ensures StripFences("```json\n" + body + "\n```") == body
  {
    var s := "```json\n" + body + "\n```";
    assert StartsWith(s, "```json\n") by { assert s[..8] == "```json\n"; }
    assert s[8..] == body + "\n```";
    StripFencesClosing(body);
  }

  /** The recommendations read from a parsed reply: a truthy `recommendations` array as it
      is; else the reply itself when it is an array; else the reply as the only item when
      it is an object with a truthy `hackathonTitle`; else none. Reading a property of
      `null` throws, and that error is not a rate limit, so the result is empty then too. */
  function Recommendations(parsed: Json): seq<Json>
  {
    match parsed
    case JArr(items) => items
    case JObj(fields) =>
      if "recommendations" in fields && JTruthy(fields["recommendations"]) && fields["recommendations"].JArr? then
        fields["recommendations"].items
      else if "hackathonTitle" in fields && JTruthy(fields["hackathonTitle"]) then [parsed]
      else []
    case _ => []
  }

  /** Which reply shapes yield what. */
  lemma RecommendationsShapes(items: seq<Json>, fields: map<string, Json>)
    ensures Recommendations(JObj(map["recommendations" := JArr(items)])) == items
    ensures Recommendations(JArr(items)) == items
    ensures "recommendations" !in fields && "hackathonTitle" in fields && JTruthy(fields["hackathonTitle"]) ==>
      Recommendations(JObj(fields)) == [JObj(fields)]
    ensures Recommendations(JNull) == [] && Recommendations(JObj(map[])) == []
    ensures Recommendations(JObj(map["recommendations" := JObj(fields)])) == []
  {
  }

  /** The items are returned as the model wrote them: neither checked against the listed
      titles nor cut to the three asked for nor given a score between 0 and 100. */
  lemma ItemsTakenAsIs()
    ensures var item := JObj(map["hackathonTitle" := JStr("Not listed"), "matchScore" := JNum(250)]);
      var reply := JObj(map["recommendations" := JArr([item, item, item, item, JNum(7)])]);
      |Recommendations(reply)| == 5 && Recommendations(reply)[4] == JNum(7)
      && Recommendations(reply)[0].fields["matchScore"] == JNum(250)
  {
  }

  /** The text handed to `JSON.parse`: the message content, or "{}" when it is falsy,
      without fences, trimmed. */
  function CleanContent(content: Option<string>): string
  {
    Trim(StripFences(if Truthy(content) then content.value else "{}"))
  }

  /** The result of one answered request; text that does not parse gives no items. */
  function Answer(content: Option<string>, parse: string -> Option<Json>): seq<Json>
  {
    match parse(CleanContent(content))
    case None => []
    case Some(parsed) => Recommendations(parsed)
  }

  /** The text parsed for an empty or missing content. */
  lemma CleanFalsyContent(content: Option<string>)
    requires !Truthy(content)
    ensures CleanContent(content) == "{}"
  {
    StripFencesPlain("{}");
    assert TrimStart("{}") == "{}";
    assert TrimEnd("{}") == "{}";
  }

  /** An empty or missing content reads as an empty object, which gives no items. */
  lemma EmptyContentGivesNothing(content: Option<string>, parse: string -> Option<Json>)
    requires !Truthy(content)
    requires parse("{}") == Some(JObj(map[]))
    ensures Answer(content, parse) == []
  {
    CleanFalsyContent(content);
    AnswerOfCleaned(content, parse, "{}");
  }

  lemma AnswerOfCleaned(content: Option<string>, parse: string -> Option<Json>, text: string)
    requires CleanContent(content) == text
    ensures Answer(content, parse) == if parse(text).Some? then Recommendations(parse(text).value) else []
  {
  }

  /** A reply fenced as a json code block reads as the text inside the fence. (An empty
      fence reads as "", not as the "{}" an empty content becomes.) */
  lemma FencedContentUnwrapped(body: string, parse: string -> Option<Json>)
    requires '`' !in body && body != ""
    ensures CleanContent(Some("```json\n" + body + "\n```")) == CleanContent(Some(body)) == Trim(body)
  {
    FenceRoundTrip(body);
    StripFencesPlain(body);
  }

  // ---------------------------------------------------------------- the request and its retries

  /** What one request attempt does: the model answers with some message content, or the
      call throws an error with an optional HTTP status and an optional message. */
  datatype Attempt = Responded(content: Option<string>) | Threw(status: Option<int>, message: Option<string>)

  /** A failed attempt is retried when it is a rate limit (HTTP 429, "Too Many Requests",
      section 4 of RFC 6585), retries remain, and the message is not about the daily
      token quota. */
  predicate Retryable(a: Attempt, retries: nat)
  {
    && a.Threw? && a.status == Some(429) && retries > 0
    && !(a.message.Some? && Contains(a.message.value, "tokens per day (TPD)"))
  }

  /** The outcome of `makeRequest`: the items returned and the waits made before retrying. */
  datatype RequestRun = RequestRun(recs: seq<Json>, delays: seq<nat>)

  /** The items an answered request yields, from the content it answered with. */
  function Answering(parse: string -> Option<Json>): Option<string> -> seq<Json>
  {
    content => Answer(content, parse)
  }

  /** `makeRequest(retries, delay)`, where attempt number `k` (from 0) has outcome
      `outcome(k)` and an answered attempt yields `answer` of its content (`Answering`
      for the service). */
  function MakeRequest(retries: nat, delay: nat, k: nat, outcome: nat -> Attempt, answer: Option<string> -> seq<Json>): RequestRun
    decreases retries
  {
    var a := outcome(k);
    if Retryable(a, retries) then
      var rest := MakeRequest(retries - 1, delay * 2, k + 1, outcome, answer);
      RequestRun(rest.recs, [delay] + rest.delays)
    else if a.Responded? then RequestRun(answer(a.content), [])
    else RequestRun([], [])
  }

  function Pow2(n: nat): nat
  {
    if n == 0 then 1 else 2 * Pow2(n - 1)
  }

  /** The waits of a request: at most `retries` of them, doubling from `delay`, each
      after a retryable attempt. */
  lemma {:induction false} MakeRequestDelays(retries: nat, delay: nat, k: nat, outcome: nat -> Attempt, answer: Option<string> -> seq<Json>)
    ensures var r := MakeRequest(retries, delay, k, outcome, answer);
      && |r.delays| <= retries
      && forall i :: 0 <= i < |r.delays| ==> r.delays[i] == delay * Pow2(i) && Retryable(outcome(k + i), retries - i)
    decreases retries
  {
    if Retryable(outcome(k), retries) {
      MakeRequestDelays(retries - 1, delay * 2, k + 1, outcome, answer);
      var rest := MakeRequest(retries - 1, delay * 2, k + 1, outcome, answer);
      var ds := [delay] + rest.delays;
      assert MakeRequest(retries, delay, k, outcome, answer).delays == ds;
      forall i | 0 <= i < |ds| ensures ds[i] == delay * Pow2(i) && Retryable(outcome(k + i), retries - i) {
        if i > 0 {
          assert ds[i] == rest.delays[i - 1];
          DoubledWait(delay, i);
          assert k + 1 + (i - 1) == k + i && retries - 1 - (i - 1) == retries - i;
        }
      }
    }
  }

  lemma DoubledWait(delay: nat, i: nat)
    requires i > 0
    ensures delay * 2 * Pow2(i - 1) == delay * Pow2(i)
  {
  }

  /** The first attempt that is not retried decides the result: its answer when the model
      responded, no items when it threw. */
  lemma {:induction false} MakeRequestResult(retries: nat, delay: nat, k: nat, outcome: nat -> Attempt, answer: Option<string> -> seq<Json>)
    ensures var r := MakeRequest(retries, delay, k, outcome, answer);
      var last := outcome(k + |r.delays|);
      && |r.delays| <= retries
      && !Retryable(last, retries - |r.delays|)
      && r.recs == (if last.Responded? then answer(last.content) else [])
    decreases retries
  {
    var r := MakeRequest(retries, delay, k, outcome, answer);
    if Retryable(outcome(k), retries) {
      MakeRequestResult(retries - 1, delay * 2, k + 1, outcome, answer);
      var rest := MakeRequest(retries - 1, delay * 2, k + 1, outcome, answer);
      assert r == RequestRun(rest.recs, [delay] + rest.delays);
      assert k + |r.delays| == k + 1 + |rest.delays|;
    } else {
      assert r.delays == [];
    }
  }

  /** The service's schedule: at most four attempts, waiting 1000, 2000 and 4000 ms in
      turn, only after rate-limit errors; any other error ends the request with no
      items. */
  lemma RetrySchedule(outcome: nat -> Attempt, answer: Option<string> -> seq<Json>)
    ensures var r := MakeRequest(3, 1000, 0, outcome, answer);
      && |r.delays| <= 3 && r.delays == [1000, 2000, 4000][..|r.delays|]
      && (forall i :: 0 <= i < |r.delays| ==> outcome(i).Threw? && outcome(i).status == Some(429))
      && (!outcome(|r.delays|).Responded? ==> r.recs == [])
  {
    MakeRequestDelays(3, 1000, 0, outcome, answer);
    MakeRequestResult(3, 1000, 0, outcome, answer);
    var r := MakeRequest(3, 1000, 0, outcome, answer);
    assert Pow2(1) == 2 && Pow2(2) == 4;
    var n := |r.delays|;
    assert r.delays == [1000, 2000, 4000][..n] by {
      forall i | 0 <= i < n ensures r.delays[i] == [1000, 2000, 4000][i] {
      }
    }
  }

  /** A rate limit about the daily token quota is not retried: the request ends at once
      with no items. */
  lemma DailyQuotaNotRetried(outcome: nat -> Attempt, answer: Option<string> -> seq<Json>)
    requires outcome(0).Threw? && outcome(0).message.Some?
    requires Contains(outcome(0).message.value, "tokens per day (TPD)")
    ensures MakeRequest(3, 1000, 0, outcome, answer) == RequestRun([], [])
  {
  }

  /** `makeRequest()` as the countdown it runs: attempt, and while the attempt is
      retryable wait, count one retry off and double the wait. */
  method RequestWithRetries(outcome: nat -> Attempt, answer: Option<string> -> seq<Json>)
    returns (recs: seq<Json>, delays: seq<nat>)
    ensures RequestRun(recs, delays) == MakeRequest(3, 1000, 0, outcome, answer)
  {
    var retries: nat := 3;
    var delay: nat := 1000;
    var k: nat := 0;
    delays := [];
    while Retryable(outcome(k), retries)
      invariant var rest := MakeRequest(retries, delay, k, outcome, answer);
        MakeRequest(3, 1000, 0, outcome, answer) == RequestRun(rest.recs, delays + rest.delays)
      decreases retries
    {
      var rest := MakeRequest(retries - 1, delay * 2, k + 1, outcome, answer);
      assert delays + ([delay] + rest.delays) == (delays + [delay]) + rest.delays;
      delays := delays + [delay];
      retries, delay, k := retries - 1, delay * 2, k + 1;
    }
    var last := outcome(k);
    recs := if last.Responded? then answer(last.content) else [];
  }

  // ---------------------------------------------------------------- the service

  /** `getRecommendedHackathons`. The result is the items the request returns, with the
      prompt that was sent (`None` when no request is made) and the waits between
      attempts. Without a location match and with more than 30 hackathons, the sort runs
      on the caller's own array, which is left sorted; the filtered list is a new array. */
  method GetRecommendedHackathons(
    apiKey: Option<string>, userSkills: seq<string>, hackathons: array<Hackathon>, userLocation: Option<string>,
    outcome: nat -> Attempt, parse: string -> Option<Json>)
    returns (recs: seq<Json>, prompt: Option<Prompt>, delays: seq<nat>)
    modifies hackathons
    ensures !Truthy(apiKey) ==> recs == [] && prompt == None && delays == []
    ensures Truthy(apiKey) ==>
      && prompt == Some(BuildPrompt(userSkills, userLocation, Cap(Prefilter(old(hackathons[..]), userLocation))))
      && RequestRun(recs, delays) == MakeRequest(3, 1000, 0, outcome, Answering(parse))
    ensures hackathons[..] ==
      if Truthy(apiKey) && !PrefilterFires(old(hackathons[..]), userLocation) && hackathons.Length > 30
      then SortBy(old(hackathons[..]), StartOf) else old(hackathons[..])
  {
    if !Truthy(apiKey) {
      return [], None, [];
    }
    var filtered := hackathons[..];
    var isNew := false;
    if userLocation.Some? && userLocation.value != "" {
      var local := LocalMatches(hackathons[..], userLocation.value);
      if |local| > 0 {
        var online := OnlineOnes(hackathons[..]);
        filtered := local + online[..Min(10, |online|)];
        isNew := true;
      }
    }
    if |filtered| > 30 {
      if isNew {
        var copy := new Hackathon[|filtered|](i requires 0 <= i < |filtered| => filtered[i]);
        assert copy[..] == filtered;
        SortInPlace(copy, StartOf);
        filtered := copy[..30];
      } else {
        SortInPlace(hackathons, StartOf);
        filtered := hackathons[..30];
      }
    }
    prompt := Some(BuildPrompt(userSkills, userLocation, filtered));
    recs, delays := RequestWithRetries(outcome, Answering(parse));
  }
}

=== FILE: routes.dfy ===
/**
 * The read API (server/routes/hackathons.ts): `GET /` turns its query parameters into a
 * filter, returns the matching stored documents soonest first, and `GET /:id` returns one
 * document or a 404. The collection's contents and a database failure are inputs.
 */
module Routes {
  import opened Wrappers
  import opened Text
  import opened Types
  import opened HackathonModel
  import opened Sorting

  /** The query string of `GET /`: each parameter absent or a single string. */
  datatype Params = Params(skills: Option<string>, mode: Option<string>, isPaid: Option<string>, source: Option<string>)

  /** The filter handed to `find`; an absent part places no constraint. */
  datatype Filter = Filter(skills: Option<seq<string>>, mode: Option<string>, isPaid: Option<bool>, source: Option<string>)

  /** `skills.split(',').map(s => s.trim())`. */
  function SkillTerms(skills: string): (terms: seq<string>)
    ensures |terms| == |Split(skills, ',')| == Count(skills, ',') + 1
    ensures forall i :: 0 <= i < |terms| ==> terms[i] == Trim(Split(skills, ',')[i])
  {
    SplitShape(skills, ',');
    var parts := Split(skills, ',');
    seq(|parts|, i requires 0 <= i < |parts| => Trim(parts[i]))
  }

  /** The filter built from the parameters: skills, mode and source when truthy; `isPaid`
      whenever the parameter is present, as whether it is exactly 'true'. */
  function BuildFilter(p: Params): Filter
  {
    Filter(
      if Truthy(p.skills) then Some(SkillTerms(p.skills.value)) else None,
      if Truthy(p.mode) then p.mode else None,
      if p.isPaid.Some? then Some(p.isPaid.value == "true") else None,
      if Truthy(p.source) then p.source else None)
  }

  /** The handler's query object, filled one key at a time from an empty one. */
  method BuildQuery(p: Params) returns (query: Filter)
    ensures query == BuildFilter(p)
  {
    query := Filter(None, None, None, None);
    if Truthy(p.skills) {
      query := query.(skills := Some(SkillTerms(p.skills.value)));
    }
    if Truthy(p.mode) {
      query := query.(mode := p.mode);
    }
    if p.isPaid.Some? {
      query := query.(isPaid := Some(p.isPaid.value == "true"));
    }
    if Truthy(p.source) {
      query := query.(source := p.source);
    }
  }

  /** `{ $in: terms.map(s => new RegExp(s, 'i')) }` on the skills array: some skill of the
      document contains some term, ignoring case. */
  predicate SkillsMatch(skills: seq<string>, terms: seq<string>)
  {
    exists i, j :: 0 <= i < |skills| && 0 <= j < |terms| && ContainsCI(skills[i], terms[j])
  }

  predicate Matches(d: Document, f: Filter)
  {
    && (f.skills.None? || SkillsMatch(d.skills, f.skills.value))
    && (f.mode.None? || ModeName(d.mode) == f.mode.value)
    && (f.isPaid.None? || d.isPaid == f.isPaid.value)
    && (f.source.None? || d.source == f.source.value)
  }

  /** Which parameters constrain what: no parameters match everything; `isPaid` is true
      only for the exact text 'true' (so 'TRUE' selects unpaid documents); an empty
      parameter is no constraint except for `isPaid`, where it selects unpaid documents. */
  lemma FilterSemantics(d: Document, p: Params)
    ensures Matches(d, BuildFilter(Params(None, None, None, None)))
    ensures Matches(d, BuildFilter(Params(Some(""), Some(""), None, Some(""))))
    ensures p.isPaid.Some? ==> (Matches(d, BuildFilter(p)) ==> d.isPaid == (p.isPaid.value == "true"))
    ensures Matches(d, BuildFilter(Params(None, None, Some("TRUE"), None))) <==> !d.isPaid
    ensures Truthy(p.mode) && Matches(d, BuildFilter(p)) ==> ModeName(d.mode) == p.mode.value
    ensures Truthy(p.source) && Matches(d, BuildFilter(p)) ==> d.source == p.source.value
  {
  }

  /** A document with no skills never matches a skills query. */
  lemma NoSkillsNoMatch(d: Document, skills: string)
    requires d.skills == [] && skills != ""
    ensures !Matches(d, BuildFilter(Params(Some(skills), None, None, None)))
  {
  }

  /** A term left empty by a trailing comma matches any document that has a skill. */
  lemma TrailingCommaMatchesAll(d: Document, skills: string)
    requires d.skills != []
    ensures Matches(d, BuildFilter(Params(Some(skills + ","), None, None, None)))
  {
    var s := skills + ",";
    var terms := SkillTerms(s);
    assert BuildFilter(Params(Some(s), None, None, None)).skills == Some(terms);
    LastTermEmpty(skills);
    EmptyTermMatches(d.skills[0]);
    assert ContainsCI(d.skills[0], terms[|terms| - 1]);
  }

  /** The last term of a parameter ending in a comma is empty. */
  lemma LastTermEmpty(skills: string)
    ensures var terms := SkillTerms(skills + ","); terms[|terms| - 1] == ""
  {
    SplitLastAfterComma(skills);
    LastPieceEmptyTerm(skills + ",");
  }

  /** An empty last piece trims to an empty last term. */
  lemma LastPieceEmptyTerm(s: string)
    requires var parts := Split(s, ','); parts[|parts| - 1] == ""
    ensures var terms := SkillTerms(s); terms[|terms| - 1] == ""
  {
    var parts := Split(s, ',');
    var terms := SkillTerms(s);
    var k := |parts| - 1;
    assert terms[k] == Trim(parts[k]);
    TrimOfEmpty(parts[k]);
  }

  /** The empty term occurs in every skill. */
  lemma EmptyTermMatches(skill: string)
    ensures ContainsCI(skill, "")
  {
    assert Lower("") == "";
    ContainsEmpty(Lower(skill));
  }

  /** A term matches a skill that holds it in another letter case. */
  lemma TermIgnoresCase()
    ensures SkillsMatch(["TypeScript"], ["typescript"])
  {
    assert Lower("TypeScript") == "typescript";
    assert Lower("typescript") == "typescript";
    ContainsSelf("typescript");
    assert ContainsCI(["TypeScript"][0], ["typescript"][0]);
  }

  /** The last piece of a string ending in a comma is empty. */
  lemma {:induction false} SplitLastAfterComma(s: string)
    ensures var r := Split(s + ",", ','); r[|r| - 1] == ""
    decreases |s|
  {
    if s == [] {
      assert Split(",", ',') == [""] + Split("", ',');
    } else {
      SplitLastAfterComma(s[1..]);
      assert (s + ",")[1..] == s[1..] + ",";
    }
  }

  /** The documents matching a filter, in collection order. */
  function Matching(docs: seq<Document>, f: Filter): (r: seq<Document>)
    ensures forall d :: d in r <==> d in docs && Matches(d, f)
  {
    if docs == [] then []
    else (if Matches(docs[0], f) then [docs[0]] else []) + Matching(docs[1..], f)
  }

  /** The sort key of `.sort({ startDate: 1 })`. */
  function DocStart(d: Document): int
  {
    d.startDate
  }

  /** `Hackathon.find(query).sort({ startDate: 1 })`. */
  function Find(docs: seq<Document>, f: Filter): seq<Document>
  {
    SortBy(Matching(docs, f), DocStart)
  }

  /** The listing holds exactly the matching documents, each as often as stored, soonest
      first; with no parameters that is the whole collection. */
  lemma FindSpec(docs: seq<Document>, f: Filter)
    ensures SortedBy(Find(docs, f), DocStart)
    ensures forall d :: d in Find(docs, f) <==> d in docs && Matches(d, f)
    ensures multiset(Find(docs, f)) == multiset(Matching(docs, f))
    ensures (forall d :: d in docs ==> Matches(d, f)) ==> multiset(Find(docs, f)) == multiset(docs)
  {
    SortBySpec(Matching(docs, f), DocStart);
    forall d | d in Find(docs, f) ensures d in Matching(docs, f) {
      assert d in multiset(Find(docs, f));
    }
    forall d | d in Matching(docs, f) ensures d in Find(docs, f) {
      assert d in multiset(Matching(docs, f));
    }
    if forall d :: d in docs ==> Matches(d, f) {
      MatchingAll(docs, f);
    }
  }

  lemma {:induction false} MatchingAll(docs: seq<Document>, f: Filter)
    requires forall d :: d in docs ==> Matches(d, f)
    ensures Matching(docs, f) == docs
  {
    if docs != [] {
      assert docs[0] in docs;
      MatchingAll(docs[1..], f);
    }
  }

  /** What a handler sends: a status and a JSON body. */
  datatype Body = Documents(docs: seq<Document>) | One(doc: Document) | Message(message: string)
  datatype Reply = Reply(status: nat, body: Body)

  /** `GET /`: the listing, or 500 with the error's message when the query fails. */
  function GetAll(p: Params, docs: seq<Document>, failure: Option<string>): (r: Reply)
    ensures failure.Some? ==> r == Reply(500, Message(failure.value))
    ensures failure.None? ==> r == Reply(200, Documents(Find(docs, BuildFilter(p))))
  {
    if failure.Some? then Reply(500, Message(failure.value))
    else Reply(200, Documents(Find(docs, BuildFilter(p))))
  }

  /** With no parameters the listing is the whole collection, soonest first. */
  lemma ListingWithoutParameters(docs: seq<Document>)
    ensures var r := GetAll(Params(None, None, None, None), docs, None);
      r.status == 200 && SortedBy(r.body.docs, DocStart) && multiset(r.body.docs) == multiset(docs)
  {
    var f := BuildFilter(Params(None, None, None, None));
    forall d | d in docs ensures Matches(d, f) {
      FilterSemantics(d, Params(None, None, None, None));
    }
    FindSpec(docs, f);
  }

  /** The `:id` path segment: an identifier of some document, or text that is not an
      ObjectId (the lookup then fails with a cast error). */
  datatype IdParam = DocId(id: nat) | Malformed

  /** The first document with the identifier, if any. */
  function FindById(docs: seq<Document>, id: nat): (r: Option<Document>)
    ensures r.Some? ==> r.value in docs && r.value.id == id
    ensures r.None? ==> forall d :: d in docs ==> d.id != id
  {
    if docs == [] then None
    else if docs[0].id == id then Some(docs[0])
    else FindById(docs[1..], id)
  }

  /** `GET /:id`: 500 when the lookup throws (a malformed identifier, a database error),
      404 'Hackathon not found' when no document has the identifier, else the document. */
  function GetById(param: IdParam, docs: seq<Document>, failure: Option<string>, castError: string): (r: Reply)
    ensures r.status == 404 <==> failure.None? && param.DocId? && forall d :: d in docs ==> d.id != param.id
    ensures r.status == 404 ==> r.body == Message("Hackathon not found")
    ensures r.status == 200 ==> r.body.One? && r.body.doc in docs && param.DocId? && r.body.doc.id == param.id
    ensures r.status in {200, 404, 500}
    ensures failure.Some? ==> r == Reply(500, Message(failure.value))
    ensures failure.None? && param.Malformed? ==> r == Reply(500, Message(castError))
    ensures failure.None? && param.DocId? && FindById(docs, param.id).Some? ==>
      r == Reply(200, One(FindById(docs, param.id).value))
  {
    if failure.Some? then Reply(500, Message(failure.value))
    else if param.Malformed? then Reply(500, Message(castError))
    else match FindById(docs, param.id)
      case None => Reply(404, Message("Hackathon not found"))
      case Some(d) => Reply(200, One(d))
  }
}

=== FILE: sorting.dfy ===
/**
 * Ordering by an integer key, smallest first: the start-instant orderings
 * `array.sort((a, b) => a.startDate - b.startDate)` of the recommendation service and
 * `.sort({ startDate: 1 })` of the listing route. `SortBy` is insertion from the back;
 * `SortInPlace` is that sort on an array.
 */
module Sorting {

  predicate SortedBy<T>(s: seq<T>, key: T -> int)
  {
    forall i, j :: 0 <= i < j < |s| ==> key(s[i]) <= key(s[j])
  }

  /** `h` placed after every element whose key is not larger than its own. */
  function Insert<T>(s: seq<T>, h: T, key: T -> int): (r: seq<T>)
    ensures |r| == |s| + 1
  {
    if s == [] then [h]
    else if key(s[|s| - 1]) <= key(h) then s + [h]
    else Insert(s[..|s| - 1], h, key) + [s[|s| - 1]]
  }

  function SortBy<T>(s: seq<T>, key: T -> int): (r: seq<T>)
    ensures |r| == |s|
  {
    if s == [] then [] else Insert(SortBy(s[..|s| - 1], key), s[|s| - 1], key)
  }

  lemma {:induction false} InsertPermutes<T>(s: seq<T>, h: T, key: T -> int)
    ensures multiset(Insert(s, h, key)) == multiset(s) + multiset{h}
  {
    if s != [] && key(s[|s| - 1]) > key(h) {
      var n := |s| - 1;
      InsertPermutes(s[..n], h, key);
      assert s == s[..n] + [s[n]];
    }
  }

  /** A bound on the keys of `s` and of `h` bounds the keys after insertion. */
  lemma {:induction false} InsertBounded<T>(s: seq<T>, h: T, key: T -> int, bound: int)
    requires forall i :: 0 <= i < |s| ==> key(s[i]) <= bound
    requires key(h) <= bound
    ensures forall i :: 0 <= i < |s| + 1 ==> key(Insert(s, h, key)[i]) <= bound
  {
    if s != [] && key(s[|s| - 1]) > key(h) {
      InsertBounded(s[..|s| - 1], h, key, bound);
    }
  }

  lemma {:induction false} InsertSorted<T>(s: seq<T>, h: T, key: T -> int)
    requires SortedBy(s, key)
    ensures SortedBy(Insert(s, h, key), key)
  {
    if s != [] && key(s[|s| - 1]) > key(h) {
      var n := |s| - 1;
      InsertSorted(s[..n], h, key);
      InsertBounded(s[..n], h, key, key(s[n]));
      var r := Insert(s[..n], h, key);
      assert Insert(s, h, key) == r + [s[n]];
    }
  }

  /** The sort orders by the key and is a permutation of its input. */
  lemma SortBySpec<T>(s: seq<T>, key: T -> int)
    ensures SortedBy(SortBy(s, key), key)
    ensures multiset(SortBy(s, key)) == multiset(s)
  {
    SortByOrders(s, key);
    SortByPermutes(s, key);
  }

  lemma {:induction false} SortByOrders<T>(s: seq<T>, key: T -> int)
    ensures SortedBy(SortBy(s, key), key)
  {
    if s != [] {
      var n := |s| - 1;
      SortByOrders(s[..n], key);
      InsertSorted(SortBy(s[..n], key), s[n], key);
    }
  }

  lemma {:induction false} SortByPermutes<T>(s: seq<T>, key: T -> int)
    ensures multiset(SortBy(s, key)) == multiset(s)
  {
    if s != [] {
      var n := |s| - 1;
      SortByPermutes(s[..n], key);
      InsertPermutes(SortBy(s[..n], key), s[n], key);
      assert s == s[..n] + [s[n]];
      assert multiset(s) == multiset(s[..n]) + multiset{s[n]};
    }
  }

  /** The first `n` elements of a sorted sequence are sorted, are some of its elements,
      and none has a larger key than any element left behind. */
  lemma SortedPrefix<T>(s: seq<T>, key: T -> int, n: nat)
    requires SortedBy(s, key) && n <= |s|
    ensures SortedBy(s[..n], key)
    ensures multiset(s[..n]) <= multiset(s)
    ensures forall x, y :: x in s[..n] && y in multiset(s) - multiset(s[..n]) ==> key(x) <= key(y)
  {
    assert s == s[..n] + s[n..];
    assert multiset(s) == multiset(s[..n]) + multiset(s[n..]);
    forall x, y | x in s[..n] && y in multiset(s) - multiset(s[..n])
      ensures key(x) <= key(y)
    {
      SortedSplitBound(s, key, n, x, y);
    }
  }

  lemma SortedSplitBound<T>(s: seq<T>, key: T -> int, n: nat, x: T, y: T)
    requires SortedBy(s, key) && n <= |s|
    requires x in s[..n] && y in s[n..]
    ensures key(x) <= key(y)
  {
    var j :| 0 <= j < |s[n..]| && s[n..][j] == y;
    var i :| 0 <= i < n && s[..n][i] == x;
    assert s[i] == x && s[n + j] == y;
  }

  lemma {:induction false} SortSorted<T>(s: seq<T>, key: T -> int)
    requires SortedBy(s, key)
    ensures SortBy(s, key) == s
  {
    if s != [] {
      var n := |s| - 1;
      var front := s[..n];
      assert SortedBy(front, key) by {
        forall i, j | 0 <= i < j < |front|
          ensures key(front[i]) <= key(front[j])
        {
          assert front[i] == s[i] && front[j] == s[j];
        }
      }
      SortSorted(front, key);
      if n > 0 {
        assert key(front[n - 1]) <= key(s[n]);
      }
      assert Insert(front, s[n], key) == front + [s[n]];
      assert front + [s[n]] == s;
    }
  }

  /** Where `Insert` puts `h`: after the prefix `s[..j]` when every element from `j` on
      has a larger key than `h` and the one before `j` (if any) does not. */
  lemma {:induction false} InsertSplit<T>(s: seq<T>, j: nat, h: T, key: T -> int)
    requires j <= |s|
    requires j == 0 || key(s[j - 1]) <= key(h)
    requires forall k :: j <= k < |s| ==> key(s[k]) > key(h)
    ensures Insert(s, h, key) == s[..j] + [h] + s[j..]
    decreases |s|
  {
    if |s| > j {
      var n := |s| - 1;
      InsertSplit(s[..n], j, h, key);
      assert s[..n][..j] == s[..j];
      assert s[j..] == s[..n][j..] + [s[n]];
    } else if j > 0 {
      assert s[..j] == s;
    }
  }

  /** One insertion step: `a[i]` moved left past the elements of `a[..i]` with a larger
      key; the rest of the array is untouched. */
  method InsertAt<T>(a: array<T>, i: nat, key: T -> int)
    requires i < a.Length
    modifies a
    ensures a[..i + 1] == Insert(old(a[..i]), old(a[i]), key)
    ensures a[i + 1..] == old(a[i + 1..])
  {
    ghost var sorted := a[..i];
    var x := a[i];
    var j := i;
    while j > 0 && key(a[j - 1]) > key(x)
      invariant 0 <= j <= i
      invariant forall k :: 0 <= k < j ==> a[k] == sorted[k]
      invariant forall k :: j < k <= i ==> a[k] == sorted[k - 1]
      invariant forall k :: i < k < a.Length ==> a[k] == old(a[k])
      invariant forall k :: j <= k < i ==> key(sorted[k]) > key(x)
    {
      a[j] := a[j - 1];
      j := j - 1;
    }
    a[j] := x;
    InsertSplit(sorted, j, x, key);
    Spliced(a[..i + 1], sorted, j, x);
  }

  /** A sequence that agrees with `s` before `j`, holds `x` at `j` and `s` shifted by one
      after it is `s` with `x` inserted at `j`. */
  lemma Spliced<T>(r: seq<T>, s: seq<T>, j: nat, x: T)
    requires |r| == |s| + 1 && j <= |s|
    requires forall k :: 0 <= k < j ==> r[k] == s[k]
    requires r[j] == x
    requires forall k :: j < k < |r| ==> r[k] == s[k - 1]
    ensures r == s[..j] + [x] + s[j..]
  {
    forall k | 0 <= k < |r|
      ensures r[k] == (s[..j] + [x] + s[j..])[k]
    {
      if k > j {
        assert (s[..j] + [x] + s[j..])[k] == s[k - 1];
      }
    }
  }

  /** Insertion sort on the array. */
  method SortInPlace<T>(a: array<T>, key: T -> int)
    modifies a
    ensures a[..] == SortBy(old(a[..]), key)
  {
    ghost var orig := a[..];
    for i := 0 to a.Length
      invariant a[..i] == SortBy(orig[..i], key)
      invariant a[i..] == orig[i..]
    {
      assert a[i] == orig[i] && a[i + 1..] == orig[i + 1..];
      InsertAt(a, i, key);
      SortByStep(orig, i, key);
    }
    assert a[..a.Length] == a[..] && orig[..a.Length] == orig;
  }

  /** Sorting one more element inserts it into the sorted prefix. */
  lemma SortByStep<T>(s: seq<T>, i: nat, key: T -> int)
    requires i < |s|
    ensures SortBy(s[..i + 1], key) == Insert(SortBy(s[..i], key), s[i], key)
  {
    assert s[..i + 1][..i] == s[..i];
  }
}

=== FILE: text.dfy ===
/**
 * The string kernels the TypeScript code leans on: `toLowerCase`, `toUpperCase`,
 * `includes`, `startsWith`, `trim`, `split(sep)`, `join(sep)`, `substring(0, n)`, the
 * `el?.textContent?.trim() || fallback` reading of scraped text, the digit tests of the
 * regular expressions `\d` and `^\d+$`, and decimal formatting of a year. Case mapping
 * and white space cover ASCII (and the few non-ASCII spaces listed in `IsSpace`), not
 * all of Unicode.
 */
module Text {
  import opened Wrappers

  // ---------------------------------------------------------------- characters

  predicate IsUpper(c: char) { 'A' <= c <= 'Z' }

  predicate IsLowerLetter(c: char) { 'a' <= c <= 'z' }

  predicate IsDigit(c: char) { '0' <= c <= '9' }

  function LowerChar(c: char): (r: char)
    ensures !IsUpper(r)
    ensures IsUpper(c) ==> r as int == c as int + 32
    ensures !IsUpper(c) ==> r == c
  {
    if IsUpper(c) then (c as int + 32) as char else c
  }

  function UpperChar(c: char): (r: char)
    ensures !IsLowerLetter(r)
    ensures IsLowerLetter(c) ==> r as int == c as int - 32
    ensures !IsLowerLetter(c) ==> r == c
  {
    if IsLowerLetter(c) then (c as int - 32) as char else c
  }

  /** `String.prototype.toLowerCase` on ASCII letters. */
  function Lower(s: string): (r: string)
    ensures |r| == |s|
    ensures forall i :: 0 <= i < |s| ==> r[i] == LowerChar(s[i])
  {
    seq(|s|, i requires 0 <= i < |s| => LowerChar(s[i]))
  }

  predicate IsLowerCase(s: string)
  {
    forall i :: 0 <= i < |s| ==> !IsUpper(s[i])
  }

  lemma LowerIsLowerCase(s: string)
    ensures IsLowerCase(Lower(s))
  {
  }

  /** Lower-casing text that has no upper-case letter leaves it unchanged. */
  lemma LowerOfLowerCase(s: string)
    requires IsLowerCase(s)
    ensures Lower(s) == s
  {
  }

  /** `s.charAt(0).toUpperCase() + s.slice(1)`. */
  function Capitalize(s: string): (r: string)
    ensures |r| == |s|
    ensures s != "" ==> r[0] == UpperChar(s[0]) && r[1..] == s[1..]
  {
    if s == "" then "" else [UpperChar(s[0])] + s[1..]
  }

  /** Lower-casing a capitalised lower-case word gives the word back. */
  lemma LowerCapitalize(s: string)
    requires IsLowerCase(s)
    ensures Lower(Capitalize(s)) == s
  {
    if s != "" {
      var r := Capitalize(s);
      assert Lower(r)[0] == s[0];
      assert forall i :: 1 <= i < |s| ==> Lower(r)[i] == LowerChar(s[i]) == s[i];
    }
  }

  // ---------------------------------------------------------------- prefixes and substrings

  /** `s.startsWith(p)`. */
  predicate StartsWith(s: string, p: string)
  {
    |p| <= |s| && s[..|p|] == p
  }

  predicate EndsWith(s: string, p: string)
  {
    |p| <= |s| && s[|s| - |p|..] == p
  }

  /** `s.includes(t)`: `t` occurs in `s` at some position. */
  function Contains(s: string, t: string): (b: bool)
    decreases |s|
  {
    StartsWith(s, t) || (|s| > 0 && Contains(s[1..], t))
  }

  /** The position-based meaning of `Contains`. */
  ghost predicate OccursAt(s: string, t: string, i: int)
  {
    0 <= i && i + |t| <= |s| && s[i..i + |t|] == t
  }

  lemma {:induction false} ContainsIff(s: string, t: string)
    ensures Contains(s, t) <==> exists i :: OccursAt(s, t, i)
    decreases |s|
  {
    if |s| > 0 {
      ContainsIff(s[1..], t);
    }
    if Contains(s, t) {
      if StartsWith(s, t) {
        assert OccursAt(s, t, 0);
      } else {
        var j :| OccursAt(s[1..], t, j);
        assert s[1..][j..j + |t|] == s[j + 1..j + 1 + |t|];
        assert OccursAt(s, t, j + 1);
      }
    }
    if exists i :: OccursAt(s, t, i) {
      var i :| OccursAt(s, t, i);
      if i == 0 {
        assert s[..|t|] == s[0..|t|];
      } else {
        assert s[1..][i - 1..i - 1 + |t|] == s[i..i + |t|];
        assert OccursAt(s[1..], t, i - 1);
      }
    }
  }

  /** The empty string is contained in every string. */
  lemma ContainsEmpty(s: string)
    ensures Contains(s, "")
  {
    assert StartsWith(s, "");
  }

  /** Nothing non-empty is contained in the empty string. */
  lemma NotContainedInEmpty(t: string)
    requires t != ""
    ensures !Contains("", t)
  {
  }

  /** A string contains itself. */
  lemma ContainsSelf(s: string)
    ensures Contains(s, s)
  {
    assert s[..|s|] == s;
  }

  /** A string occurs in any concatenation that has it at the front. */
  lemma ContainsPrefix(s: string, rest: string)
    ensures Contains(s + rest, s)
  {
    assert (s + rest)[..|s|] == s;
  }

  /** Case-insensitive `includes`: both sides lower-cased first. */
  function ContainsCI(s: string, t: string): bool
  {
    Contains(Lower(s), Lower(t))
  }

  /** A prefix that differs from `s` at some position is not a prefix of `s`. */
  lemma NotStartsWith(s: string, p: string, k: nat)
    requires k < |p| && (k < |s| ==> s[k] != p[k])
    ensures !StartsWith(s, p)
  {
    if |p| <= |s| {
      assert s[..|p|][k] == s[k];
    }
  }

  /** Case-insensitive `startsWith`. */
  predicate StartsWithCI(s: string, p: string)
  {
    |p| <= |s| && Lower(s[..|p|]) == Lower(p)
  }

  // ---------------------------------------------------------------- white space and trim

  /** The white space and line terminators `String.prototype.trim` removes: the ASCII
      ones, the byte-order mark, the line and paragraph separators and the Unicode space
      separators (general category Zs). */
  predicate IsSpace(c: char)
  {
    c == ' ' || c == '\t' || c == '\n' || c == '\r' || c == '\U{000B}' || c == '\U{000C}'
    || c == '\U{00A0}' || c == '\U{FEFF}' || c == '\U{2028}' || c == '\U{2029}'
    || c == '\U{1680}' || ('\U{2000}' <= c <= '\U{200A}') || c == '\U{202F}' || c == '\U{205F}'
    || c == '\U{3000}'
  }

  function TrimStart(s: string): (r: string)
    ensures |r| <= |s| && r == s[|s| - |r|..]
    ensures r == "" || !IsSpace(r[0])
    ensures forall i :: 0 <= i < |s| - |r| ==> IsSpace(s[i])
  {
    if |s| > 0 && IsSpace(s[0]) then TrimStart(s[1..]) else s
  }

  function TrimEnd(s: string): (r: string)
    ensures |r| <= |s| && r == s[..|r|]
    ensures r == "" || !IsSpace(r[|r| - 1])
    ensures forall i :: |r| <= i < |s| ==> IsSpace(s[i])
  {
    if |s| > 0 && IsSpace(s[|s| - 1]) then TrimEnd(s[..|s| - 1]) else s
  }

  /** `s.trim()`: the longest slice of `s` that neither starts nor ends with white space. */
  function Trim(s: string): (r: string)
  {
    TrimEnd(TrimStart(s))
  }

  /** Trimming keeps a contiguous slice of the input, starting `a` characters in, and
      drops only white space around it. */
  lemma TrimSlice(s: string) returns (a: nat)
    ensures a + |Trim(s)| <= |s| && Trim(s) == s[a..a + |Trim(s)|]
    ensures forall i :: 0 <= i < a ==> IsSpace(s[i])
    ensures forall i :: a + |Trim(s)| <= i < |s| ==> IsSpace(s[i])
  {
    var t := TrimStart(s);
    a := |s| - |t|;
    assert t == s[a..];
    TrimEndOfSuffix(s, a);
    assert Trim(s) == TrimEnd(s[a..]);
  }

  /** The trimmed text neither starts nor ends with white space. */
  lemma TrimEnds(s: string)
    ensures Trim(s) == "" || (!IsSpace(Trim(s)[0]) && !IsSpace(Trim(s)[|Trim(s)| - 1]))
  {
    var t := TrimStart(s);
    var r := TrimEnd(t);
    if r != "" {
      assert r == t[..|r|];
      assert r[0] == t[0];
    }
  }

  /** Trimming the end of a suffix `s[a..]` keeps a slice of `s` starting at `a`, and
      what it drops from `s` is white space. */
  lemma TrimEndOfSuffix(s: string, a: nat)
    requires a <= |s|
    ensures var r := TrimEnd(s[a..]);
      && a + |r| <= |s| && r == s[a..a + |r|]
      && forall i :: a + |r| <= i < |s| ==> IsSpace(s[i])
  {
    var t := s[a..];
    var r := TrimEnd(t);
    assert r == t[..|r|];
    forall i | a + |r| <= i < |s|
      ensures IsSpace(s[i])
    {
      assert s[i] == t[i - a];
    }
  }

  /** Trimming drops white space around a core that neither starts nor ends with any. */
  lemma TrimAround(a: string, core: string, b: string)
    requires forall i :: 0 <= i < |a| ==> IsSpace(a[i])
    requires forall i :: 0 <= i < |b| ==> IsSpace(b[i])
    requires core != "" && !IsSpace(core[0]) && !IsSpace(core[|core| - 1])
    ensures Trim(a + core + b) == core
  {
    assert a + core + b == a + (core + b);
    TrimStartSpaces(a, core + b);
    TrimEndSpaces(core, b);
  }

  lemma {:induction false} TrimStartSpaces(a: string, s: string)
    requires forall i :: 0 <= i < |a| ==> IsSpace(a[i])
    requires s != "" && !IsSpace(s[0])
    ensures TrimStart(a + s) == s
    decreases |a|
  {
    if a != [] {
      assert (a + s)[1..] == a[1..] + s;
      TrimStartSpaces(a[1..], s);
    } else {
      assert a + s == s;
    }
  }

  lemma {:induction false} TrimEndSpaces(s: string, b: string)
    requires forall i :: 0 <= i < |b| ==> IsSpace(b[i])
    requires s != "" && !IsSpace(s[|s| - 1])
    ensures TrimEnd(s + b) == s
    decreases |b|
  {
    if b != [] {
      var b' := b[..|b| - 1];
      assert (s + b)[..|s + b| - 1] == s + b';
      TrimEndSpaces(s, b');
    } else {
      assert s + b == s;
    }
  }

  /** `s.trim().length > 0` holds exactly when some character of `s` is not white space. */
  lemma {:induction false} TrimEmptyIff(s: string)
    ensures Trim(s) == "" <==> forall i :: 0 <= i < |s| ==> IsSpace(s[i])
  {
    var t := TrimStart(s);
    if t == "" {
    } else {
      assert !IsSpace(t[0]);
      assert t[0] == s[|s| - |t|];
    }
  }

  /** An empty string trims to an empty string. */
  lemma TrimOfEmpty(s: string)
    requires |s| == 0
    ensures |Trim(s)| == 0
  {
    var t := TrimStart(s);
    assert |t| <= |s|;
    assert |TrimEnd(t)| <= |t|;
  }

  /** Trimming twice is trimming once. */
  lemma TrimIdempotent(s: string)
    ensures Trim(Trim(s)) == Trim(s)
  {
    var r := Trim(s);
    if r != "" {
      TrimEnds(s);
      assert TrimStart(r) == r;
      assert TrimEnd(r) == r;
    }
  }

  /** `el?.textContent?.trim() || fallback`: the trimmed text, or the fallback when the
      element is missing or its text is blank. */
  function TextOr(text: Option<string>, fallback: string): (r: string)
    ensures text.None? ==> r == fallback
    ensures text.Some? && Trim(text.value) != "" ==> r == Trim(text.value)
    ensures text.Some? && Trim(text.value) == "" ==> r == fallback
  {
    if text.Some? && Trim(text.value) != "" then Trim(text.value) else fallback
  }

  // ---------------------------------------------------------------- split and join

  /** Number of occurrences of the character `c` in `s`. */
  function Count(s: string, c: char): nat
  {
    if s == [] then 0 else (if s[0] == c then 1 else 0) + Count(s[1..], c)
  }

  /** `s.split(c)` for a one-character separator: always at least one piece, the pieces
      between separators, empty pieces kept. */
  function Split(s: string, c: char): (r: seq<string>)
    ensures |r| >= 1
    decreases |s|
  {
    if s == [] then [""]
    else if s[0] == c then [""] + Split(s[1..], c)
    else var rest := Split(s[1..], c); [[s[0]] + rest[0]] + rest[1..]
  }

  /** `parts.join(sep)`. */
  function Join(parts: seq<string>, sep: string): string
  {
    if |parts| == 0 then ""
    else if |parts| == 1 then parts[0]
    else parts[0] + sep + Join(parts[1..], sep)
  }

  /** Splitting yields one piece more than there are separators, and no piece contains one. */
  lemma {:induction false} SplitShape(s: string, c: char)
    ensures |Split(s, c)| == Count(s, c) + 1
    ensures forall k :: 0 <= k < |Split(s, c)| ==> c !in Split(s, c)[k]
    decreases |s|
  {
    if s != [] {
      SplitShape(s[1..], c);
      if s[0] != c {
        var rest := Split(s[1..], c);
        assert c !in rest[0];
        assert Split(s, c)[0] == [s[0]] + rest[0];
        forall k | 1 <= k < |Split(s, c)|
          ensures c !in Split(s, c)[k]
        {
          assert Split(s, c)[k] == rest[k];
        }
      }
    }
  }

  /** Joining the pieces back with the separator gives the original string. */
  lemma {:induction false} JoinSplit(s: string, c: char)
    ensures Join(Split(s, c), [c]) == s
    decreases |s|
  {
    if s != [] {
      JoinSplit(s[1..], c);
      var rest := Split(s[1..], c);
      if s[0] == c {
        assert Split(s, c)[1..] == rest;
      } else {
        var r := Split(s, c);
        assert r[0] == [s[0]] + rest[0];
        assert r[1..] == rest[1..];
        if |rest| == 1 {
          assert Join(rest, [c]) == rest[0];
        } else {
          assert Join(rest, [c]) == rest[0] + [c] + Join(rest[1..], [c]);
        }
      }
    }
  }

  /** The first piece of `s.split(c)`: everything before the first `c`. */
  lemma {:induction false} SplitHead(s: string, c: char)
    ensures StartsWith(s, Split(s, c)[0])
    ensures |Split(s, c)[0]| < |s| ==> s[|Split(s, c)[0]|] == c
    ensures c !in Split(s, c)[0]
    decreases |s|
  {
    SplitShape(s, c);
    if s != [] && s[0] != c {
      SplitHead(s[1..], c);
    }
  }

  /** A separator after a piece without one splits off that piece. */
  lemma {:induction false} SplitAfterPiece(a: string, b: string, c: char)
    requires c !in a
    ensures Split(a + [c] + b, c) == [a] + Split(b, c)
    decreases |a|
  {
    if a == [] {
      assert a + [c] + b == [c] + b;
    } else {
      SplitAfterPiece(a[1..], b, c);
      assert (a + [c] + b)[1..] == a[1..] + [c] + b;
      assert [a[0]] + a[1..] == a;
    }
  }

  /** A string made of a separator-free piece, the separator, a second separator-free
      piece and a remainder that is empty or starts with the separator splits into those
      two pieces first. */
  lemma SplitPrefixPieces(first: string, second: string, rest: string, c: char)
    requires c !in first && c !in second && (rest == [] || rest[0] == c)
    ensures var parts := Split(first + [c] + second + rest, c);
      |parts| >= 2 && parts[0] == first && parts[1] == second
  {
    assert first + [c] + second + rest == first + [c] + (second + rest);
    SplitAfterPiece(first, second + rest, c);
    if rest == [] {
      assert second + rest == second;
      SplitWithout(second, c);
    } else {
      assert second + rest == second + [c] + rest[1..];
      SplitAfterPiece(second, rest[1..], c);
    }
  }

  /** Every string holding the separator is cut that way, at its first two separators. */
  lemma SplitFirstTwo(s: string, c: char) returns (first: string, second: string, rest: string)
    requires c in s
    ensures s == first + [c] + second + rest
    ensures c !in first && c !in second && (rest == [] || rest[0] == c)
  {
    SplitHead(s, c);
    var i := |Split(s, c)[0]|;
    first := s[..i];
    var t := s[i + 1..];
    SplitHead(t, c);
    var j := |Split(t, c)[0]|;
    second := t[..j];
    rest := t[j..];
    assert t == second + rest;
    assert s == s[..i] + [s[i]] + s[i + 1..];
  }

  /** Splitting pieces joined with a separator they do not contain gives them back. */
  lemma {:induction false} SplitJoin(parts: seq<string>, c: char)
    requires |parts| >= 1
    requires forall i :: 0 <= i < |parts| ==> c !in parts[i]
    ensures Split(Join(parts, [c]), c) == parts
    decreases |parts|
  {
    if |parts| == 1 {
      SplitWithout(parts[0], c);
    } else {
      SplitJoin(parts[1..], c);
      SplitAfterPiece(parts[0], Join(parts[1..], [c]), c);
      assert [parts[0]] + parts[1..] == parts;
    }
  }

  /** Without the separator, `split` gives the whole string back as the only piece. */
  lemma {:induction false} SplitWithout(s: string, c: char)
    requires c !in s
    ensures Split(s, c) == [s]
    decreases |s|
  {
    if s != [] {
      SplitWithout(s[1..], c);
      assert [s[0]] + s[1..] == s;
    }
  }

  /** `s.substring(0, n)`: the first `n` characters, or all of `s` when it is shorter. */
  function Take(s: string, n: nat): (r: string)
    ensures |r| == (if |s| < n then |s| else n)
    ensures StartsWith(s, r)
  {
    if |s| <= n then s else s[..n]
  }

  // ---------------------------------------------------------------- digits and numbers

  /** The regular-expression test `^\d+$`. */
  predicate AllDigits(s: string)
  {
    |s| > 0 && forall i :: 0 <= i < |s| ==> IsDigit(s[i])
  }

  /** The regular-expression test `\d`. */
  predicate HasDigit(s: string)
  {
    exists i :: 0 <= i < |s| && IsDigit(s[i])
  }

  function DigitChar(d: nat): (c: char)
    requires d < 10
    ensures IsDigit(c)
  {
    ('0' as int + d) as char
  }

  /** The decimal rendering of a natural number, as a template literal prints it. */
  function Decimal(n: nat): (r: string)
    ensures AllDigits(r)
    ensures n >= 10 ==> |r| >= 2
  {
    if n < 10 then [DigitChar(n)] else Decimal(n / 10) + [DigitChar(n % 10)]
  }

  function DigitValue(c: char): nat
    requires IsDigit(c)
  {
    c as int - '0' as int
  }

  /** Reading the digits back as a number. */
  function DecimalValue(s: string): nat
    requires forall i :: 0 <= i < |s| ==> IsDigit(s[i])
  {
    if s == [] then 0 else DecimalValue(s[..|s| - 1]) * 10 + DigitValue(s[|s| - 1])
  }

  /** The digits of a string, in order. */
  function Digits(s: string): string
  {
    if s == [] then [] else (if IsDigit(s[0]) then [s[0]] else []) + Digits(s[1..])
  }

  lemma {:induction false} DigitsAppend(a: string, b: string)
    ensures Digits(a + b) == Digits(a) + Digits(b)
  {
    if a == [] {
      assert a + b == b;
    } else {
      var ab := a + b;
      var head := if IsDigit(a[0]) then [a[0]] else [];
      assert ab != [] && ab[0] == a[0] && ab[1..] == a[1..] + b;
      calc {
        Digits(ab);
        head + Digits(a[1..] + b);
        { DigitsAppend(a[1..], b); }
        head + (Digits(a[1..]) + Digits(b));
        (head + Digits(a[1..])) + Digits(b);
        Digits(a) + Digits(b);
      }
    }
  }

  lemma DigitsSplit(s: string, n: nat)
    requires n <= |s|
    ensures Digits(s) == Digits(s[..n]) + Digits(s[n..])
  {
    assert s == s[..n] + s[n..];
    DigitsAppend(s[..n], s[n..]);
  }

  /** `Decimal` is the inverse of `DecimalValue`: the rendering reads back as the number. */
  lemma {:induction false} DecimalRoundTrip(n: nat)
    ensures DecimalValue(Decimal(n)) == n
  {
    if n >= 10 {
      DecimalRoundTrip(n / 10);
      var d := Decimal(n);
      assert d[..|d| - 1] == Decimal(n / 10);
    }
  }
}

=== FILE: types.dfy ===
/**
 * The record every source adapter produces (`NormalizedHackathon`, server/types.ts).
 * Dates are instants in milliseconds since the epoch. `source` is kept as the string
 * label the adapters write, so that a label outside the declared union (the Devfolio
 * adapter's 'devfolio') can be represented and detected by `IsSourceLabel`.
 */
module Types {
  import opened Wrappers

  /** The participation mode, `'online' | 'offline' | 'hybrid'`. */
  datatype Mode = Online | Offline | Hybrid

  /** The lower-case label of a mode, as stored and sent over the wire. */
  function ModeName(m: Mode): string
  {
    match m
    case Online => "online"
    case Offline => "offline"
    case Hybrid => "hybrid"
  }

  /** Reads a mode label back; anything outside the three labels is `None`. */
  function ParseMode(s: string): Option<Mode>
  {
    if s == "online" then Some(Online)
    else if s == "offline" then Some(Offline)
    else if s == "hybrid" then Some(Hybrid)
    else None
  }

  /** The three labels are exactly the mode enumeration: parsing inverts `ModeName`,
      and a label parses only if it is the name of the mode it parses to. */
  lemma ModeNameRoundTrip(m: Mode, s: string)
    ensures ParseMode(ModeName(m)) == Some(m)
    ensures ParseMode(s).Some? ==> ModeName(ParseMode(s).value) == s
    ensures ParseMode(s).Some? <==> s in {"online", "offline", "hybrid"}
  {
  }

  /** The labels of the `source` union: `'mlh' | 'kaggle' | 'devpost'`. */
  predicate IsSourceLabel(s: string)
  {
    s == "mlh" || s == "kaggle" || s == "devpost"
  }

  /** `NormalizedHackathon`: `location`, `prize` and `imageUrl` are optional, every other
      field is required. No relation between `startDate` and `endDate` is imposed. */
  datatype Hackathon = Hackathon(
    title: string,
    organizer: string,
    description: string,
    startDate: int,
    endDate: int,
    mode: Mode,
    isPaid: bool,
    skills: seq<string>,
    registrationUrl: string,
    source: string,
    location: Option<string>,
    prize: Option<string>,
    imageUrl: Option<string>)

  /** A record whose `source` stays within the declared union. */
  predicate WellTyped(h: Hackathon)
  {
    IsSourceLabel(h.source)
  }

  /** The record type relates neither the two dates nor the dates and the source: a record
      that ends before it starts is a well-typed `NormalizedHackathon`. */
  lemma DatesUnrelated()
    ensures exists h: Hackathon :: WellTyped(h) && h.endDate < h.startDate
  {
    var h := Hackathon("t", "o", "d", 2, 1, Online, false, [], "u", "mlh", None, None, None);
    assert WellTyped(h) && h.endDate < h.startDate;
  }
}

=== FILE: wrappers.dfy ===
/** Optional values: a JavaScript `undefined`/`null` or an absent field is `None`. */
module Wrappers {

  datatype Option<+T> = None | Some(value: T) {

    /** The wrapped value, or `default` when there is none (JavaScript's `x ?? default`). */
    function GetOr(default: T): T
    {
      match this
      case Some(v) => v
      case None => default
    }
  }

  /** JavaScript truthiness of an optional string: present and non-empty. */
  predicate Truthy(s: Option<string>)
  {
    s.Some? && s.value != ""
  }
}
